=== FILE: README.md ===
# MewUpdater core in Dafny

MewUpdater converts a Minecraft resource pack written for an older layout into the
current one. This project models the decision-making of its conversion pipeline
(`MewUpdater.py`) as pure Dafny functions and proves properties about them:

- **Slicer specification parser** (`load_slicer_mappings`, module `SlicerSpec`):
  - splits the text into `input("…",` blocks;
  - collects the `new OutputFile("…", new Box(…)` entries of each block;
  - reads six integers from the box arguments and looks up `.metadata(…)` text;
  - builds the insertion-ordered input → rules mapping.
  The regular expressions are written out as literal scans with Python `re` semantics. Module `SlicerMetadata` proves what the triple-quoted metadata pattern matches.
- **Sprite slicer** (`apply_slicer_mappings`, modules `Crop` and `Slicer`):
  - scales and clamps each crop rectangle;
  - counts progress ticks, written sprites and metadata sidecars;
  - treats a zero reference size as the uncaught `ZeroDivisionError` it is.
  Image lookup is a parameter `Lookup: string -> Picture`, which says whether an input is missing, unreadable, or decoded with its size. Whether writing a file at a path succeeds is a parameter `Saves`. It covers the sprite at its output path and the sidecar at `<output>.mcmeta`.
- **Armor dispatch** (`transform_armor_textures`, module `Armor`): the ordered first-match classifier from a file name and its folder to an optional destination.
- **Trim rename** (`transform_trims`, module `Trims`): the destination folder and the name with `_leggings` removed.
- **Copy passes** (module `CopyPass`): the loop shape both relocation passes share. Only files with a destination are copied, counted and ticked. Copy success is a parameter `Copies`.
- **Model reference rewriter** (`update_model_json_paths` and `walk_obj`, modules `JsonTree`, `ModelRefs`):
  - the two `re.sub` calls on path strings;
  - the recursive walk over a JSON tree;
  - which files are written back. Whether a write succeeds is a parameter `Writes`.
- **pack.mcmeta update** (`update_pack_mcmeta`, module `PackMeta`): the dict updates on the descriptor, with the rich-text description `MCMETA_TEXT_COMPONENT`. The clock is a `timestamp` parameter.
- **Output archive name** (`update_pack._worker`, module `OutputName`): `<parent>/<stem>-mewupdated.zip`, then the first free numbered candidate. The existing files are a finite set `taken`.
- **Drag-and-drop splitter** (`handle_drop`, module `DropPayload`): the brace-depth scan of a Tcl list and the whitespace fallback.

Shared pieces:
- `Text` holds the Python string operations used: `strip`, `split`, `replace`, `lower` (ASCII), `str.find`, decimal formatting.
- `Dict` is Python's insertion-ordered dict. It serves both the slicer mapping and JSON objects.
- `Wrappers` holds `Option` and `Result`. The error kinds of `Result` are the exceptions that end a run: a zero reference size, a folder that `safe_mkdir` cannot create (the parameter `MakesDir` says whether it can), and a `pack.mcmeta` of the wrong shape.

## Model

| member | source | states |
|---|---|---|
| Text.Strip | MewUpdater.py:645 | `raw.strip()` is the input with leading and trailing whitespace removed: a slice whose cut-off ends are all whitespace, which neither starts nor ends with whitespace, and which is empty exactly when the input is all whitespace |
| Text.StripUnchanged | MewUpdater.py:645 | a string with no whitespace at either end is its own strip |
| Text.Words | MewUpdater.py:663 | `raw.split()` gives non-empty words that hold no whitespace, and none exactly when the input is all whitespace |
| Text.WordsJoinRoundTrip | MewUpdater.py:663 | non-empty words without whitespace, joined by spaces, split back into the same words |
| Text.Lower | MewUpdater.py:215 | `fn.lower()` keeps the length and lowers each character on its own |
| Text.FindIterComplete | MewUpdater.py:96 | `finditer` misses no match: none starts before the first match, between two matches, or after the last |
| Text.Replace | MewUpdater.py:266 | `str.replace` leaves a string without the pattern unchanged |
| Text.ReplaceLengthCount | MewUpdater.py:266 | `str.replace` changes the length by the length difference once per occurrence, the occurrences being one fewer than the split pieces |
| Text.ReplaceIsJoinOfSplit | MewUpdater.py:266 | `str.replace` is the split at the pattern joined with the replacement |
| Text.ReplaceChangesIff | MewUpdater.py:266 | a replacement of another length changes the string exactly when the pattern occurs in it |
| Text.Split | MewUpdater.py:266 | splitting at a separator gives at least one piece |
| Text.ContainsIffSplits | MewUpdater.py:265-266 | a string contains the separator exactly when splitting at it gives two pieces or more |
| Text.SplitPiecesAvoidSeparator | MewUpdater.py:266 | no piece of a split contains the separator |
| Text.JoinSplitRoundTrip | MewUpdater.py:266 | joining the split pieces with the pattern gives the string back |
| Text.JoinSeparatorInjective | MewUpdater.py:613 | two or more pieces joined with two separators give the same string only when the separators are equal |
| Text.DecimalRoundTrip | MewUpdater.py:613 | the decimal text of `i` in `f"_{i}.zip"` reads back as `i` |
| Dict.Get | MewUpdater.py:332 | a dict lookup finds nothing exactly when the key is absent, and otherwise finds a stored entry |
| Dict.Put | MewUpdater.py:114 | `d[k] = v` keeps a present key in place, appends a new one last, and stores `v` |
| Dict.PutKeepsOthers | MewUpdater.py:333-337 | assigning one key leaves every other key's value as it was |
| Dict.PutPut | MewUpdater.py:114 | of two assignments to one key, the later one stays |
| Dict.PutSame | MewUpdater.py:334-336 | assigning a key the value it already holds changes nothing |
| Dict.PutKeepsKeysDistinct | MewUpdater.py:114 | assignment keeps the keys pairwise distinct |
| Crop.RoundHalfEven | MewUpdater.py:153-156 | `round(n / d)` is within half of the quotient, and a tie goes to the even integer |
| Crop.Clamp | MewUpdater.py:157-160 | for an image of at least 1×1 the clamped rectangle is non-empty and inside the image; it equals the raw one exactly when the raw one was already inside |
| Crop.CropRect | MewUpdater.py:150-161 | for any reference box with non-zero reference size, the crop lies inside the image and is non-empty; a scaled rectangle that is already inside is kept |
| Crop.WidgetButtonScenario | MewUpdater.py:153-161 | a 20×20 box in a 200×200 reference space crops (0, 0, 40, 40) from a 400×400 image |
| SlicerSpec.BlocksFrom | MewUpdater.py:85-115 | the block loop ends: each round moves the scan position forward, so there are at most as many blocks as characters left |
| SlicerSpec.OutputMatches | MewUpdater.py:71 | `finditer` gives the matches of the `OutputFile` pattern in text order, without overlap, and misses none |
| SlicerSpec.NumbersAtListed | MewUpdater.py:72 | a comma-separated list of numerals is read back as its values |
| SlicerSpec.BoxNumsListed | MewUpdater.py:99-101 | six comma-separated numerals give the box of their six values |
| SlicerSpec.BoxNumsRoundTrip | MewUpdater.py:72 | the box text written for a box parses back to that box |
| SlicerSpec.MetadataAsWrittenPastEndpos | MewUpdater.py:104-107 | with `re.DOTALL` (16) passed as `endpos`, no metadata search after position 16 finds anything |
| SlicerSpec.KeepMembers | MewUpdater.py:96-112 | a rule is kept exactly when some `OutputFile` has six integers in its box arguments, with that path and box |
| SlicerSpec.UnreadableBoxSkipped | MewUpdater.py:99-103 | removing an `OutputFile` whose box arguments lack six integers changes no kept rule |
| SlicerSpec.ParseBlock | MewUpdater.py:96-112 | as written, no rule of a block carries metadata |
| SlicerSpec.ParseBlockMembers | MewUpdater.py:96-112 | the rules of a block, as written, are one per matched `OutputFile` with readable box numbers, all without metadata |
| SlicerSpec.ParseBlockCorrected | MewUpdater.py:96-112 | the corrected metadata lookup keeps the same outputs and boxes in the same order as the program's parse |
| SlicerSpec.MetadataCallAttached | MewUpdater.py:108-111 | with the corrected lookup, a window that is a single-line `.metadata("…")` call gives its stripped text |
| SlicerSpec.MetadataCallThenRest | MewUpdater.py:108-111 | the same holds whatever follows the call in the window, as long as no other `.metadata(` call does |
| SlicerMetadata.TripleAtCall | MewUpdater.py:74 | `METADATA_TRIPLE_RE` matches at the `.metadata(` of a triple-quoted call with a quote-free body, wherever the call stands, and captures the body with the line ends around it |
| SlicerMetadata.StripPadded | MewUpdater.py:110 | `strip()` takes those line ends off again and gives back the body |
| SlicerMetadata.TripleCallThenRest | MewUpdater.py:108-110 | with the corrected lookup, a window that starts with a triple-quoted call gives its body, whatever follows |
| SlicerMetadata.TripleWinsOverSingle | MewUpdater.py:106-111 | with the corrected lookup, in a window holding a single-line call and then a triple-quoted one, both searches find a call, and the triple-quoted body is taken |
| SlicerSpec.MetadataAttachedInBlock | MewUpdater.py:96-112 | with the corrected lookup, the rule of an `OutputFile` followed by a single-line `.metadata("…")` carries the stripped text and is among the block's rules |
| SlicerSpec.Collect | MewUpdater.py:113-114 | every mapping entry comes from a block and has a non-empty rule list |
| SlicerSpec.CollectDistinct | MewUpdater.py:113-114 | each input appears at most once in the mapping |
| SlicerSpec.CollectAbsent | MewUpdater.py:113-114 | an input is absent exactly when none of its blocks kept a rule |
| SlicerSpec.CollectLast | MewUpdater.py:113-114 | an input maps to the rules of its last block that kept any; later blocks replace earlier ones |
| SlicerSpec.LoadSlicerMappings | MewUpdater.py:81-116 | a missing specification file gives an empty mapping; each input appears once, with a non-empty rule list |
| SlicerSpec.LoadSlicerMappingsCorrected | MewUpdater.py:81-116 | the corrected parse gives an empty mapping for a missing file; each input appears once, with a non-empty rule list |
| SlicerSpec.LoadedMetadataAlwaysNone | MewUpdater.py:76-116 | as written, no rule in a loaded mapping carries metadata |
| SlicerSpec.CorrectedKeepsMapping | MewUpdater.py:76-116 | the corrected parse maps the same inputs, in the same order |
| Slicer.SidecarUnwrapsTriple | MewUpdater.py:169-172 | metadata wrapped in triple quotes is written without them |
| Slicer.SidecarKeepsPlain | MewUpdater.py:169-172 | already-stripped metadata without triple quotes is written unchanged |
| Slicer.SliceOne | MewUpdater.py:151-185 | one rule ends the run exactly on a zero reference size or an output folder that cannot be created, with that error; otherwise it gives one tick and a sprite exactly when the sprite's save succeeds. It adds a sidecar exactly when, in addition, the metadata is non-empty and the sidecar's own write succeeds |
| Slicer.SliceAll | MewUpdater.py:151-185 | one tick per rule of a decoded image, and at most one sprite per rule |
| Slicer.SliceAllFails | MewUpdater.py:152-163 | the rules of one image fail exactly when one of them has a zero reference size or a folder that cannot be created |
| Slicer.SliceAllComplete | MewUpdater.py:151-185 | every rule whose save succeeds gives its sprite. It also gives its sidecar when it has non-empty metadata and the sidecar write succeeds. `created` is the number of rules whose save succeeds |
| Slicer.SliceInput | MewUpdater.py:140-185 | a missing or unreadable input gives one tick and writes nothing; a decoded one ticks once per rule |
| Slicer.ApplySlicerMappings | MewUpdater.py:123-186 | the count returned is the number of sprites written |
| Slicer.ApplyFails | MewUpdater.py:124-186 | the whole pass fails exactly when a decoded input has a rule with a zero reference size or an output folder that cannot be created |
| Slicer.ApplyTicks | MewUpdater.py:140-185 | one tick per missing or unreadable input, and one per rule of a decoded input |
| Slicer.ApplyComplete | MewUpdater.py:124-186 | every rule of a decoded input whose save succeeds gives its sprite. It also gives its sidecar when it has non-empty metadata and the sidecar write succeeds. `created` is the number of rules whose save succeeds |
| Slicer.SliceAllSprites | MewUpdater.py:151-168 | every sprite of an image is a saved crop by one of its rules, inside the image |
| Slicer.ApplySprites | MewUpdater.py:124-168 | every sprite comes from a mapped input that decoded, cropped by one of its rules |
| Slicer.SliceAllSidecars | MewUpdater.py:169-182 | every sidecar belongs to a saved sprite with non-empty metadata whose sidecar write succeeded; without metadata there are none |
| Slicer.ApplySidecars | MewUpdater.py:169-182 | every sidecar is `<output>.mcmeta`, written successfully and holding the unwrapped metadata of a saved rule |
| Slicer.NoSidecarsAsWritten | MewUpdater.py:104-112 | as written, the slicer never writes a sidecar |
| CopyPass.Run | MewUpdater.py:242-254 | the pass ends the run exactly when the folder of a routed file cannot be created, naming the first such folder; otherwise the count equals the transfers, which are at most the ticks, which are at most the files |
| CopyPass.Routed | MewUpdater.py:242-243 | the files kept are exactly those with a destination |
| CopyPass.RunIgnoresUnrouted | MewUpdater.py:242-243 | files without a destination change nothing |
| CopyPass.RunTicks | MewUpdater.py:242-254 | one tick per file with a destination, whether the copy succeeds or not |
| CopyPass.RunTransfers | MewUpdater.py:244-253 | the transfers are exactly the routed files whose copy succeeded, each to its destination |
| Armor.LayerMatchIff | MewUpdater.py:187-188 | `(?P<mat>.+?)_layer_N(\.png)$` matches with `mat` exactly when `mat` is a non-empty line prefix followed by the tail, any case |
| Armor.LayerMatchOf | MewUpdater.py:187-188 | `<mat>_layer_N.png` matches with that `mat`, its case kept |
| Armor.NotLayer1 | MewUpdater.py:187-188 | a name ending in `_layer_2.png` never matches the layer-1 pattern |
| Armor.LeatherMatch | MewUpdater.py:189 | the leather overlay digit is 1 or 2 |
| Armor.LeatherMatchIff | MewUpdater.py:189 | `leather_layer_(?P<n>[12])_overlay(\.png)$` matches with `n` exactly when the name is `leather_layer_` in any case, the digit 1 or 2, `_overlay.png` in any case, and at most a final newline |
| Armor.Target | MewUpdater.py:219-241 | every destination lies under `entity/equipment` |
| Armor.FirstMatch | MewUpdater.py:219-243 | some rule fires exactly when one of them has a destination, and the destination is that of the first such rule |
| Armor.FirstMatchIs | MewUpdater.py:219-243 | the first rule with a destination decides |
| Armor.Dispatch | MewUpdater.py:219-243 | a file is skipped exactly when no rule in the fixed order applies; every destination lies under `entity/equipment` |
| Armor.Layer1Destination | MewUpdater.py:219-221 | `<mat>_layer_1.png` goes to `entity/equipment/humanoid/<mat>.png` |
| Armor.Layer2Destination | MewUpdater.py:222-224 | `<mat>_layer_2.png` goes to `entity/equipment/humanoid_leggings/<mat>.png` |
| Armor.LeatherDestination | MewUpdater.py:225-230 | a leather overlay with digit 1 goes to `humanoid/leather_overlay.png`, with digit 2 to `humanoid_leggings/leather_overlay.png` |
| Armor.LeatherScenario | MewUpdater.py:225-228 | `leather_layer_1_overlay.png` goes to `humanoid/leather_overlay.png` |
| Armor.LeatherLeggingsScenario | MewUpdater.py:225-230 | `LEATHER_LAYER_2_OVERLAY.PNG` goes to `humanoid_leggings/leather_overlay.png` |
| Armor.TurtleLayerIsHumanoid | MewUpdater.py:219-235 | `turtle_layer_1.png` goes to `humanoid/turtle.png`, not `turtle_scute.png` |
| Armor.WolfPlainScenario | MewUpdater.py:231-233 | `wolf_armor.png` goes to `wolf_body/armadillo_scute.png` |
| Armor.WolfOverlayScenario | MewUpdater.py:231-233 | `wolf_armor_overlay.png` goes to `wolf_body/armadillo_scute_overlay.png` |
| Armor.UnknownNameScenario | MewUpdater.py:242-243 | `stone.png` has no destination |
| Armor.ArmorPass | MewUpdater.py:212-254 | the pass ends the run exactly when the folder of a file with a destination cannot be created |
| Armor.ArmorPassTransfers | MewUpdater.py:212-254 | the pass copies exactly the files the dispatch routes, ticking once for each of them |
| Trims.TrimName | MewUpdater.py:266 | the name changes exactly when it contains `_leggings` |
| Trims.TrimDestination | MewUpdater.py:265-269 | a trim goes under `trims/entity`, to `humanoid_leggings` exactly when its name contains `_leggings`, with the renamed name |
| Trims.TrimFolder | MewUpdater.py:265-269 | a name goes to `humanoid_leggings` exactly when it contains `_leggings`; other names go to `humanoid`, unchanged |
| Trims.TrimRenamePieces | MewUpdater.py:266 | the new name is the pieces between occurrences of `_leggings`, joined; it is 9 characters shorter per occurrence |
| Trims.RemoveOnce | MewUpdater.py:266 | a single occurrence is cut out and nothing else changes |
| Trims.ChainmailScenario | MewUpdater.py:265-267 | `chainmail_leggings.png` goes to `humanoid_leggings/chainmail.png` |
| Trims.LeftoverScenario | MewUpdater.py:266 | one pass of `replace` can leave `_leggings` in the new name |
| Trims.TrimPass | MewUpdater.py:261-281 | the pass ends the run exactly when the destination folder of a regular file cannot be created |
| Trims.TrimPassTransfers | MewUpdater.py:261-280 | the pass copies exactly the regular files of the listing, each to its destination, ticking once each |
| ModelRefs.End | MewUpdater.py:304-305 | `$` matches at the end or before a final newline |
| ModelRefs.SegmentStart | MewUpdater.py:304-305 | the lazy `[^/]+?` group starts after the last `/` before the tail |
| ModelRefs.Sub | MewUpdater.py:304-305 | one substitution changes a value exactly when its last segment is `<mat>_layer_N` or `<mat>_layer_N.png`; it never shortens it |
| ModelRefs.SubOf | MewUpdater.py:304-305 | the substitution keeps the prefix and puts the destination folder before `mat` |
| ModelRefs.Rewrite | MewUpdater.py:303-305 | the two substitutions in turn either leave a value unchanged or lengthen it |
| ModelRefs.RewriteChangesIff | MewUpdater.py:303-306 | a value changes exactly when it ends in a layer-1 or layer-2 name |
| ModelRefs.Layer1Rewrite | MewUpdater.py:304-305 | `<prefix>/<mat>_layer_1[.png]` becomes `<prefix>/entity/equipment/humanoid/<mat>` when `mat` itself does not end in a layer-2 name |
| ModelRefs.Layer2Rewrite | MewUpdater.py:304-305 | `<prefix>/<mat>_layer_2[.png]` becomes `<prefix>/entity/equipment/humanoid_leggings/<mat>` |
| ModelRefs.RewriteNotIdempotent | MewUpdater.py:304-305 | rewriting `x_layer_1_layer_1` twice differs from rewriting it once |
| ModelRefs.Walk | MewUpdater.py:298-315 | the walked tree is the rewritten form of the input, in which exactly the strings held directly by objects are rewritten. The count is `Changed`: the number of such strings that the rewrite changes. It is zero exactly when nothing changed |
| ModelRefs.WalkField | MewUpdater.py:301-311 | a field keeps its key; a string value is rewritten and any other value is walked; it counts one for a string the rewrite changes, or the changed strings of a walked value; zero exactly when the field is unchanged |
| ModelRefs.WalkFields | MewUpdater.py:300-311 | keys and order are kept; string values are rewritten and other values are walked; the count is the changed strings of all fields, zero exactly when nothing changed |
| ModelRefs.WalkItems | MewUpdater.py:312-314 | array items are walked in place, and strings in arrays stay as they are; the count is the changed strings of all items, zero exactly when nothing changed |
| ModelRefs.RewrittenUnique | MewUpdater.py:298-314 | each tree has exactly one rewritten form |
| ModelRefs.UpdateModels | MewUpdater.py:287-323 | the count returned is the number of object-held strings changed over all parsed `.json` files, whether or not their writes succeed, and no more files are written than strings changed |
| ModelRefs.JsonFiles | MewUpdater.py:289-290 | the files visited are exactly those whose lowered name ends in `.json` |
| ModelRefs.UpdateModelsTicks | MewUpdater.py:288-322 | one tick per `.json` file, parsed or not, whether or not its write succeeds |
| ModelRefs.UpdateModelsWrites | MewUpdater.py:292-320 | a file is written back exactly when it parsed, its rewritten tree differs and `write_json_file` succeeds on it, and it is written with that tree |
| PackMeta.DescriptionSpellsLegacy | MewUpdater.py:22-32 | the coloured description spells `Updated with MewUpdater`, the legacy text |
| PackMeta.Descriptor | MewUpdater.py:326-331 | a parsed descriptor is used as it is; a missing or unparsable file gives an object without `pack` |
| PackMeta.UpdatePack | MewUpdater.py:334-336 | the `pack` object keeps all its keys and gains exactly `pack_format`, `description` and `pack_description_legacy` |
| PackMeta.UpdatePackMeta | MewUpdater.py:326-337 | the update succeeds exactly when the descriptor is an object whose `pack` is an object or missing; otherwise the error says which |
| PackMeta.UpdatePackFields | MewUpdater.py:334-336 | `pack_format` is 64, the description is the fixed component, the legacy description is fixed, and every other `pack` key is kept |
| PackMeta.UpdatePackIdempotent | MewUpdater.py:334-336 | updating the `pack` object twice gives the same object as once |
| PackMeta.UpdatePackMetaFields | MewUpdater.py:326-337 | `pack` is the updated object (from `{}` when missing), `mew_updater` is the stamp, and every other top-level key is kept |
| PackMeta.UpdatePackMetaTwice | MewUpdater.py:326-337 | a second run changes only the timestamp |
| OutputName.AfterLastSlash | MewUpdater.py:607 | the base name starts after the last `/` and holds none |
| OutputName.SplitExt | MewUpdater.py:608 | `splitext` cuts the base into a stem and an extension that together give it back; the extension is empty or one dot and no other |
| OutputName.OutNameNoSlash | MewUpdater.py:607-609 | the archive name holds no `/` |
| OutputName.OutZip | MewUpdater.py:607-609 | the output archive name ends in `.zip` |
| OutputName.OutZipNextToInput | MewUpdater.py:601-609 | the output archive sits in the folder of the input |
| OutputName.OutZipName | MewUpdater.py:607-609 | the output archive is named `<stem>-mewupdated.zip` |
| OutputName.CandidateAsWritten | MewUpdater.py:613 | as written, the numbered candidate equals the output exactly when `.zip` does not occur in it |
| OutputName.AsWrittenInjective | MewUpdater.py:613 | when `.zip` occurs in the output, different numbers give different as-written candidates |
| OutputName.Candidate | MewUpdater.py:612-613 | the corrected numbered candidate stays in the folder of the output and differs from it |
| OutputName.CandidateInjective | MewUpdater.py:612-613 | different numbers give different corrected candidates |
| OutputName.AsWrittenAgreesOnPlainPaths | MewUpdater.py:613 | when `.zip` occurs only at the end, `replace` gives the corrected candidate |
| OutputName.AsWrittenLeavesFolder | MewUpdater.py:613 | as written, a `.zip` in the folder name is replaced too, and the candidate moves to another folder |
| OutputName.AsWrittenLeavesFolderExample | MewUpdater.py:613 | `/p.zip/a-mewupdated.zip` gives `/p_1.zip/a-mewupdated_1.zip` |
| OutputName.FreeName | MewUpdater.py:610-613 | for any numbering that never repeats and never gives back the output, the loop ends with a name not taken: the plain name when free, else the first free numbered candidate, after at most as many rounds as names taken |
| OutputName.FreeNameAsWritten | MewUpdater.py:610-613 | the loop as written, numbering with `replace`, ends with a name not taken: the plain name when free, else the first free candidate, after at most as many rounds as names taken |
| OutputName.FreeNameCorrected | MewUpdater.py:610-613 | the loop with the corrected numbering ends the same way, with a name in the folder of the input |
| DropPayload.Step | MewUpdater.py:649-661 | a character adds at most one path and never removes one |
| DropPayload.ScanAll | MewUpdater.py:649-661 | the scan only appends to the paths found, at most one per character |
| DropPayload.DroppedFiles | MewUpdater.py:645-663 | no path is found exactly when the data is all whitespace |
| DropPayload.HandleDrop | MewUpdater.py:641-670 | empty data does nothing. Non-empty data opens a path exactly when the first path read is non-empty, and it opens that path. Otherwise nothing is opened |
| DropPayload.ScanAppend | MewUpdater.py:649-661 | scanning a concatenation scans one part, then the other |
| DropPayload.ScanGroup | MewUpdater.py:650-658 | a brace-free `{path}` group at top level adds exactly that path |
| DropPayload.ScanOutside | MewUpdater.py:660-661 | brace-free text outside groups is ignored |
| DropPayload.PlainDataIsWords | MewUpdater.py:662-663 | data without `{` is split at whitespace |
| DropPayload.BracedListRoundTrip | MewUpdater.py:645-663 | a list of brace-free paths, each in braces, is read back exactly |
| DropPayload.AsWrittenSkipsPlainFirst | MewUpdater.py:661-663 | as written, in a list whose plain first path is followed by a braced one, the braced one is opened |
| DropPayload.AsWrittenSkipsPlainFirstExample | MewUpdater.py:661-663 | `/c/y.zip {/a b/x.zip}` opens `/a b/x.zip` |
| DropPayload.HandleDropFirstItem | MewUpdater.py:641-670 | the corrected handler reports empty data exactly for empty data, and opens only a non-empty path that is among the paths the program reads or among the whitespace-separated words of the data |
| DropPayload.FirstItemOpensFirstPath | MewUpdater.py:645-670 | the corrected handler opens the first path of any list of brace-free paths as Tcl writes it, braced or not |
| DropPayload.FirstItemAgreesOnBracedLists | MewUpdater.py:645-670 | on lists in which every path is braced, the corrected handler and the program agree |

## Left out

- The desktop window, theming, help, message boxes and the logo gradient are UI code and floating-point maths.
- The worker thread and `after` callbacks are concurrency and UI scheduling.
- Zip extraction and creation, `shutil` copy, move and `rmtree`, `ensure_skeleton`, `resource_path` and changelog writing are file-system I/O. Copy and write success are the parameters `Copies`, `Saves` and `Writes`. `Writes` says whether `write_json_file`, its `safe_mkdir` included, succeeds on a model file. A failed write is caught and only logged, and the strings changed in that file still count. `Saves` covers both the sprite and its sidecar, so a sprite can be written and counted while its sidecar write fails.
- The order of `os.walk` and `os.listdir` is an input: the file lists are given as sequences.
- PIL decoding, cropping and saving are a foreign library. An image is the parameter `Lookup` giving its size, or saying that it is missing or unreadable. The input lookup chain (MewUpdater.py:125-139) is folded into `Lookup`.
- `json.load`, `json.dump` and the `json.loads` check before a sidecar is written are foreign code. A parse is given as `Option<Json>`, and the check only changes the log wording. JSON numbers are integers.
- Log lines, `now_str()` and the progress fraction are left out (the fraction is float arithmetic). The timestamp is a parameter.
- The return value of `update_pack_mcmeta` and its write failure are left out, because they do not change the descriptor.
- Move mode (`copy_only=False`) is left out: it differs from copying only in the file system.
- Directory packs use `os.path.abspath` before `basename`. Path normalisation is not modelled, and the input path is taken as given.
- Text.Lower: lowers ASCII letters only. Python also lowers other letters. No pattern the program tests contains a letter whose lowering differs outside ASCII.
- Crop.RoundHalfEven: rounds the exact quotient. Python rounds the nearest float to it, which can differ when the quotient is within a float's error of a half.
- Slicer.SliceAll: its own contract only counts ticks and sprites. Slicer.SliceAllSprites and Slicer.SliceAllComplete give the sprites in both directions, as a set: the order in which they are written is not stated.
- DropPayload.HandleDrop: models only the case of a dropped path. `path_var.set` and `detect_pack` are UI calls.
- `TclList` writes an item in braces when it is empty, holds one of ``[ ] $ ; \ "``, holds a character that Python's `isspace` accepts, or is the first item and starts with `#`. For a brace-free path this is what Tcl does, except for whitespace: Tcl braces only for space, `\t`, `\n`, `\v`, `\f` and `\r`. A path holding any other `isspace` character (`\x1c`–`\x1f`, `\x85`, U+00A0, U+1680, U+2000–U+200A, U+2028, U+2029, U+202F, U+205F, U+3000) is braced by `TclList` but written bare by Tcl. DropPayload.FirstItemOpensFirstPath, DropPayload.FirstItemAgreesOnBracedLists and DropPayload.AsWrittenSkipsPlainFirst are about lists as `TclList` writes them. A path holding `{` or `}` is not modelled, because Tcl writes it with backslash escapes unless its braces balance. The lemmas about Tcl lists require brace-free paths.
- Paths are POSIX paths: `Dirname`, `Basename` and `PathJoin` split only at `/`. On Windows, where the program also runs (`os.sep` and `assets\\realms` at MewUpdater.py:127), `ntpath` also splits at `\` and treats a drive letter such as `C:` as part of the folder. These cases are not modelled.
- Text.Split: its own contract only promises at least one piece, because a stronger one made every proof that uses `Split` too costly. Text.ContainsIffSplits, Text.SplitPiecesAvoidSeparator and Text.JoinSplitRoundTrip state what the pieces are.
- ModelRefs.Rewrite: its own contract only promises that a change lengthens the value, for the same reason. ModelRefs.RewriteChangesIff states when it changes.
- Slicer.ApplySlicerMappings: its own contract only ties the count to the sprites; Slicer.ApplyComplete and Slicer.ApplySprites state which sprites are written.

### Where the code and its design description differ (the model follows the code)

- **Turtle helmet.** `turtle_layer_1.png` matches the layer-1 rule first, so it goes to `humanoid/turtle.png`. The turtle rule only catches names such as `turtle_layer_1_x.png`.
- **Missing slicer input.** A missing or unreadable input gets one progress tick, not one per rule.
- **Zero reference size.** It raises `ZeroDivisionError` outside any `try` and ends the whole run. It is modelled as an error result.
- **Folder creation.** `safe_mkdir` (MewUpdater.py:163, 244 and 270) runs outside the `try` too, so a folder it cannot create ends the whole run. It is modelled as the error `FolderNotCreated`.
- **Model rewrite.** The rewrite is not idempotent (`ModelRefs.RewriteNotIdempotent`).
- **Sidecar text.** The sidecar is written with its triple quotes removed, not verbatim.
- **pack.mcmeta shape.** A descriptor that is not an object, or a `pack` entry that is not an object, raises `TypeError`. It is modelled as an error result.
- **Slicer metadata.** Metadata is never attached as written (first Finding).

## Findings

| source | as written | input that shows it | evidently intended | confidence | as-written member | corrected member |
|---|---|---|---|---|---|---|
| MewUpdater.py:106-107 | `METADATA_*_RE.search(block, after_pos, re.DOTALL)` passes the flag value 16 as `endpos`; every `OutputFile` match ends at index 29 or later, so both searches return `None` | a block `new OutputFile("a.png", new Box(0,0,1,1,1,1)).metadata("{}")`: the rule is kept without metadata, and no sidecar is written | the metadata call after an `OutputFile` is attached to it | not executed | SlicerSpec.ParseBlock | SlicerSpec.MetadataAttachedInBlock |
| MewUpdater.py:613 | `out_zip.replace(".zip", f"_{i}.zip")` replaces every `.zip` in the whole path, the folder included | output `/p.zip/a-mewupdated.zip` already present: the candidate is `/p_1.zip/a-mewupdated_1.zip`, in another folder | only the final extension is replaced, so the candidate stays next to the output | not executed | OutputName.AsWrittenLeavesFolderExample | OutputName.FreeNameCorrected |
| MewUpdater.py:661-663 | as soon as one `{…}` group closes, unbraced paths are ignored, so the first path opened is the first braced one | dropping `/c/y.zip` and `/a b/x.zip` gives the Tcl list `/c/y.zip {/a b/x.zip}`, and `/a b/x.zip` is opened | the first dropped path is opened | not executed | DropPayload.AsWrittenSkipsPlainFirstExample | DropPayload.FirstItemOpensFirstPath |

For the first finding, the corrected parse (`LoadSlicerMappingsCorrected`) searches each `OutputFile`'s window for metadata. The window runs from that `OutputFile` up to the next one, so the call is attached to the rule it follows. A triple-quoted call wins over a single-line one (`SlicerMetadata.TripleWinsOverSingle`). The corrected parse keeps the same rules and the same mapping keys (`SlicerSpec.ParseBlockCorrected`, `SlicerSpec.CorrectedKeepsMapping`).

For the second finding, `OutputName.FreeName` is the loop over any numbering that never repeats and never gives the output back. `OutputName.FreeNameAsWritten` runs it with the program's `replace` numbering and `OutputName.FreeNameCorrected` with the corrected one, which keeps the name in the folder of the input.

=== FILE: armor.dfy ===
/** The armor and equipment texture pass (`transform_armor_textures`,
    MewUpdater.py:187-243): every file under the textures folder is classified by an
    ordered list of rules into an optional destination under
    `entity/equipment/`, and the matched files are copied (or moved) there.

    A destination is a path relative to the textures folder, as the list of components
    `os.path.join` receives. */
module Armor {
  import opened Wrappers
  import opened Text
  import CopyPass

  // ---------------------------------------------------------------------------
  // The three regular expressions of MewUpdater.py:187-189
  // ---------------------------------------------------------------------------

  predicate NoNewline(s: string) { forall k :: 0 <= k < |s| ==> s[k] != '\n' }

  /** What follows the material matches `word` and then `$`: the end of the name, or
      a final newline. */
  predicate TailMatches(rest: string, word: string) {
    && CaselessAt(rest, 0, word)
    && (|rest| == |word| || (|rest| == |word| + 1 && rest[|word|] == '\n'))
  }

  const Layer1Tail := "_layer_1.png"
  const Layer2Tail := "_layer_2.png"

  /** `re.match(r"(?P<mat>.+?)<tail>$", fn, re.IGNORECASE)` and its `mat` group, for a
      tail ending in a letter. The lazy `.+?` takes the shortest material for which the
      rest matches, and `.` does not match a newline. Only two splits can leave a tail
      that ends at `$`, and the shorter material (before a final newline) is tried
      first. */
  function LayerMatch(fn: string, tail: string): Option<string>
    requires |tail| > 0 && tail[|tail| - 1] != '\n'
  {
    var n := |fn|;
    if n >= |tail| + 2 && fn[n - 1] == '\n' && CaselessAt(fn, n - 1 - |tail|, tail)
       && NoNewline(fn[..n - 1 - |tail|])
    then Some(fn[..n - 1 - |tail|])
    else if n >= |tail| + 1 && CaselessAt(fn, n - |tail|, tail) && NoNewline(fn[..n - |tail|])
    then Some(fn[..n - |tail|])
    else None
  }

  lemma CaselessAtShift(s: string, j: nat, word: string)
    requires j <= |s|
    ensures CaselessAt(s, j, word) <==> CaselessAt(s[j..], 0, word)
  {
    if CaselessAt(s[j..], 0, word) {
      forall k | 0 <= k < |word| ensures CaselessEq(s[j + k], word[k]) {
        assert s[j..][k] == s[j + k];
      }
    }
  }

  /** The material is the non-empty, newline-free prefix after which the rest of the name
      matches the tail and `$`: the regular expression's meaning, split by split. */
  lemma LayerMatchIff(fn: string, tail: string, mat: string)
    requires |tail| > 0 && tail[|tail| - 1] != '\n'
    ensures LayerMatch(fn, tail) == Some(mat) <==>
      mat != [] && NoNewline(mat) && StartsWith(fn, mat) && TailMatches(fn[|mat|..], tail)
  {
    var n := |fn|;
    if mat != [] && NoNewline(mat) && StartsWith(fn, mat) && TailMatches(fn[|mat|..], tail) {
      CaselessAtShift(fn, |mat|, tail);
      assert fn[..|mat|] == mat;
      if |fn[|mat|..]| == |tail| + 1 {
        assert fn[n - 1] == fn[|mat|..][|tail|];
      } else {
        assert CaselessEq(fn[n - 1], tail[|tail| - 1]);
      }
    }
    if LayerMatch(fn, tail) == Some(mat) {
      var j := |mat|;
      assert fn[..j] == mat;
      CaselessAtShift(fn, j, tail);
      if j == n - 1 - |tail| && fn[n - 1] == '\n' {
        assert fn[j..][|tail|] == fn[n - 1];
      }
    }
  }

  /** A name written as `<mat><tail>` gives back `mat`. */
  lemma LayerMatchOf(mat: string, tail: string)
    requires |tail| > 0 && tail[|tail| - 1] != '\n'
    requires mat != [] && NoNewline(mat)
    ensures LayerMatch(mat + tail, tail) == Some(mat)
  {
    var fn := mat + tail;
    assert fn[|mat|..] == tail;
    assert fn[..|mat|] == mat;
    LayerMatchIff(fn, tail, mat);
  }

  const LeatherHead := "leather_layer_"
  const OverlayTail := "_overlay.png"

  /** `LEATHER_OVERLAY_RE.match(fn)`: the digit of `leather_layer_<n>_overlay.png`, any
      case, at the start of the name and followed by `$`. */
  function LeatherMatch(fn: string): (r: Option<char>)
    ensures r.Some? ==> r.value == '1' || r.value == '2'
  {
    if && CaselessAt(fn, 0, LeatherHead) && |fn| >= 15 && (fn[14] == '1' || fn[14] == '2')
       && TailMatches(fn[15..], OverlayTail)
    then Some(fn[14])
    else None
  }

  /** The pattern read as a grammar: `leather_layer_`, the digit, `_overlay.png` (each
      word in any case), then `$`: the end of the name or a final newline. */
  lemma LeatherMatchIff(fn: string, n: char)
    ensures LeatherMatch(fn) == Some(n) <==>
      exists head, tail, end ::
        && fn == head + [n] + tail + end
        && |head| == 14 && CaselessAt(head, 0, LeatherHead)
        && (n == '1' || n == '2')
        && |tail| == 12 && CaselessAt(tail, 0, OverlayTail)
        && (end == "" || end == "\n")
  {
    if LeatherMatch(fn) == Some(n) {
      var head, tail, end := fn[..14], fn[15..27], fn[27..];
      assert fn == head + [n] + tail + end;
      assert CaselessAt(head, 0, LeatherHead) by {
        forall k | 0 <= k < 14 ensures CaselessEq(head[k], LeatherHead[k]) {
          assert head[k] == fn[k];
        }
      }
      assert CaselessAt(tail, 0, OverlayTail) by {
        forall k | 0 <= k < 12 ensures CaselessEq(tail[k], OverlayTail[k]) {
          assert tail[k] == fn[15..][k];
        }
      }
      if |fn| == 28 {
        assert end == [fn[15..][12]];
      }
    }
    if exists head, tail, end ::
        && fn == head + [n] + tail + end
        && |head| == 14 && CaselessAt(head, 0, LeatherHead)
        && (n == '1' || n == '2')
        && |tail| == 12 && CaselessAt(tail, 0, OverlayTail)
        && (end == "" || end == "\n")
    {
      var head, tail, end :|
        && fn == head + [n] + tail + end
        && |head| == 14 && CaselessAt(head, 0, LeatherHead)
        && (n == '1' || n == '2')
        && |tail| == 12 && CaselessAt(tail, 0, OverlayTail)
        && (end == "" || end == "\n");
      LeatherOf(fn, head, n, tail, end);
    }
  }

  lemma LeatherOf(fn: string, head: string, n: char, tail: string, end: string)
    requires fn == head + [n] + tail + end
    requires |head| == 14 && CaselessAt(head, 0, LeatherHead)
    requires n == '1' || n == '2'
    requires |tail| == 12 && CaselessAt(tail, 0, OverlayTail)
    requires end == "" || end == "\n"
    ensures LeatherMatch(fn) == Some(n)
  {
    assert fn[14] == n;
    assert CaselessAt(fn, 0, LeatherHead) by {
      forall k | 0 <= k < 14 ensures CaselessEq(fn[k], LeatherHead[k]) {
        assert fn[k] == head[k];
      }
    }
    var rest := fn[15..];
    assert rest == tail + end;
    assert CaselessAt(rest, 0, OverlayTail) by {
      forall k | 0 <= k < 12 ensures CaselessEq(rest[k], OverlayTail[k]) {
        assert rest[k] == tail[k];
      }
    }
  }

  // ---------------------------------------------------------------------------
  // The rules and their order
  // ---------------------------------------------------------------------------

  /** The rules of MewUpdater.py:219-241, named by what they catch. */
  datatype Rule =
    | Layer1 | Layer2 | LeatherOverlay | WolfArmor | TurtleShell | LlamaDecor | HorseArmor | Elytra

  /** The order in which the source tests them. */
  const Order: seq<Rule> :=
    [Layer1, Layer2, LeatherOverlay, WolfArmor, TurtleShell, LlamaDecor, HorseArmor, Elytra]

  type Path = CopyPass.Path

  /** `os.path.join(troot, "entity", "equipment", name...)`, relative to `troot`. */
  function Equipment(names: seq<string>): Path { ["entity", "equipment"] + names }

  /** The destination rule `rule` gives file `fn` in folder `folder` (the name of the
      directory holding it), or None when the rule does not apply to it. */
  function Target(rule: Rule, fn: string, folder: string): (d: Option<Path>)
    ensures d.Some? ==> |d.value| >= 3 && d.value[..2] == ["entity", "equipment"]
  {
    var lower := Lower(fn);
    match rule
    case Layer1 =>
      var m := LayerMatch(fn, Layer1Tail);
      if m.Some? then Some(Equipment(["humanoid", m.value + ".png"])) else None
    case Layer2 =>
      var m := LayerMatch(fn, Layer2Tail);
      if m.Some? then Some(Equipment(["humanoid_leggings", m.value + ".png"])) else None
    case LeatherOverlay =>
      var n := LeatherMatch(fn);
      if n.None? then None
      else if n.value == '1' then Some(Equipment(["humanoid", "leather_overlay.png"]))
      else Some(Equipment(["humanoid_leggings", "leather_overlay.png"]))
    case WolfArmor =>
      if lower == "wolf_armor.png" || lower == "wolf_armor_overlay.png" then
        var base := if !Contains(lower, "overlay") then "armadillo_scute" else "armadillo_scute_overlay";
        Some(Equipment(["wolf_body", base + ".png"]))
      else None
    case TurtleShell =>
      if StartsWith(lower, "turtle_layer_1") then Some(Equipment(["turtle_scute.png"])) else None
    case LlamaDecor =>
      if Contains(lower, "llama") && (Contains(lower, "decor") || Contains(Lower(folder), "decor"))
      then Some(Equipment(["llama_body", fn]))
      else None
    case HorseArmor =>
      if Contains(lower, "horse") && Contains(lower, "armor") then Some(Equipment(["horse_body", fn]))
      else None
    case Elytra =>
      if lower == "elytra.png" || EndsWith(lower, "elytra.png") then Some(Equipment(["wings", "elytra.png"]))
      else None
  }

  /** The destination of the first rule in `rules` that applies. */
  function FirstMatch(rules: seq<Rule>, fn: string, folder: string): (d: Option<Path>)
    ensures d.Some? <==> exists i :: 0 <= i < |rules| && Target(rules[i], fn, folder).Some?
    ensures d.Some? ==>
      exists i :: 0 <= i < |rules| && Target(rules[i], fn, folder) == d &&
        (forall j :: 0 <= j < i ==> Target(rules[j], fn, folder).None?)
    decreases |rules|
  {
    if rules == [] then None
    else
      var d := Target(rules[0], fn, folder);
      if d.Some? then d
      else
        var rest := FirstMatch(rules[1..], fn, folder);
        assert forall i :: 1 <= i < |rules| ==> rules[1..][i - 1] == rules[i];
        rest
  }

  /** The first rule of the list that applies decides. */
  lemma FirstMatchIs(rules: seq<Rule>, fn: string, folder: string, i: nat)
    requires i < |rules| && Target(rules[i], fn, folder).Some?
    requires forall j :: 0 <= j < i ==> Target(rules[j], fn, folder).None?
    ensures FirstMatch(rules, fn, folder) == Target(rules[i], fn, folder)
  {
  }

  /** No rule of the fixed order applies to the file. */
  predicate NoRuleApplies(fn: string, folder: string) {
    forall rule :: rule in Order ==> Target(rule, fn, folder).None?
  }

  /** The dispatch of MewUpdater.py:219-243: the if/elif chain tests the rules in order
      and the first that applies gives the destination; a name no rule applies to is
      skipped (`continue`). */
  function Dispatch(fn: string, folder: string): (d: Option<Path>)
    ensures d.None? <==> NoRuleApplies(fn, folder)
    ensures d.Some? ==> |d.value| >= 3 && d.value[..2] == ["entity", "equipment"]
  {
    var d := FirstMatch(Order, fn, folder);
    assert d.None? ==> NoRuleApplies(fn, folder) by {
      if d.None? {
        forall rule | rule in Order ensures Target(rule, fn, folder).None? {
          var i :| 0 <= i < |Order| && Order[i] == rule;
        }
      }
    }
    d
  }

  // ---------------------------------------------------------------------------
  // Scenarios
  // ---------------------------------------------------------------------------

  /** `<mat>_layer_1.png` goes to `humanoid/<mat>.png` with the material's case kept. */
  lemma Layer1Destination(mat: string, folder: string)
    requires mat != [] && NoNewline(mat)
    ensures Dispatch(mat + Layer1Tail, folder) == Some(Equipment(["humanoid", mat + ".png"]))
  {
    LayerMatchOf(mat, Layer1Tail);
    FirstMatchIs(Order, mat + Layer1Tail, folder, 0);
  }

  /** A leather overlay name is neither a layer-1 nor a layer-2 name: where those tails
      have their digit, the overlay name has the `y` of `overlay`, and where they end in
      `g`, a name with a final newline has the newline. */
  lemma LeatherNotLayer(fn: string, tail: string)
    requires LeatherMatch(fn).Some?
    requires tail == Layer1Tail || tail == Layer2Tail
    ensures LayerMatch(fn, tail).None?
  {
    var rest := fn[15..];
    assert OverlayTail[7] == 'y' && OverlayTail[11] == 'g';
    assert CaselessEq(rest[7], OverlayTail[7]);
    assert fn[22] == rest[7];
    assert !CaselessEq(fn[22], tail[7]);
    if |fn| == 28 {
      assert fn[27] == rest[12] == '\n';
      assert !CaselessEq(fn[27], tail[11]);
    } else {
      assert CaselessEq(rest[11], OverlayTail[11]);
      assert fn[26] == rest[11];
    }
  }

  /** `leather_layer_1_overlay.png` goes to `humanoid/leather_overlay.png` and
      `leather_layer_2_overlay.png` to `humanoid_leggings/leather_overlay.png`, in any
      case: the two layer rules tested before never apply to them. */
  lemma LeatherDestination(fn: string, folder: string)
    requires LeatherMatch(fn).Some?
    ensures Dispatch(fn, folder) == Some(Equipment([
      if LeatherMatch(fn).value == '1' then "humanoid" else "humanoid_leggings", "leather_overlay.png"]))
  {
    LeatherNotLayer(fn, Layer1Tail);
    LeatherNotLayer(fn, Layer2Tail);
    FirstMatchIs(Order, fn, folder, 2);
  }

  lemma LeatherScenario(folder: string)
    ensures Dispatch("leather_layer_1_overlay.png", folder) == Some(Equipment(["humanoid", "leather_overlay.png"]))
  {
    var a := "leather_layer_1_overlay.png";
    assert a == LeatherHead + ['1'] + OverlayTail + "";
    LeatherOf(a, LeatherHead, '1', OverlayTail, "");
    LeatherDestination(a, folder);
  }

  /** Upper case matches too, and the leggings layer goes to `humanoid_leggings`. */
  lemma LeatherLeggingsScenario(folder: string)
    ensures Dispatch("LEATHER_LAYER_2_OVERLAY.PNG", folder)
         == Some(Equipment(["humanoid_leggings", "leather_overlay.png"]))
  {
    var b := "LEATHER_LAYER_2_OVERLAY.PNG";
    LeatherUpper();
    LeatherDestination(b, folder);
  }

  lemma LeatherUpper()
    ensures LeatherMatch("LEATHER_LAYER_2_OVERLAY.PNG") == Some('2')
  {
    var b := "LEATHER_LAYER_2_OVERLAY.PNG";
    assert b == "LEATHER_LAYER_" + ['2'] + "_OVERLAY.PNG" + "";
    UpperWords();
    LeatherOf(b, "LEATHER_LAYER_", '2', "_OVERLAY.PNG", "");
  }

  lemma UpperWords()
    ensures CaselessAt("LEATHER_LAYER_", 0, LeatherHead)
    ensures CaselessAt("_OVERLAY.PNG", 0, OverlayTail)
  {
  }

  /** A name ending in `_layer_2.png` is not a layer-1 name. */
  lemma NotLayer1(fn: string)
    requires EndsWith(fn, Layer2Tail)
    ensures LayerMatch(fn, Layer1Tail).None?
  {
    var n := |fn|;
    assert fn[n - 1] == Layer2Tail[11] && fn[n - 5] == Layer2Tail[7];
    assert !CaselessEq(fn[n - 5], Layer1Tail[7]);
  }

  /** `<mat>_layer_2.png` goes to `humanoid_leggings/<mat>.png`. */
  lemma Layer2Destination(mat: string, folder: string)
    requires mat != [] && NoNewline(mat)
    ensures Dispatch(mat + Layer2Tail, folder) == Some(Equipment(["humanoid_leggings", mat + ".png"]))
  {
    var fn := mat + Layer2Tail;
    LayerMatchOf(mat, Layer2Tail);
    assert fn[|fn| - |Layer2Tail|..] == Layer2Tail;
    NotLayer1(fn);
    FirstMatchIs(Order, fn, folder, 1);
  }

  /** The first rule wins: `turtle_layer_1.png` is a layer-1 texture of material
      `turtle`, not the turtle shell. */
  lemma TurtleLayerIsHumanoid(folder: string)
    ensures Dispatch("turtle_layer_1.png", folder) == Some(Equipment(["humanoid", "turtle.png"]))
  {
    var mat := "turtle";
    assert NoNewline(mat);
    Layer1Destination(mat, folder);
    TurtleParts(mat);
  }

  lemma TurtleParts(mat: string)
    requires mat == "turtle"
    ensures mat + Layer1Tail == "turtle_layer_1.png" && mat + ".png" == "turtle.png"
  {
  }

  /** A name without upper-case ASCII letters is its own lower-case form. */
  lemma LowerUnchanged(s: string)
    requires forall i :: 0 <= i < |s| ==> !('A' <= s[i] <= 'Z')
    ensures Lower(s) == s
  {
  }

  /** No rule before the wolf rule applies to `wolf_armor_overlay.png`. */
  lemma WolfOverlayEarlierRules(folder: string)
    ensures forall j :: 0 <= j < 3 ==> Target(Order[j], "wolf_armor_overlay.png", folder).None?
  {
    var fn := "wolf_armor_overlay.png";
    assert Target(Layer1, fn, folder).None? by {
      assert !CaselessEq(fn[|fn| - 5], Layer1Tail[7]);
    }
    assert Target(Layer2, fn, folder).None? by {
      assert !CaselessEq(fn[|fn| - 5], Layer2Tail[7]);
    }
    assert Target(LeatherOverlay, fn, folder).None? by {
      assert !CaselessEq(fn[0], 'l');
    }
  }

  lemma WolfOverlayTarget(folder: string)
    ensures Target(WolfArmor, "wolf_armor_overlay.png", folder)
         == Some(Equipment(["wolf_body", "armadillo_scute_overlay.png"]))
  {
    WolfOverlayLower();
    assert "armadillo_scute_overlay" + ".png" == "armadillo_scute_overlay.png";
  }

  lemma WolfOverlayLower()
    ensures Lower("wolf_armor_overlay.png") == "wolf_armor_overlay.png"
    ensures Contains("wolf_armor_overlay.png", "overlay")
  {
    var fn := "wolf_armor_overlay.png";
    LowerUnchanged(fn);
    assert OccursAt(fn, "overlay", 11);
  }

  /** The wolf rule sends the overlay to `armadillo_scute_overlay.png`. */
  lemma WolfOverlayScenario(folder: string)
    ensures Dispatch("wolf_armor_overlay.png", folder) == Some(Equipment(["wolf_body", "armadillo_scute_overlay.png"]))
  {
    WolfOverlayEarlierRules(folder);
    WolfOverlayTarget(folder);
    FirstMatchIs(Order, "wolf_armor_overlay.png", folder, 3);
  }

  /** The plain wolf armor goes to `wolf_body/armadillo_scute.png`. */
  lemma WolfPlainScenario(folder: string)
    ensures Dispatch("wolf_armor.png", folder) == Some(Equipment(["wolf_body", "armadillo_scute.png"]))
  {
    WolfPlainEarlierRules(folder);
    WolfPlainTarget(folder);
    FirstMatchIs(Order, "wolf_armor.png", folder, 3);
  }

  lemma WolfPlainEarlierRules(folder: string)
    ensures forall j :: 0 <= j < 3 ==> Target(Order[j], "wolf_armor.png", folder).None?
  {
    var fn := "wolf_armor.png";
    assert Target(Layer1, fn, folder).None? by {
      assert !CaselessEq(fn[9], Layer1Tail[7]);
    }
    assert Target(Layer2, fn, folder).None? by {
      assert !CaselessEq(fn[9], Layer2Tail[7]);
    }
    assert Target(LeatherOverlay, fn, folder).None? by {
      assert !CaselessEq(fn[0], 'l');
    }
  }

  lemma WolfPlainTarget(folder: string)
    ensures Target(WolfArmor, "wolf_armor.png", folder) == Some(Equipment(["wolf_body", "armadillo_scute.png"]))
  {
    var fn := "wolf_armor.png";
    LowerUnchanged(fn);
    assert !Contains(fn, "overlay") by {
      forall i: nat | i <= |fn| ensures !OccursAt(fn, "overlay", i) {
        if i + 7 <= |fn| {
          assert fn[i..i + 7][0] == fn[i] && fn[i..i + 7][1] == fn[i + 1];
        }
      }
    }
    assert "armadillo_scute" + ".png" == "armadillo_scute.png";
  }

  /** A name no rule knows gets no destination. */
  lemma UnknownNameScenario(folder: string)
    ensures Dispatch("stone.png", folder).None?
  {
    var fn := "stone.png";
    var lower := Lower(fn);
    LowerUnchanged(fn);
    assert !CaselessAt(fn, 0, "leather_layer_") by { assert !CaselessEq(fn[0], 'l'); }
    assert !Contains(lower, "llama") by {
      forall i: nat | i <= |lower| ensures !OccursAt(lower, "llama", i) {
        if i + 5 <= |lower| { assert lower[i..i + 5][0] == lower[i]; }
      }
    }
    assert !Contains(lower, "horse") by {
      forall i: nat | i <= |lower| ensures !OccursAt(lower, "horse", i) {
        if i + 5 <= |lower| { assert lower[i..i + 5][0] == lower[i]; }
      }
    }
    assert !EndsWith(lower, "elytra.png");
    assert forall rule :: rule in Order ==> Target(rule, fn, folder).None?;
  }

  // ---------------------------------------------------------------------------
  // The pass
  // ---------------------------------------------------------------------------

  /** A file met by the walk: its name and the name of the folder holding it. */
  datatype ArmorFile = ArmorFile(folder: string, name: string)

  function Route(f: ArmorFile): Option<Path> { Dispatch(f.name, f.folder) }

  /** The loop of MewUpdater.py:212-243 over the files in walk order. `MakesDir` says
      whether `safe_mkdir` can make a destination's folder; when it cannot, the run
      stops. */
  function ArmorPass(files: seq<ArmorFile>, MakesDir: Path -> bool, Copies: (ArmorFile, Path) -> bool)
    : (r: Result<CopyPass.Report<ArmorFile>>)
    ensures r.Ok? <==> forall i :: 0 <= i < |files| && Route(files[i]).Some? ==> MakesDir(Route(files[i]).value)
  {
    CopyPass.Run(files, Route, MakesDir, Copies)
  }

  /** Every transfer takes a listed file to its dispatched destination, every matched file
      whose copy succeeds is transferred, and only matched files tick the progress bar. */
  lemma ArmorPassTransfers(files: seq<ArmorFile>, MakesDir: Path -> bool, Copies: (ArmorFile, Path) -> bool)
    requires ArmorPass(files, MakesDir, Copies).Ok?
    ensures forall t :: t in ArmorPass(files, MakesDir, Copies).value.transfers <==>
      t.source in files && Dispatch(t.source.name, t.source.folder) == Some(t.destination)
      && Copies(t.source, t.destination)
    ensures ArmorPass(files, MakesDir, Copies).value.ticks == |CopyPass.Routed(files, Route)|
    ensures ArmorPass(files, MakesDir, Copies) == ArmorPass(CopyPass.Routed(files, Route), MakesDir, Copies)
  {
    CopyPass.RunTransfers(files, Route, MakesDir, Copies);
    CopyPass.RunTicks(files, Route, MakesDir, Copies);
    CopyPass.RunIgnoresUnrouted(files, Route, MakesDir, Copies);
  }
}

=== FILE: copypass.dfy ===
/** The shape shared by the armor and the trim passes: walk a list of files, route each
    to an optional destination, copy (or move) the routed ones, count the copies that
    succeed and tick the progress bar once per routed file. */
module CopyPass {
  import opened Wrappers
  import opened Text

  /** A path as the list of components `os.path.join` receives. */
  type Path = seq<string>

  /** A copy (or move) that succeeded. */
  datatype Transfer<T> = Transfer(source: T, destination: Path)

  /** The returned count, the progress ticks, and the transfers in order. */
  datatype Report<T> = Report(count: nat, ticks: nat, transfers: seq<Transfer<T>>)

  /** How a destination is named in the error that stops the run. */
  function Show(d: Path): string { Join(d, "/") }

  /** A routed file whose destination folder cannot be created. */
  predicate Blocked<T>(f: T, Route: T -> Option<Path>, MakesDir: Path -> bool) {
    Route(f).Some? && !MakesDir(Route(f).value)
  }

  /** `Route` gives a file's destination, or None when the loop `continue`s past it;
      `MakesDir` says whether `safe_mkdir` can make the destination's folder, and
      `Copies` whether `shutil.copy2` (or `shutil.move`) succeeds. A failed copy is
      logged and still ticks; a folder that cannot be made raises outside the `try` and
      stops the run. */
  function Run<T>(files: seq<T>, Route: T -> Option<Path>, MakesDir: Path -> bool,
                  Copies: (T, Path) -> bool): (r: Result<Report<T>>)
    ensures r.Ok? ==> r.value.count == |r.value.transfers| <= r.value.ticks <= |files|
    ensures r.Ok? <==> forall i :: 0 <= i < |files| ==> !Blocked(files[i], Route, MakesDir)
    ensures r.Err? ==> exists i ::
      && 0 <= i < |files| && Blocked(files[i], Route, MakesDir)
      && r.error == FolderNotCreated(Show(Route(files[i]).value))
      && (forall j :: 0 <= j < i ==> !Blocked(files[j], Route, MakesDir))
    decreases |files|, 1
  {
    if files == [] then Ok(Report(0, 0, []))
    else
      RunShift(files, Route, MakesDir, Copies);
      Step(files[0], Route, MakesDir, Copies, Run(files[1..], Route, MakesDir, Copies))
  }

  /** One file of the loop, given the outcome of the files after it. */
  function Step<T>(f: T, Route: T -> Option<Path>, MakesDir: Path -> bool, Copies: (T, Path) -> bool,
                   later: Result<Report<T>>): Result<Report<T>>
  {
    match Route(f)
    case None => later
    case Some(d) =>
      if !MakesDir(d) then Err(FolderNotCreated(Show(d)))
      else
        match later
        case Err(e) => Err(e)
        case Ok(rest) =>
          if Copies(f, d) then Ok(Report(rest.count + 1, rest.ticks + 1, [Transfer(f, d)] + rest.transfers))
          else Ok(Report(rest.count, rest.ticks + 1, rest.transfers))
  }

  /** The facts of the run over all files but the first, moved to the indices of
      `files`. */
  lemma RunShift<T>(files: seq<T>, Route: T -> Option<Path>, MakesDir: Path -> bool,
                    Copies: (T, Path) -> bool)
    requires files != []
    ensures var r := Run(files[1..], Route, MakesDir, Copies);
      && (r.Ok? <==> forall i :: 1 <= i < |files| ==> !Blocked(files[i], Route, MakesDir))
      && (r.Err? ==> exists i ::
        && 1 <= i < |files| && Blocked(files[i], Route, MakesDir)
        && r.error == FolderNotCreated(Show(Route(files[i]).value))
        && (forall j :: 1 <= j < i ==> !Blocked(files[j], Route, MakesDir)))
    decreases |files|, 0
  {
    var r := Run(files[1..], Route, MakesDir, Copies);
    assert forall i :: 1 <= i < |files| ==> files[i] == files[1..][i - 1];
    if r.Err? {
      var i :| 0 <= i < |files[1..]| && Blocked(files[1..][i], Route, MakesDir)
        && r.error == FolderNotCreated(Show(Route(files[1..][i]).value))
        && forall j :: 0 <= j < i ==> !Blocked(files[1..][j], Route, MakesDir);
      assert files[i + 1] == files[1..][i];
    }
  }

  /** The files that get a destination, in order. */
  function Routed<T(!new)>(files: seq<T>, Route: T -> Option<Path>): (rs: seq<T>)
    ensures forall f :: f in rs <==> f in files && Route(f).Some?
    decreases |files|
  {
    if files == [] then []
    else
      var rest := Routed(files[1..], Route);
      assert forall f :: f in files <==> f == files[0] || f in files[1..];
      if Route(files[0]).Some? then [files[0]] + rest else rest
  }

  /** Files without a destination change nothing: running over the routed files alone
      gives the same outcome. */
  lemma {:induction false} RunIgnoresUnrouted<T(!new)>(files: seq<T>, Route: T -> Option<Path>,
                                                       MakesDir: Path -> bool, Copies: (T, Path) -> bool)
    ensures Run(files, Route, MakesDir, Copies) == Run(Routed(files, Route), Route, MakesDir, Copies)
    decreases |files|
  {
    if files != [] {
      RunIgnoresUnrouted(files[1..], Route, MakesDir, Copies);
      var f := files[0];
      var later := Run(files[1..], Route, MakesDir, Copies);
      assert Run(files, Route, MakesDir, Copies) == Step(f, Route, MakesDir, Copies, later);
      if Route(f).Some? {
        var g := Routed(files, Route);
        assert g == [f] + Routed(files[1..], Route);
        assert g[0] == f && g[1..] == Routed(files[1..], Route);
        assert Run(g, Route, MakesDir, Copies) == Step(f, Route, MakesDir, Copies, later);
      }
    }
  }

  /** One tick per routed file, whether its copy succeeds or not. */
  lemma {:induction false} RunTicks<T(!new)>(files: seq<T>, Route: T -> Option<Path>, MakesDir: Path -> bool,
                                             Copies: (T, Path) -> bool)
    requires Run(files, Route, MakesDir, Copies).Ok?
    ensures Run(files, Route, MakesDir, Copies).value.ticks == |Routed(files, Route)|
    decreases |files|
  {
    if files != [] {
      RunTicks(files[1..], Route, MakesDir, Copies);
    }
  }

  /** The transfers are exactly the routed files whose copy succeeds, each to its
      destination. */
  lemma {:induction false} RunTransfers<T>(files: seq<T>, Route: T -> Option<Path>, MakesDir: Path -> bool,
                                           Copies: (T, Path) -> bool)
    requires Run(files, Route, MakesDir, Copies).Ok?
    ensures forall t :: t in Run(files, Route, MakesDir, Copies).value.transfers <==>
      t.source in files && Route(t.source) == Some(t.destination) && Copies(t.source, t.destination)
    decreases |files|
  {
    if files != [] {
      RunTransfers(files[1..], Route, MakesDir, Copies);
      assert forall f :: f in files <==> f == files[0] || f in files[1..];
    }
  }
}

=== FILE: crop.dfy ===
/** The crop-rectangle arithmetic of the sprite slicer (`apply_slicer_mappings`):
    a box authored in a reference coordinate space is scaled to the real image size,
    rounded, and clamped so that the crop is non-empty and lies inside the image. */
module Crop {

  /** `Box(x, y, w, h, refW, refH)`: a rectangle in a reference space of refW x refH. */
  datatype Box = Box(x: nat, y: nat, w: nat, h: nat, refW: nat, refH: nat)

  /** A crop rectangle in image pixels: origin and size. */
  datatype Rect = Rect(x: int, y: int, w: int, h: int)

  function Min(a: int, b: int): int { if a <= b then a else b }

  function Max(a: int, b: int): int { if a >= b then a else b }

  /** Python's `round(n / d)` taken on the exact quotient: the nearest integer, and on a
      tie the even one. */
  function RoundHalfEven(n: int, d: int): (r: int)
    requires d > 0
    ensures 2 * (n - r * d) <= d && 2 * (r * d - n) <= d
    ensures 2 * (n - r * d) == d || 2 * (r * d - n) == d ==> r % 2 == 0
  {
    var q := n / d;
    var m := n % d;
    assert n == q * d + m;
    assert (q + 1) * d == q * d + d;
    if 2 * m < d then q
    else if 2 * m > d then q + 1
    else if q % 2 == 0 then q
    else q + 1
  }

  /** The rectangle is non-empty and lies within an iw x ih image. */
  predicate Inside(r: Rect, iw: int, ih: int) {
    && 0 <= r.x && 0 <= r.y
    && 1 <= r.w && 1 <= r.h
    && r.x + r.w <= iw && r.y + r.h <= ih
  }

  /** The four clamps of MewUpdater.py:157-160. For a real image they always produce an
      inside rectangle, whatever the rounding produced, and they leave a rectangle that
      is already inside untouched (and only such a rectangle). */
  function Clamp(raw: Rect, iw: int, ih: int): (r: Rect)
    ensures iw >= 1 && ih >= 1 ==> Inside(r, iw, ih)
    ensures iw >= 1 && ih >= 1 ==> (r == raw <==> Inside(raw, iw, ih))
  {
    var x := Max(0, Min(raw.x, iw - 1));
    var y := Max(0, Min(raw.y, ih - 1));
    var w := Max(1, Min(raw.w, iw - x));
    var h := Max(1, Min(raw.h, ih - y));
    Rect(x, y, w, h)
  }

  /** The rounded, not yet clamped, scaling of a box to an iw x ih image. */
  function Scaled(b: Box, iw: nat, ih: nat): Rect
    requires b.refW > 0 && b.refH > 0
  {
    Rect(RoundHalfEven(b.x * iw, b.refW), RoundHalfEven(b.y * ih, b.refH),
         RoundHalfEven(b.w * iw, b.refW), RoundHalfEven(b.h * ih, b.refH))
  }

  /** The crop rectangle for box `b` on an iw x ih image. A zero reference size is a
      division by zero in the source and is handled by the caller. */
  function CropRect(b: Box, iw: nat, ih: nat): (r: Rect)
    requires b.refW > 0 && b.refH > 0
    ensures iw >= 1 && ih >= 1 ==> Inside(r, iw, ih)
    ensures iw >= 1 && ih >= 1 && Inside(Scaled(b, iw, ih), iw, ih) ==> r == Scaled(b, iw, ih)
  {
    Clamp(Scaled(b, iw, ih), iw, ih)
  }

  /** A 20 x 20 box at the origin of a 200 x 200 reference space becomes a 40 x 40
      crop of a 400 x 400 image. */
  lemma WidgetButtonScenario()
    ensures CropRect(Box(0, 0, 20, 20, 200, 200), 400, 400) == Rect(0, 0, 40, 40)
  {
    var b := Box(0, 0, 20, 20, 200, 200);
    assert RoundHalfEven(0 * 400, 200) == 0;
    assert RoundHalfEven(20 * 400, 200) == 40;
    assert Scaled(b, 400, 400) == Rect(0, 0, 40, 40);
  }
}

=== FILE: dict.dfy ===
/** Python's insertion-ordered `dict`, as a sequence of key/value pairs.
    Assigning to a key that is present keeps its position; a new key goes last. */
module Dict {
  import opened Wrappers

  type Dict<K, V> = seq<(K, V)>

  function Keys<K, V>(d: Dict<K, V>): (ks: seq<K>)
    ensures |ks| == |d|
    ensures forall i :: 0 <= i < |d| ==> ks[i] == d[i].0
    decreases |d|
  {
    if d == [] then [] else [d[0].0] + Keys(d[1..])
  }

  /** `d.get(k)`: the value stored under `k`, if any. */
  function Get<K(==), V>(d: Dict<K, V>, k: K): (r: Option<V>)
    ensures r.None? <==> k !in Keys(d)
    ensures r.Some? ==> (k, r.value) in d
    decreases |d|
  {
    if d == [] then None
    else if d[0].0 == k then Some(d[0].1)
    else Get(d[1..], k)
  }

  /** `d[k] = v`. */
  function Put<K(==, !new), V>(d: Dict<K, V>, k: K, v: V): (r: Dict<K, V>)
    ensures Keys(r) == if k in Keys(d) then Keys(d) else Keys(d) + [k]
    ensures Get(r, k) == Some(v)
    decreases |d|
  {
    if d == [] then [(k, v)]
    else if d[0].0 == k then [(k, v)] + d[1..]
    else
      var rest := Put(d[1..], k, v);
      assert ([d[0]] + rest)[1..] == rest;
      [d[0]] + rest
  }

  /** Assignment keeps the keys already present, in place, and adds at most `k`. */
  lemma PutKeys<K(!new), V>(d: Dict<K, V>, k: K, v: V)
    ensures Keys(d) <= Keys(Put(d, k, v))
    ensures forall x :: x in Keys(Put(d, k, v)) <==> x in Keys(d) || x == k
  {
  }

  /** Three assignments in a row keep the keys present, in place. */
  lemma ThreePutsPrefix<K(!new), V>(d: Dict<K, V>, k1: K, v1: V, k2: K, v2: V, k3: K, v3: V)
    ensures Keys(d) <= Keys(Put(Put(Put(d, k1, v1), k2, v2), k3, v3))
  {
    var p1 := Put(d, k1, v1);
    var p2 := Put(p1, k2, v2);
    PutKeys(d, k1, v1);
    PutKeys(p1, k2, v2);
    PutKeys(p2, k3, v3);
  }

  /** After three assignments, a key is present exactly when it was before or was
      assigned. */
  lemma ThreePutsHas<K(!new), V>(d: Dict<K, V>, k1: K, v1: V, k2: K, v2: V, k3: K, v3: V, k: K)
    ensures k in Keys(Put(Put(Put(d, k1, v1), k2, v2), k3, v3)) <==> k in Keys(d) || k == k1 || k == k2 || k == k3
  {
    var p1 := Put(d, k1, v1);
    var p2 := Put(p1, k2, v2);
    PutKeys(d, k1, v1);
    PutKeys(p1, k2, v2);
    PutKeys(p2, k3, v3);
  }

  lemma {:induction false} PutKeepsOthers<K(!new), V>(d: Dict<K, V>, k: K, v: V, other: K)
    requires other != k
    ensures Get(Put(d, k, v), other) == Get(d, other)
    decreases |d|
  {
    if d != [] && d[0].0 != k && d[0].0 != other {
      PutKeepsOthers(d[1..], k, v, other);
      assert Put(d, k, v)[1..] == Put(d[1..], k, v);
    }
  }

  /** Assigning the value a key already holds changes nothing. */
  lemma {:induction false} PutSame<K(!new), V>(d: Dict<K, V>, k: K)
    requires Get(d, k).Some?
    ensures Put(d, k, Get(d, k).value) == d
    decreases |d|
  {
    var v := Get(d, k).value;
    assert d == [d[0]] + d[1..];
    if d[0].0 != k {
      PutSame(d[1..], k);
      assert Put(d, k, v) == [d[0]] + Put(d[1..], k, v);
    }
  }

  /** The later of two assignments to the same key is the one that stays. */
  lemma {:induction false} PutPut<K(!new), V>(d: Dict<K, V>, k: K, v1: V, v2: V)
    ensures Put(Put(d, k, v1), k, v2) == Put(d, k, v2)
    decreases |d|
  {
    if d != [] && d[0].0 != k {
      PutPut(d[1..], k, v1, v2);
      assert Put(d, k, v1)[1..] == Put(d[1..], k, v1);
    }
  }

  /** Keys stay pairwise distinct, as they are in a Python dict. */
  predicate DistinctKeys<K(==), V>(d: Dict<K, V>) {
    forall i, j :: 0 <= i < j < |d| ==> d[i].0 != d[j].0
  }

  lemma PutKeepsKeysDistinct<K(!new), V>(d: Dict<K, V>, k: K, v: V)
    requires DistinctKeys(d)
    ensures DistinctKeys(Put(d, k, v))
  {
    var r := Put(d, k, v);
    forall i, j | 0 <= i < j < |r| ensures r[i].0 != r[j].0 {
      assert Keys(r)[i] == r[i].0 && Keys(r)[j] == r[j].0;
      if k !in Keys(d) && j == |d| {
        assert Keys(d)[i] == d[i].0;
      } else {
        assert Keys(d)[i] == d[i].0 && Keys(d)[j] == d[j].0;
      }
    }
  }

  /** Every entry after an assignment is an old entry or the assigned one. */
  lemma {:induction false} PutEntries<K(!new), V>(d: Dict<K, V>, k: K, v: V)
    ensures forall e :: e in Put(d, k, v) ==> e in d || e == (k, v)
    decreases |d|
  {
    if d != [] && d[0].0 != k {
      PutEntries(d[1..], k, v);
      assert Put(d, k, v) == [d[0]] + Put(d[1..], k, v);
    }
  }
}

=== FILE: droppayload.dfy ===
/** The drag-and-drop payload splitter (`handle_drop`, MewUpdater.py:640-670): the data
    of a drop is a Tcl list of paths. The program collects the contents of every
    top-level `{...}` group with a depth counter, falls back to a whitespace split when
    no group closed, and opens the first path it finds. */
module DropPayload {
  import opened Text

  /** The state of the brace scan: the paths so far, the path being read, the depth. */
  datatype Scan = Scan(files: seq<string>, temp: string, depth: int)

  /** One character of the loop of MewUpdater.py:650-660. An opening brace that starts a
      group empties `temp`; a closing brace that ends one appends `temp`; any other
      character (an inner brace included) is kept while inside a group. */
  function Step(st: Scan, ch: char): (r: Scan)
    ensures |st.files| <= |r.files| <= |st.files| + 1 && r.files[..|st.files|] == st.files
  {
    if ch == '{' && st.depth + 1 == 1 then Scan(st.files, "", 1)
    else if ch == '}' && st.depth - 1 == 0 then Scan(st.files + [st.temp], st.temp, 0)
    else
      var d := if ch == '{' then st.depth + 1 else if ch == '}' then st.depth - 1 else st.depth;
      Scan(st.files, if d > 0 then st.temp + [ch] else st.temp, d)
  }

  /** The loop over every character, left to right. */
  function ScanAll(st: Scan, s: string): (r: Scan)
    ensures |st.files| <= |r.files| <= |st.files| + |s|
    ensures r.files[..|st.files|] == st.files
    decreases |s|
  {
    if s == [] then st
    else
      var st1 := Step(st, s[0]);
      var r := ScanAll(st1, s[1..]);
      assert r.files[..|st.files|] == r.files[..|st1.files|][..|st.files|];
      r
  }

  /** The groups of the stripped data. */
  function BracedFiles(raw: string): seq<string> {
    ScanAll(Scan([], "", 0), raw).files
  }

  /** The paths read from the data: the groups, or the whitespace-separated words when no
      group closed. */
  function DroppedFiles(data: string): (r: seq<string>)
    ensures r == [] <==> forall k :: 0 <= k < |data| ==> IsSpace(data[k])
  {
    var raw := Strip(data);
    var files := BracedFiles(raw);
    assert raw != [] ==> !IsSpace(raw[0]);
    if files == [] then Words(raw) else files
  }

  /** What the handler does: nothing for empty data, nothing (and a log line) when no
      non-empty first path is found, otherwise open the first path. */
  datatype Outcome = EmptyData | Unparsed | Opened(path: string)

  function HandleDrop(data: string): (o: Outcome)
    ensures o == EmptyData <==> data == []
    ensures o == Unparsed <==> data != [] && (DroppedFiles(data) == [] || DroppedFiles(data)[0] == [])
    ensures o.Opened? <==> data != [] && DroppedFiles(data) != [] && DroppedFiles(data)[0] != []
    ensures o.Opened? ==> o.path == DroppedFiles(data)[0]
  {
    if data == [] then EmptyData
    else
      var files := DroppedFiles(data);
      if files == [] || files[0] == [] then Unparsed else Opened(files[0])
  }

  predicate NoBraces(s: string) {
    forall k :: 0 <= k < |s| ==> s[k] != '{' && s[k] != '}'
  }

  /** Scanning a concatenation is scanning one part after the other. */
  lemma {:induction false} ScanAppend(st: Scan, a: string, b: string)
    ensures ScanAll(st, a + b) == ScanAll(ScanAll(st, a), b)
    decreases |a|
  {
    if a == [] {
      assert a + b == b;
    } else {
      assert (a + b)[0] == a[0] && (a + b)[1..] == a[1..] + b;
      ScanAppend(Step(st, a[0]), a[1..], b);
    }
  }

  /** Inside a group, brace-free text is copied to `temp`. */
  lemma {:induction false} ScanInside(files: seq<string>, t: string, p: string)
    requires NoBraces(p)
    ensures ScanAll(Scan(files, t, 1), p) == Scan(files, t + p, 1)
    decreases |p|
  {
    if p == [] {
      assert t + p == t;
    } else {
      assert NoBraces(p[1..]) by {
        assert forall k :: 0 <= k < |p[1..]| ==> p[1..][k] == p[k + 1];
      }
      ScanInside(files, t + [p[0]], p[1..]);
      assert t + [p[0]] + p[1..] == t + p;
    }
  }

  /** Outside every group, brace-free text is ignored. */
  lemma {:induction false} ScanOutside(st: Scan, s: string)
    requires st.depth == 0 && NoBraces(s)
    ensures ScanAll(st, s) == st
    decreases |s|
  {
    if s != [] {
      assert NoBraces(s[1..]) by {
        assert forall k :: 0 <= k < |s[1..]| ==> s[1..][k] == s[k + 1];
      }
      ScanOutside(Step(st, s[0]), s[1..]);
    }
  }

  /** A brace-free group is collected as it stands. */
  lemma ScanGroup(st: Scan, p: string)
    requires st.depth == 0 && NoBraces(p)
    ensures ScanAll(st, "{" + p + "}") == Scan(st.files + [p], p, 0)
  {
    ScanAppend(st, "{", p + "}");
    assert "{" + p + "}" == "{" + (p + "}");
    assert ScanAll(st, "{") == Scan(st.files, "", 1);
    ScanAppend(Scan(st.files, "", 1), p, "}");
    ScanInside(st.files, "", p);
    assert [] + p == p;
  }

  /** Without an opening brace no group ever closes: the depth never rises above 0. */
  lemma {:induction false} NoOpeningNoFiles(st: Scan, s: string)
    requires st.depth <= 0
    requires forall k :: 0 <= k < |s| ==> s[k] != '{'
    ensures ScanAll(st, s).files == st.files
    decreases |s|
  {
    if s != [] {
      NoOpeningNoFiles(Step(st, s[0]), s[1..]);
    }
  }

  /** Data without an opening brace is split at whitespace. */
  lemma PlainDataIsWords(data: string)
    requires forall k :: 0 <= k < |data| ==> data[k] != '{'
    ensures DroppedFiles(data) == Words(Strip(data))
  {
    var raw := Strip(data);
    assert forall k :: 0 <= k < |raw| ==> raw[k] != '{';
    NoOpeningNoFiles(Scan([], "", 0), raw);
  }

  /** Every path in braces, separated by spaces. */
  function BraceAll(paths: seq<string>): string
    decreases |paths|
  {
    if paths == [] then ""
    else if |paths| == 1 then "{" + paths[0] + "}"
    else "{" + paths[0] + "}" + " " + BraceAll(paths[1..])
  }

  /** A list with every path in braces is read back exactly, whatever came before. */
  lemma {:induction false} ScanBraceAll(st: Scan, paths: seq<string>)
    requires st.depth == 0
    requires forall i :: 0 <= i < |paths| ==> NoBraces(paths[i])
    ensures ScanAll(st, BraceAll(paths)).files == st.files + paths
    ensures ScanAll(st, BraceAll(paths)).depth == 0
    decreases |paths|
  {
    if paths == [] {
    } else {
      var g := "{" + paths[0] + "}";
      ScanGroup(st, paths[0]);
      var st1 := Scan(st.files + [paths[0]], paths[0], 0);
      if |paths| == 1 {
        assert paths == [paths[0]];
      } else {
        ScanAppend(st, g, " " + BraceAll(paths[1..]));
        assert g + " " + BraceAll(paths[1..]) == g + (" " + BraceAll(paths[1..]));
        ScanAppend(st1, " ", BraceAll(paths[1..]));
        ScanOutside(st1, " ");
        ScanBraceAll(st1, paths[1..]);
        assert st1.files + paths[1..] == st.files + paths;
      }
    }
  }

  /** Text that starts with an opening brace and ends with a closing one is its own
      strip. */
  lemma BracedStripped(s: string)
    requires |s| >= 1 && s[0] == '{' && s[|s| - 1] == '}'
    ensures Strip(s) == s
  {
    StripUnchanged(s);
  }

  lemma {:induction false} BraceAllShape(paths: seq<string>)
    requires paths != []
    ensures var s := BraceAll(paths); |s| >= 2 && s[0] == '{' && s[|s| - 1] == '}'
    decreases |paths|
  {
    if |paths| > 1 {
      BraceAllShape(paths[1..]);
    }
  }

  /** Once a group closes in the stripped data, the groups are the paths read. */
  lemma GroupsRead(data: string)
    requires BracedFiles(Strip(data)) != []
    ensures DroppedFiles(data) == BracedFiles(Strip(data))
  {
  }

  /** The program reads back a non-empty list in which every path is braced. */
  lemma BracedListRoundTrip(paths: seq<string>)
    requires paths != []
    requires forall i :: 0 <= i < |paths| ==> NoBraces(paths[i])
    ensures DroppedFiles(BraceAll(paths)) == paths
  {
    var s := BraceAll(paths);
    BraceAllShape(paths);
    BracedStripped(s);
    ScanBraceAll(Scan([], "", 0), paths);
    assert [] + paths == paths;
    assert BracedFiles(Strip(s)) == paths;
    GroupsRead(s);
  }

  // ---------------------------------------------------------------------------
  // Tcl lists with unbraced items
  // ---------------------------------------------------------------------------

  /** A character for which a list element is written in braces: whitespace, or one of
      `[ ] $ ; \ "`. Whitespace is what `isspace` accepts, so that every path holding
      whitespace is braced; Tcl itself braces only for space, `\t`, `\n`, `\v`, `\f`
      and `\r`. */
  predicate TclSpecial(c: char) {
    IsSpace(c) || c == '[' || c == ']' || c == '$' || c == ';' || c == '\\' || c == '"'
  }

  /** Whether Tcl writes an element in braces: when it is empty, holds a special
      character, or, as the first element, starts with `#`, which would read as a
      comment. */
  predicate NeedsBraces(p: string, first: bool) {
    || p == []
    || (exists k :: 0 <= k < |p| && TclSpecial(p[k]))
    || (first && p[0] == '#')
  }

  /** How a Tcl list writes one brace-free path. */
  function TclItem(p: string, first: bool): string {
    if NeedsBraces(p, first) then "{" + p + "}" else p
  }

  /** The items after the first, each after one space. */
  function TclTail(paths: seq<string>): string
    decreases |paths|
  {
    if paths == [] then "" else " " + TclItem(paths[0], false) + TclTail(paths[1..])
  }

  /** A Tcl list of paths, items separated by one space. */
  function TclList(paths: seq<string>): string {
    if paths == [] then "" else TclItem(paths[0], true) + TclTail(paths[1..])
  }

  /** A path holding whitespace needs braces, first in the list or not. */
  lemma SpaceNeedsBraces(p: string, first: bool)
    requires HasSpace(p)
    ensures NeedsBraces(p, first)
  {
    var k :| 0 <= k < |p| && IsSpace(p[k]);
    assert TclSpecial(p[k]);
  }

  /** A path holding whitespace is written in braces. */
  lemma SpaceBraced(p: string, first: bool)
    requires HasSpace(p)
    ensures TclItem(p, first) == "{" + p + "}"
  {
    SpaceNeedsBraces(p, first);
  }

  /** An item ends with a character that is not whitespace. */
  lemma TclItemEnds(p: string, first: bool)
    ensures var t := TclItem(p, first); t != [] && !IsSpace(t[|t| - 1])
  {
    if !NeedsBraces(p, first) {
      assert !TclSpecial(p[|p| - 1]);
    }
  }

  /** The items after the first start with a space and end with a character that is
      not whitespace. */
  lemma {:induction false} TclTailShape(paths: seq<string>)
    requires paths != []
    ensures var t := TclTail(paths); t != [] && t[0] == ' ' && !IsSpace(t[|t| - 1])
    decreases |paths|
  {
    var item := TclItem(paths[0], false);
    var t := TclTail(paths);
    assert t == " " + item + TclTail(paths[1..]);
    if |paths| > 1 {
      TclTailShape(paths[1..]);
    } else {
      TclItemEnds(paths[0], false);
      assert t[|t| - 1] == item[|item| - 1];
    }
  }

  lemma TclPair(p: string, q: string)
    requires !NeedsBraces(p, true) && HasSpace(q)
    ensures TclList([p, q]) == p + " " + ("{" + q + "}")
  {
    SpaceNeedsBraces(q, false);
    assert [p, q][1..] == [q];
    assert [q][1..] == [];
    assert TclTail([q]) == " " + ("{" + q + "}") + "";
  }

  /** As written, a list whose first path is plain and whose second is braced opens the
      second path: the groups win over the words as soon as one group closes. */
  lemma AsWrittenSkipsPlainFirst(p: string, q: string)
    requires !NeedsBraces(p, true) && NoBraces(p)
    requires HasSpace(q) && NoBraces(q)
    ensures TclList([p, q]) == p + " " + ("{" + q + "}")
    ensures HandleDrop(TclList([p, q])) == Opened(q)
  {
    TclPair(p, q);
    if HasSpace(p) {
      SpaceNeedsBraces(p, true);
    }
    var pre := p + " ";
    var g := "{" + q + "}";
    var s := pre + g;
    assert s[0] == p[0];
    assert s[|s| - 1] == '}';
    StripUnchanged(s);
    assert NoBraces(pre) by {
      assert forall k :: 0 <= k < |pre| ==> pre[k] == if k < |p| then p[k] else ' ';
    }
    ScanAppend(Scan([], "", 0), pre, g);
    ScanOutside(Scan([], "", 0), pre);
    ScanGroup(Scan([], "", 0), q);
    assert [] + [q] == [q];
    assert BracedFiles(s) == [q];
    GroupsRead(s);
  }

  lemma ExampleText()
    ensures "/c/y.zip" + " " + ("{" + "/a b/x.zip" + "}") == "/c/y.zip {/a b/x.zip}"
  {
  }

  lemma ExampleItems()
    ensures !NeedsBraces("/c/y.zip", true) && NoBraces("/c/y.zip")
    ensures HasSpace("/a b/x.zip") && NoBraces("/a b/x.zip")
  {
    var p, q := "/c/y.zip", "/a b/x.zip";
    assert forall k :: 0 <= k < |p| ==> p[k] in "/cy.zip" && !TclSpecial(p[k]);
    assert IsSpace(q[2]);
  }

  /** The drop of one file whose path holds a space on top of a file without one:
      "/c/y.zip {/a b/x.zip}" opens "/a b/x.zip", not "/c/y.zip". */
  lemma AsWrittenSkipsPlainFirstExample()
    ensures HandleDrop("/c/y.zip {/a b/x.zip}") == Opened("/a b/x.zip")
  {
    ExampleItems();
    AsWrittenSkipsPlainFirst("/c/y.zip", "/a b/x.zip");
    ExampleText();
  }

  /** The evidently intended handler: the first item of the Tcl list, braced or not. */
  function HandleDropFirstItem(data: string): (o: Outcome)
    ensures o == EmptyData <==> data == []
    ensures o.Opened? ==> o.path != [] && o.path in DroppedFiles(data) + Words(Strip(data))
  {
    if data == [] then EmptyData
    else
      var raw := Strip(data);
      var first :=
        if raw != [] && raw[0] == '{' then (var fs := BracedFiles(raw); if fs == [] then [] else fs[0])
        else (var ws := Words(raw); if ws == [] then [] else ws[0]);
      if first == [] then Unparsed else Opened(first)
  }

  /** The words of a string that starts with a plain item. */
  lemma FirstWord(p: string, rest: string)
    requires p != [] && !HasSpace(p)
    requires rest == [] || IsSpace(rest[0])
    ensures Words(p + rest) != [] && Words(p + rest)[0] == p
  {
    var s := p + rest;
    assert !IsSpace(s[0]) by {
      assert s[0] == p[0];
    }
    forall k | 0 <= k < |p| ensures NotSpace(s[k]) {
      assert s[k] == p[k];
    }
    SpanAt(s, 0, |p|, NotSpace);
    assert s[..|p|] == p;
  }

  /** A braced first item is the first group. */
  lemma FirstBracedItem(p: string, rest: string)
    requires p != [] && NoBraces(p)
    requires rest == [] || !IsSpace(rest[|rest| - 1])
    ensures HandleDropFirstItem("{" + p + "}" + rest) == Opened(p)
  {
    var g := "{" + p + "}";
    var s := g + rest;
    assert s[0] == '{';
    assert !IsSpace(s[|s| - 1]) by {
      if rest == [] {
        assert s[|s| - 1] == '}';
      } else {
        assert s[|s| - 1] == rest[|rest| - 1];
      }
    }
    StripUnchanged(s);
    ScanAppend(Scan([], "", 0), g, rest);
    ScanGroup(Scan([], "", 0), p);
    assert [] + [p] == [p];
    var fs := BracedFiles(s);
    assert fs[..1] == [p];
    assert fs[0] == p;
  }

  /** A plain first item is the first word. */
  lemma FirstPlainItem(p: string, rest: string)
    requires p != [] && !HasSpace(p) && p[0] != '{'
    requires rest == [] || (IsSpace(rest[0]) && !IsSpace(rest[|rest| - 1]))
    ensures HandleDropFirstItem(p + rest) == Opened(p)
  {
    var s := p + rest;
    assert s[0] == p[0];
    assert !IsSpace(s[|s| - 1]) by {
      if rest == [] {
        assert s[|s| - 1] == p[|p| - 1];
      } else {
        assert s[|s| - 1] == rest[|rest| - 1];
      }
    }
    StripUnchanged(s);
    FirstWord(p, rest);
  }

  /** The intended handler opens the first dropped path, whichever way the list writes
      it. */
  lemma FirstItemOpensFirstPath(paths: seq<string>)
    requires paths != [] && paths[0] != [] && NoBraces(paths[0])
    ensures HandleDropFirstItem(TclList(paths)) == Opened(paths[0])
  {
    var p := paths[0];
    var rest := TclTail(paths[1..]);
    if |paths| > 1 {
      TclTailShape(paths[1..]);
    }
    if NeedsBraces(p, true) {
      FirstBracedItem(p, rest);
    } else {
      if HasSpace(p) {
        SpaceNeedsBraces(p, true);
      }
      FirstPlainItem(p, rest);
    }
  }

  /** Moving the separator between groupings. */
  lemma Regroup(a: string, g: string, b: string)
    ensures a + g + (" " + b) == a + (g + " " + b)
    ensures g + (" " + b) == g + " " + b
  {
  }

  /** A braced first item followed by braced items gives the same text in either
      encoding. */
  lemma BracedHead(paths: seq<string>)
    requires |paths| > 1
    requires TclItem(paths[0], true) == TclItem(paths[0], false) == "{" + paths[0] + "}"
    requires TclTail(paths[1..]) == " " + BraceAll(paths[1..])
    ensures TclTail(paths) == " " + BraceAll(paths)
    ensures TclList(paths) == BraceAll(paths)
  {
    var g, b := "{" + paths[0] + "}", BraceAll(paths[1..]);
    assert BraceAll(paths) == g + " " + b;
    assert TclTail(paths) == " " + g + TclTail(paths[1..]);
    assert TclList(paths) == TclItem(paths[0], true) + TclTail(paths[1..]);
    Regroup(" ", g, b);
  }

  /** A single braced path gives the same text in either encoding. */
  lemma BracedSingle(paths: seq<string>)
    requires |paths| == 1
    requires TclItem(paths[0], true) == TclItem(paths[0], false) == "{" + paths[0] + "}"
    ensures TclTail(paths) == " " + BraceAll(paths)
    ensures TclList(paths) == BraceAll(paths)
  {
    assert paths[1..] == [];
  }

  /** The spaced paths after the first. */
  lemma SpacedRest(paths: seq<string>)
    requires paths != []
    requires forall i :: 0 <= i < |paths| ==> HasSpace(paths[i])
    ensures forall i :: 0 <= i < |paths[1..]| ==> HasSpace(paths[1..][i])
  {
    forall i | 0 <= i < |paths[1..]|
      ensures HasSpace(paths[1..][i])
    {
      assert paths[1..][i] == paths[i + 1];
    }
  }

  lemma {:induction false} TclTailIsBraceAll(paths: seq<string>)
    requires paths != []
    requires forall i :: 0 <= i < |paths| ==> HasSpace(paths[i])
    ensures TclTail(paths) == " " + BraceAll(paths)
    decreases |paths|
  {
    SpaceBraced(paths[0], false);
    SpaceBraced(paths[0], true);
    if |paths| > 1 {
      SpacedRest(paths);
      TclTailIsBraceAll(paths[1..]);
      BracedHead(paths);
    } else {
      BracedSingle(paths);
    }
  }

  lemma TclIsBraceAll(paths: seq<string>)
    requires paths != []
    requires forall i :: 0 <= i < |paths| ==> HasSpace(paths[i])
    ensures TclList(paths) == BraceAll(paths)
  {
    SpaceBraced(paths[0], false);
    SpaceBraced(paths[0], true);
    if |paths| > 1 {
      SpacedRest(paths);
      TclTailIsBraceAll(paths[1..]);
      BracedHead(paths);
    } else {
      BracedSingle(paths);
    }
  }


  /** On lists whose paths all hold whitespace, the intended handler and the program
      agree. */
  lemma FirstItemAgreesOnBracedLists(paths: seq<string>)
    requires paths != []
    requires forall i :: 0 <= i < |paths| ==> NoBraces(paths[i]) && HasSpace(paths[i])
    ensures TclList(paths) == BraceAll(paths)
    ensures HandleDropFirstItem(TclList(paths)) == HandleDrop(TclList(paths))
  {
    TclIsBraceAll(paths);
    BracedListRoundTrip(paths);
    FirstItemOpensFirstPath(paths);
  }
}

=== FILE: json.dfy ===
/** JSON values as `json.load` gives them to the program: an object is a Python dict, so
    it keeps its key order (see `Dict`). Numbers are integers here (the program only
    writes `pack_format`; other numbers are carried through untouched). */
module JsonTree {
  import Dict

  datatype Json =
    | Null
    | Bool(b: bool)
    | Num(n: int)
    | Str(s: string)
    | Arr(items: seq<Json>)
    | Obj(fields: Dict.Dict<string, Json>)
}

=== FILE: modelrefs.dfy ===
/** The model-JSON pass (`update_model_json_paths`, MewUpdater.py:282-323): in every
    `.json` file under `assets/minecraft/models`, each string held directly by an object
    whose last path segment is `<mat>_layer_1[.png]` becomes
    `entity/equipment/humanoid/<mat>`, and `<mat>_layer_2[.png]` becomes
    `entity/equipment/humanoid_leggings/<mat>`. */
module ModelRefs {
  import opened Wrappers
  import opened Text
  import opened JsonTree
  import Dict

  const Layer1 := "_layer_1"
  const Layer2 := "_layer_2"
  const Humanoid := "entity/equipment/humanoid/"
  const HumanoidLeggings := "entity/equipment/humanoid_leggings/"

  /** Where `$` can end a match of a pattern whose last character is not a newline: the
      end of the value, or just before a final newline. */
  function End(v: string): (e: nat)
    ensures e == |v| || (e == |v| - 1 && v[e] == '\n')
    ensures e < |v| ==> v[|v| - 1] == '\n'
  {
    if |v| > 0 && v[|v| - 1] == '\n' then |v| - 1 else |v|
  }

  /** The start of the longest '/'-free run that ends at `j`. */
  function SegmentStart(v: string, j: nat): (p: nat)
    requires j <= |v|
    ensures p <= j
    ensures forall k :: p <= k < j ==> v[k] != '/'
    ensures p == 0 || v[p - 1] == '/'
    decreases j
  {
    if j == 0 || v[j - 1] == '/' then j else SegmentStart(v, j - 1)
  }

  /** Where `<layer>(\.png)?` must start for the match to end where `$` matches. The
      `.png` form is the shorter match of the lazy `[^/]+?`, so it is tried first. */
  function TailAt(v: string, layer: string): (j: Option<nat>)
    ensures j.Some? ==> j.value <= End(v)
  {
    var w := v[..End(v)];
    if EndsWith(w, layer + ".png") then Some(|w| - |layer| - 4)
    else if EndsWith(w, layer) then Some(|w| - |layer|)
    else None
  }

  /** `re.sub(r"(?P<mat>[^/]+?)<layer>(\.png)?$", dest + r"\g<mat>", v)`: `mat` is the
      non-empty '/'-free run before the tail, the tail is dropped and a final newline
      stays. Since the match is anchored at the end, there is at most one. */
  function Sub(v: string, layer: string, dest: string): (r: string)
    ensures (layer == Layer1 || layer == Layer2) && |dest| > |layer| + 4 ==>
      (r != v <==> Rewritable(v, layer)) && (r == v || |r| > |v|)
  {
    match TailAt(v, layer)
    case None =>
      NoTailNotRewritable(v, layer);
      v
    case Some(j) =>
      var p := SegmentStart(v, j);
      SubAtTail(v, layer, j, p);
      if p == j then v
      else
        var r := v[..p] + dest + v[p..j] + v[End(v)..];
        assert |r| == |v| + |dest| - (End(v) - j);
        r
  }

  /** A layer tail never ends in 'g', so `<layer>.png` and `<layer>` cannot both end a
      value. */
  lemma PngExcludesPlain(w: string, layer: string)
    requires layer == Layer1 || layer == Layer2
    requires EndsWith(w, layer + ".png")
    ensures !EndsWith(w, layer)
  {
    var png := layer + ".png";
    assert w[|w| - 1] == png[|png| - 1];
  }

  lemma NoTailNotRewritable(v: string, layer: string)
    requires TailAt(v, layer).None?
    ensures !Rewritable(v, layer)
  {
  }

  /** Where the tail is found, the value is named by the layer exactly when a non-empty
      '/'-free run precedes the tail; the tail is `End(v) - j` long. */
  lemma SubAtTail(v: string, layer: string, j: nat, p: nat)
    requires TailAt(v, layer) == Some(j) && p == SegmentStart(v, j)
    ensures layer == Layer1 || layer == Layer2 ==>
      (p < j <==> Rewritable(v, layer)) && End(v) - j <= |layer| + 4
  {
    if layer == Layer1 || layer == Layer2 {
      var w := v[..End(v)];
      var t := if EndsWith(w, layer + ".png") then layer + ".png" else layer;
      if EndsWith(w, layer + ".png") {
        PngExcludesPlain(w, layer);
      }
      TailNamesIff(w, t, j);
      assert j > 0 ==> w[j - 1] == v[j - 1];
    }
  }

  /** With `t` ending `w` at `j`, `w` is named by `t` exactly when the character before
      `j` exists and is not '/'. */
  lemma TailNamesIff(w: string, t: string, j: nat)
    requires EndsWith(w, t) && j == |w| - |t|
    ensures NamedBy(w, t) <==> j > 0 && w[j - 1] != '/'
  {
  }

  /** The two substitutions of MewUpdater.py:304-305, in order. A value that changes
      grows: each destination folder is longer than the tail it replaces. */
  function Rewrite(v: string): (r: string)
    ensures r == v || |r| > |v|
  {
    var u := Sub(v, Layer1, Humanoid);
    assert |Humanoid| > |Layer1| + 4 && |HumanoidLeggings| > |Layer2| + 4;
    Sub(u, Layer2, HumanoidLeggings)
  }

  /** The whole rewrite changes a value exactly when one of the two layers names it. */
  lemma RewriteChangesIff(v: string)
    ensures Rewrite(v) != v <==> Rewritable(v, Layer1) || Rewritable(v, Layer2)
  {
    assert |Humanoid| > |Layer1| + 4 && |HumanoidLeggings| > |Layer2| + 4;
  }

  /** `w` ends with `t` preceded by at least one character that is not '/'. */
  predicate NamedBy(w: string, t: string) {
    |t| < |w| && EndsWith(w, t) && w[|w| - |t| - 1] != '/'
  }

  /** The value's last path segment, before an optional final newline, is
      `<mat><layer>` or `<mat><layer>.png` with a non-empty `mat`. */
  predicate Rewritable(v: string, layer: string) {
    var w := v[..End(v)];
    NamedBy(w, layer) || NamedBy(w, layer + ".png")
  }

  /** `SegmentStart` finds the run's start from any '/'-free stretch that begins there. */
  lemma {:induction false} SegmentStartIs(v: string, p: nat, j: nat)
    requires p <= j <= |v|
    requires forall k :: p <= k < j ==> v[k] != '/'
    requires p == 0 || v[p - 1] == '/'
    ensures SegmentStart(v, j) == p
    decreases j
  {
    if j > p {
      SegmentStartIs(v, p, j - 1);
    }
  }

  /** A final newline, when present, is where `$` matches. */
  lemma EndOf(body: string, nl: string)
    requires body != [] && body[|body| - 1] != '\n'
    requires nl == "" || nl == "\n"
    ensures End(body + nl) == |body|
    ensures (body + nl)[..|body|] == body && (body + nl)[|body|..] == nl
  {
    assert (body + nl)[|body + nl| - 1] == if nl == "" then body[|body| - 1] else '\n';
  }

  /** The tail is found where it ends the value. */
  lemma TailOf(body: string, t: string, nl: string, layer: string)
    requires layer == Layer1 || layer == Layer2
    requires t == layer || t == layer + ".png"
    requires |t| <= |body| && body[|body| - |t|..] == t
    requires nl == "" || nl == "\n"
    ensures TailAt(body + nl, layer) == Some(|body| - |t|)
  {
    assert body[|body| - 1] == t[|t| - 1];
    EndOf(body, nl);
    var png := layer + ".png";
    if t == layer {
      assert !EndsWith(body, png) by {
        assert body[|body| - 1] == layer[|layer| - 1];
      }
    }
  }

  /** The substitution on a value built as `pre + mat + tail + newline`. */
  lemma SubOf(pre: string, mat: string, t: string, nl: string, layer: string, dest: string)
    requires layer == Layer1 || layer == Layer2
    requires t == layer || t == layer + ".png"
    requires pre == [] || pre[|pre| - 1] == '/'
    requires mat != [] && forall k :: 0 <= k < |mat| ==> mat[k] != '/'
    requires nl == "" || nl == "\n"
    ensures Sub(pre + mat + t + nl, layer, dest) == pre + dest + mat + nl
  {
    var v := pre + mat + t + nl;
    var j := |pre| + |mat|;
    SubOfTail(pre, mat, t, nl, layer);
    SubOfStart(pre, mat, t, nl);
    SubOfPieces(pre, mat, t, nl);
    SubAt(v, layer, dest, j, |pre|);
  }

  lemma SubOfTail(pre: string, mat: string, t: string, nl: string, layer: string)
    requires layer == Layer1 || layer == Layer2
    requires t == layer || t == layer + ".png"
    requires nl == "" || nl == "\n"
    ensures TailAt(pre + mat + t + nl, layer) == Some(|pre| + |mat|)
  {
    var body := pre + mat + t;
    assert body[|pre| + |mat|..] == t;
    TailOf(body, t, nl, layer);
  }

  lemma SubOfStart(pre: string, mat: string, t: string, nl: string)
    requires pre == [] || pre[|pre| - 1] == '/'
    requires forall k :: 0 <= k < |mat| ==> mat[k] != '/'
    ensures |pre| + |mat| <= |pre + mat + t + nl|
    ensures SegmentStart(pre + mat + t + nl, |pre| + |mat|) == |pre|
  {
    var v := pre + mat + t + nl;
    var j := |pre| + |mat|;
    forall k | |pre| <= k < j ensures v[k] != '/' {
      assert v[k] == mat[k - |pre|];
    }
    SegmentStartIs(v, |pre|, j);
  }

  lemma SubOfPieces(pre: string, mat: string, t: string, nl: string)
    requires t != [] && t[|t| - 1] != '\n'
    requires nl == "" || nl == "\n"
    ensures var v := pre + mat + t + nl;
      && End(v) == |pre| + |mat| + |t|
      && v[..|pre|] == pre && v[|pre|..|pre| + |mat|] == mat && v[End(v)..] == nl
  {
    var body := pre + mat + t;
    EndOf(body, nl);
    assert body[..|pre|] == pre && body[|pre|..|pre| + |mat|] == mat;
  }

  /** The substitution where the tail starts at `j` and `mat` at `p`. */
  lemma SubAt(v: string, layer: string, dest: string, j: nat, p: nat)
    requires TailAt(v, layer) == Some(j) && j <= |v| && SegmentStart(v, j) == p < j
    ensures Sub(v, layer, dest) == v[..p] + dest + v[p..j] + v[End(v)..]
  {
  }

  /** A tail without '/' that names a path segment after a '/' names the segment alone. */
  lemma NamedAfterSlash(x: string, mat: string, t: string)
    requires x != [] && x[|x| - 1] == '/'
    requires mat != [] && forall k :: 0 <= k < |t| ==> t[k] != '/'
    requires NamedBy(x + mat, t)
    ensures NamedBy(mat, t)
  {
    var w := x + mat;
    var d := |w| - |t|;
    assert w[|x| - 1] == '/';
    forall j | d <= j < |w| ensures w[j] != '/' {
      assert w[j] == w[d..][j - d];
    }
    assert w[d - 1] != '/';
    assert |t| < |mat|;
    assert w[d..] == mat[|mat| - |t|..];
    assert w[d - 1] == mat[|mat| - |t| - 1];
  }

  /** A value whose last segment is `<mat>_layer_1[.png]`, optionally before a final
      newline, points into `entity/equipment/humanoid/` with the prefix kept, unless
      `mat` is itself named by `_layer_2[.png]`, in which case the second substitution
      rewrites the result again. */
  lemma Layer1Rewrite(pre: string, mat: string, t: string, nl: string)
    requires t == Layer1 || t == Layer1 + ".png"
    requires pre == [] || pre[|pre| - 1] == '/'
    requires mat != [] && forall k :: 0 <= k < |mat| ==> mat[k] != '/'
    requires !NamedBy(mat, Layer2) && !NamedBy(mat, Layer2 + ".png") && mat[|mat| - 1] != '\n'
    requires nl == "" || nl == "\n"
    ensures Rewrite(pre + mat + t + nl) == pre + Humanoid + mat + nl
  {
    SubOf(pre, mat, t, nl, Layer1, Humanoid);
    SecondSubKeeps(pre + Humanoid, mat, nl);
  }

  /** After the first substitution, the second leaves a `mat` that `_layer_2` does not
      name alone. */
  lemma SecondSubKeeps(x: string, mat: string, nl: string)
    requires x != [] && x[|x| - 1] == '/'
    requires mat != [] && !NamedBy(mat, Layer2) && !NamedBy(mat, Layer2 + ".png") && mat[|mat| - 1] != '\n'
    requires nl == "" || nl == "\n"
    ensures Sub(x + mat + nl, Layer2, HumanoidLeggings) == x + mat + nl
  {
    var body := x + mat;
    var u := body + nl;
    assert body[|body| - 1] == mat[|mat| - 1];
    EndOf(body, nl);
    assert u[..End(u)] == body;
    if NamedBy(body, Layer2) {
      NamedAfterSlash(x, mat, Layer2);
    }
    if NamedBy(body, Layer2 + ".png") {
      NamedAfterSlash(x, mat, Layer2 + ".png");
    }
    assert |HumanoidLeggings| > |Layer2| + 4;
  }

  /** A value whose last segment is `<mat>_layer_2[.png]`, optionally before a final
      newline, points into `entity/equipment/humanoid_leggings/`. */
  lemma Layer2Rewrite(pre: string, mat: string, t: string, nl: string)
    requires t == Layer2 || t == Layer2 + ".png"
    requires pre == [] || pre[|pre| - 1] == '/'
    requires mat != [] && forall k :: 0 <= k < |mat| ==> mat[k] != '/'
    requires nl == "" || nl == "\n"
    ensures Rewrite(pre + mat + t + nl) == pre + HumanoidLeggings + mat + nl
  {
    var v := pre + mat + t + nl;
    Layer2NotLayer1(pre + mat, t, nl);
    assert |Humanoid| > |Layer1| + 4;
    assert Sub(v, Layer1, Humanoid) == v;
    SubOf(pre, mat, t, nl, Layer2, HumanoidLeggings);
  }

  /** A value ending in `_layer_2[.png]` is not named by `_layer_1`. */
  lemma Layer2NotLayer1(body: string, t: string, nl: string)
    requires t == Layer2 || t == Layer2 + ".png"
    requires nl == "" || nl == "\n"
    ensures !Rewritable(body + t + nl, Layer1)
  {
    var v := body + t + nl;
    var e := |body| + |t|;
    assert v[e - 1] == t[|t| - 1];
    var w := v[..End(v)];
    assert w == body + t;
    var n := if t == Layer2 then 1 else 5;
    assert w[|w| - n] == '2';
  }

  lemma RewriteOnce()
    ensures Rewrite("x_layer_1_layer_1") == Humanoid + "x_layer_1"
  {
    var mat := "x_layer_1";
    OnceParts();
    Layer1Rewrite([], mat, Layer1, "");
  }

  lemma OnceParts()
    ensures "x_layer_1_layer_1" == [] + "x_layer_1" + Layer1 + ""
    ensures !NamedBy("x_layer_1", Layer2) && !NamedBy("x_layer_1", Layer2 + ".png")
    ensures forall k :: 0 <= k < |"x_layer_1"| ==> "x_layer_1"[k] != '/'
  {
    NotLayer2Named("x_layer_1");
    var m := "x_layer_1";
    assert m == "x" + Layer1;
    assert forall k :: 0 <= k < |Layer1| ==> Layer1[k] != '/';
  }

  lemma RewriteTwice()
    ensures Rewrite(Humanoid + "x_layer_1") == Humanoid + Humanoid + "x"
  {
    assert Humanoid + "x_layer_1" == Humanoid + "x" + Layer1 + "";
    NotLayer2Named("x");
    Layer1Rewrite(Humanoid, "x", Layer1, "");
  }

  /** A name whose last character is neither `2` nor `g` is not named by `_layer_2`
      or `_layer_2.png`. */
  lemma NotLayer2Named(mat: string)
    requires mat != [] && mat[|mat| - 1] != '2' && mat[|mat| - 1] != 'g'
    ensures !NamedBy(mat, Layer2) && !NamedBy(mat, Layer2 + ".png")
  {
  }

  /** The rewrite is not idempotent: a second run rewrites `x_layer_1_layer_1` again. */
  lemma RewriteNotIdempotent()
    ensures Rewrite(Rewrite("x_layer_1_layer_1")) != Rewrite("x_layer_1_layer_1")
  {
    RewriteOnce();
    RewriteTwice();
    assert |Humanoid + Humanoid + "x"| != |Humanoid + "x_layer_1"|;
  }

  /** What `walk_obj` does to a tree: every string held directly by an object is
      rewritten; keys, strings in arrays, the shape and every other value stay. */
  predicate Rewritten(a: Json, b: Json)
    decreases a, 1
  {
    match a
    case Obj(fs) =>
      && b.Obj? && |b.fields| == |fs|
      && forall i :: 0 <= i < |fs| ==> b.fields[i].0 == fs[i].0 && ValueRewritten(fs[i].1, b.fields[i].1)
    case Arr(xs) =>
      && b.Arr? && |b.items| == |xs|
      && forall i :: 0 <= i < |xs| ==> Rewritten(xs[i], b.items[i])
    case _ => b == a
  }

  /** The same for a value held by an object. */
  predicate ValueRewritten(a: Json, b: Json)
    decreases a, 2
  {
    if a.Str? then b == Str(Rewrite(a.s)) else Rewritten(a, b)
  }

  /** Field by field: the keys are kept, in order, and each value is rewritten. */
  predicate FieldsRewritten(fs: Dict.Dict<string, Json>, gs: Dict.Dict<string, Json>) {
    && |gs| == |fs|
    && forall i :: 0 <= i < |fs| ==> gs[i].0 == fs[i].0 && ValueRewritten(fs[i].1, gs[i].1)
  }

  /** How many strings held directly by objects the rewrite changes, through the whole
      tree. Keys and strings in arrays never count. */
  function Changed(a: Json): nat
    decreases a, 1
  {
    match a
    case Obj(fs) => FieldsChanged(fs)
    case Arr(xs) => ItemsChanged(xs)
    case _ => 0
  }

  /** The same for one field of an object: a string value counts once when it changes. */
  function FieldChanged(f: (string, Json)): nat
    decreases f, 2
  {
    if f.1.Str? then (if Rewrite(f.1.s) != f.1.s then 1 else 0) else Changed(f.1)
  }

  function FieldsChanged(fs: Dict.Dict<string, Json>): nat
    decreases fs, 0
  {
    if fs == [] then 0 else FieldChanged(fs[0]) + FieldsChanged(fs[1..])
  }

  function ItemsChanged(xs: seq<Json>): nat
    decreases xs, 0
  {
    if xs == [] then 0 else Changed(xs[0]) + ItemsChanged(xs[1..])
  }

  /** `walk_obj` with the number of strings it changed: the walked tree is the tree
      rewritten, the count is the number of strings the rewrite changes, and it is zero
      exactly when nothing changed. */
  function Walk(j: Json): (r: (Json, nat))
    ensures Rewritten(j, r.0)
    ensures r.1 == Changed(j)
    ensures r.1 == 0 <==> r.0 == j
    decreases j, 1
  {
    match j
    case Obj(fs) => var (gs, n) := WalkFields(fs); (Obj(gs), n)
    case Arr(xs) => var (ys, n) := WalkItems(xs); (Arr(ys), n)
    case _ => (j, 0)
  }

  /** One field of an object: a string value is rewritten and counted when it changes;
      any other value is walked. The key stays. */
  function WalkField(f: (string, Json)): (r: ((string, Json), nat))
    ensures r.0.0 == f.0 && ValueRewritten(f.1, r.0.1)
    ensures r.1 == FieldChanged(f)
    ensures r.1 == 0 <==> r.0 == f
    decreases f, 2
  {
    if f.1.Str? then
      var nv := Rewrite(f.1.s);
      if nv != f.1.s then ((f.0, Str(nv)), 1) else (f, 0)
    else
      var (w, m) := Walk(f.1);
      ((f.0, w), m)
  }

  /** One object's fields in order: keys and order are kept, a string value is
      rewritten and any other value walked. */
  function WalkFields(fs: Dict.Dict<string, Json>): (r: (Dict.Dict<string, Json>, nat))
    ensures FieldsRewritten(fs, r.0)
    ensures r.1 == FieldsChanged(fs)
    ensures r.1 == 0 <==> r.0 == fs
    decreases fs, 0
  {
    if fs == [] then ([], 0)
    else
      var (g, n) := WalkField(fs[0]);
      var (rest, k) := WalkFields(fs[1..]);
      FieldsCons(fs, g, rest);
      ConsSame(fs, g, rest);
      ([g] + rest, n + k)
  }

  /** The rewritten first field followed by the rewritten other fields is the object's
      fields rewritten. */
  lemma FieldsCons(fs: Dict.Dict<string, Json>, g: (string, Json), rest: Dict.Dict<string, Json>)
    requires fs != []
    requires g.0 == fs[0].0 && ValueRewritten(fs[0].1, g.1)
    requires FieldsRewritten(fs[1..], rest)
    ensures FieldsRewritten(fs, [g] + rest)
  {
    forall i | 1 <= i < |fs|
      ensures ([g] + rest)[i].0 == fs[i].0 && ValueRewritten(fs[i].1, ([g] + rest)[i].1)
    {
      assert ([g] + rest)[i] == rest[i - 1] && fs[i] == fs[1..][i - 1];
    }
  }

  /** A list is its head followed by its tail, and by nothing else. */
  lemma ConsSame<T>(s: seq<T>, x: T, rest: seq<T>)
    requires s != []
    ensures [x] + rest == s <==> x == s[0] && rest == s[1..]
  {
    assert s == [s[0]] + s[1..];
  }

  /** An array's items in order, each walked; strings in an array are not rewritten. */
  function WalkItems(xs: seq<Json>): (r: (seq<Json>, nat))
    ensures |r.0| == |xs|
    ensures forall i :: 0 <= i < |xs| ==> Rewritten(xs[i], r.0[i])
    ensures r.1 == ItemsChanged(xs)
    ensures r.1 == 0 <==> r.0 == xs
    decreases xs, 0
  {
    if xs == [] then ([], 0)
    else
      var (y, n) := Walk(xs[0]);
      var (rest, k) := WalkItems(xs[1..]);
      ConsSame(xs, y, rest);
      ([y] + rest, n + k)
  }

  /** A tree has exactly one rewritten form, so `Rewritten` pins down the walk. */
  lemma {:induction false} RewrittenUnique(a: Json, b: Json, c: Json)
    requires Rewritten(a, b) && Rewritten(a, c)
    ensures b == c
    decreases a
  {
    match a
    case Obj(fs) =>
      forall i | 0 <= i < |fs| ensures b.fields[i] == c.fields[i] {
        if !fs[i].1.Str? {
          RewrittenUnique(fs[i].1, b.fields[i].1, c.fields[i].1);
        }
      }
      assert b.fields == c.fields;
    case Arr(xs) =>
      forall i | 0 <= i < |xs| ensures b.items[i] == c.items[i] {
        RewrittenUnique(xs[i], b.items[i], c.items[i]);
      }
      assert b.items == c.items;
    case _ =>
  }

  /** A file met by `os.walk` under `assets/minecraft/models`, with what `json.load` made
      of it (None when it does not parse). */
  datatype ModelFile = ModelFile(name: string, parsed: Option<Json>)

  /** A file written back successfully, with the tree written. */
  datatype ModelWrite = ModelWrite(file: ModelFile, tree: Json)

  /** The returned count (strings changed), the progress ticks, the successful writes
      in order. */
  datatype Report = Report(count: nat, ticks: nat, writes: seq<ModelWrite>)

  /** `fn.lower().endswith(".json")`. */
  predicate IsJson(f: ModelFile) {
    EndsWith(Lower(f.name), ".json")
  }

  /** The strings changed over all parsed `.json` files. */
  function ChangedInFiles(files: seq<ModelFile>): nat
    decreases |files|
  {
    if files == [] then 0
    else
      var f := files[0];
      (if IsJson(f) && f.parsed.Some? then Changed(f.parsed.value) else 0) + ChangedInFiles(files[1..])
  }

  /** The loop of MewUpdater.py:287-322: other files are skipped without a tick; a file
      that does not parse ticks and is left alone; a parsed file is walked, written back
      when a string changed, and ticks. `Writes(f)` says whether `write_json_file` on `f`
      (its `safe_mkdir` included) succeeds: a failed write is caught and only logged, and
      its changed strings still count. */
  function UpdateModels(files: seq<ModelFile>, Writes: ModelFile -> bool): (r: Report)
    ensures r.count == ChangedInFiles(files)
    ensures |r.writes| <= r.count
    decreases |files|
  {
    if files == [] then Report(0, 0, [])
    else
      var f := files[0];
      var rest := UpdateModels(files[1..], Writes);
      if !IsJson(f) then rest
      else match f.parsed
        case None => Report(rest.count, rest.ticks + 1, rest.writes)
        case Some(data) =>
          var (tree, n) := Walk(data);
          var writes := if n > 0 && Writes(f) then [ModelWrite(f, tree)] + rest.writes else rest.writes;
          Report(rest.count + n, rest.ticks + 1, writes)
  }

  /** The `.json` files, in order. */
  function JsonFiles(files: seq<ModelFile>): (js: seq<ModelFile>)
    ensures forall f :: f in js <==> f in files && IsJson(f)
    decreases |files|
  {
    if files == [] then []
    else
      var rest := JsonFiles(files[1..]);
      assert forall f :: f in files <==> f == files[0] || f in files[1..];
      if IsJson(files[0]) then [files[0]] + rest else rest
  }

  /** One tick per `.json` file, parsed or not. */
  lemma {:induction false} UpdateModelsTicks(files: seq<ModelFile>, Writes: ModelFile -> bool)
    ensures UpdateModels(files, Writes).ticks == |JsonFiles(files)|
    decreases |files|
  {
    if files != [] {
      UpdateModelsTicks(files[1..], Writes);
    }
  }

  /** The files written back are exactly the parsed `.json` files whose rewritten tree
      differs from the loaded one and whose write succeeds, each with that rewritten
      tree. */
  lemma {:induction false} UpdateModelsWrites(files: seq<ModelFile>, Writes: ModelFile -> bool)
    ensures forall w :: w in UpdateModels(files, Writes).writes <==>
      && w.file in files && IsJson(w.file) && w.file.parsed.Some?
      && Rewritten(w.file.parsed.value, w.tree) && w.tree != w.file.parsed.value
      && Writes(w.file)
    decreases |files|
  {
    if files != [] {
      UpdateModelsWrites(files[1..], Writes);
      assert forall f :: f in files <==> f == files[0] || f in files[1..];
      var f := files[0];
      if IsJson(f) && f.parsed.Some? {
        var data := f.parsed.value;
        forall t | Rewritten(data, t) ensures t == Walk(data).0 {
          RewrittenUnique(data, t, Walk(data).0);
        }
      }
    }
  }
}

=== FILE: outputname.dfy ===
/** Naming the updated pack (MewUpdater.py:607-613): the zip goes next to the input as
    `<stem>-mewupdated.zip`, and while that path exists a numbered name is tried
    instead. Paths are POSIX strings; `os.path.exists` is a set of taken paths. */
module OutputName {
  import opened Wrappers
  import opened Text

  const Suffix := "-mewupdated"
  const ZipExt := ".zip"

  predicate NoSlash(s: string) {
    forall k :: 0 <= k < |s| ==> s[k] != '/'
  }

  /** Just after the last '/', or 0 when there is none. */
  function AfterLastSlash(p: string): (i: nat)
    ensures i <= |p|
    ensures i == 0 || p[i - 1] == '/'
    ensures NoSlash(p[i..])
    decreases |p|
  {
    if p == [] then 0
    else if p[|p| - 1] == '/' then |p|
    else
      var i := AfterLastSlash(p[..|p| - 1]);
      assert p[i..] == p[..|p| - 1][i..] + [p[|p| - 1]];
      i
  }

  /** Appending a '/'-free string does not move the last '/'. */
  lemma {:induction false} AfterLastSlashAppend(a: string, x: string)
    requires NoSlash(x)
    ensures AfterLastSlash(a + x) == AfterLastSlash(a)
    decreases |x|
  {
    if x == [] {
      assert a + x == a;
    } else {
      var y := x[..|x| - 1];
      assert (a + x)[..|a + x| - 1] == a + y;
      assert (a + x)[|a + x| - 1] == x[|x| - 1];
      AfterLastSlashAppend(a, y);
    }
  }

  /** `posixpath.basename`. */
  function Basename(p: string): string {
    p[AfterLastSlash(p)..]
  }

  /** The head is made of slashes only. */
  predicate AllSlashes(s: string) {
    forall k :: 0 <= k < |s| ==> s[k] == '/'
  }

  /** `s.rstrip("/")`. */
  function StripSlashes(s: string): (r: string)
    ensures StartsWith(s, r) && (r == [] || r[|r| - 1] != '/')
    decreases |s|
  {
    if s != [] && s[|s| - 1] == '/' then StripSlashes(s[..|s| - 1]) else s
  }

  /** `posixpath.dirname`: everything before the last '/', without its trailing slashes
      unless it is made of slashes only. */
  function Dirname(p: string): string {
    var head := p[..AfterLastSlash(p)];
    if head != [] && !AllSlashes(head) then StripSlashes(head) else head
  }

  /** Appending a '/'-free string does not change the directory. */
  lemma DirnameAppend(a: string, x: string)
    requires NoSlash(x)
    ensures Dirname(a + x) == Dirname(a)
  {
    AfterLastSlashAppend(a, x);
    var i := AfterLastSlash(a);
    assert (a + x)[..i] == a[..i];
  }

  /** The directory of `dir/name`, for a `dir` that does not end in '/'. */
  lemma DirnameOf(dir: string, name: string)
    requires dir != [] && dir[|dir| - 1] != '/'
    requires NoSlash(name)
    ensures Dirname(dir + "/" + name) == dir
  {
    var d := dir + "/";
    DirnameAppend(d, name);
    assert d[..|d| - 1] == dir;
    assert AfterLastSlash(d) == |d|;
    assert d[..|d|] == d;
    assert !AllSlashes(d) by {
      assert d[|dir| - 1] != '/';
    }
    assert StripSlashes(d) == StripSlashes(dir) == dir;
  }

  /** `posixpath.join(a, b)` for two parts. */
  function PathJoin(a: string, b: string): string {
    if StartsWith(b, "/") then b
    else if a == [] || a[|a| - 1] == '/' then a + b
    else a + "/" + b
  }

  /** The index of the last '.', if any. */
  function LastDot(s: string): (d: Option<nat>)
    ensures d.Some? ==> d.value < |s| && s[d.value] == '.' && forall k :: d.value < k < |s| ==> s[k] != '.'
    ensures d.None? ==> forall k :: 0 <= k < |s| ==> s[k] != '.'
    decreases |s|
  {
    if s == [] then None
    else if s[|s| - 1] == '.' then Some(|s| - 1)
    else LastDot(s[..|s| - 1])
  }

  /** `os.path.splitext` of a base name: the extension runs from the last '.', unless
      only dots come before it (a leading-dot name has no extension). */
  function SplitExt(base: string): (r: (string, string))
    ensures r.0 + r.1 == base
    ensures r.1 == [] || (r.1[0] == '.' && forall k :: 0 < k < |r.1| ==> r.1[k] != '.')
  {
    match LastDot(base)
    case None => (base, "")
    case Some(d) =>
      if exists k :: 0 <= k < d && base[k] != '.' then
        assert base[..d] + base[d..] == base;
        (base[..d], base[d..])
      else (base, "")
  }

  /** `os.path.join(original_parent, name + SUFFIX + ".zip")` for a pack at `path`
      (a directory pack's path is taken as already absolute and normalised). */
  function OutZip(path: string): (o: string)
    ensures EndsWith(o, ZipExt)
  {
    var n := SplitExt(Basename(path)).0 + Suffix + ZipExt;
    OutNameNoSlash(path);
    var o := PathJoin(Dirname(path), n);
    assert o[|o| - 4..] == n[|n| - 4..];
    o
  }

  /** The name part of the output zip holds no '/'. */
  lemma OutNameNoSlash(path: string)
    ensures var n := SplitExt(Basename(path)).0 + Suffix + ZipExt;
      NoSlash(n) && !StartsWith(n, "/")
  {
    var base := Basename(path);
    var n := SplitExt(base).0 + Suffix + ZipExt;
    assert SplitExt(base).0 == base[..|SplitExt(base).0|];
    assert n[..1][0] == n[0];
  }

  /** The output zip sits in the input's directory. */
  lemma OutZipNextToInput(path: string)
    ensures Dirname(OutZip(path)) == Dirname(path)
  {
    var d := Dirname(path);
    var n := SplitExt(Basename(path)).0 + Suffix + ZipExt;
    OutNameNoSlash(path);
    if d == [] || d[|d| - 1] == '/' {
      assert OutZip(path) == d + n;
      DirnameAppend(d, n);
      DirnameIdempotent(path);
    } else {
      assert OutZip(path) == d + "/" + n;
      DirnameOf(d, n);
    }
  }

  /** After a last '/' (or none), a '/'-free name is the base name. */
  lemma BasenameAppend(d: string, n: string)
    requires d == [] || d[|d| - 1] == '/'
    requires NoSlash(n)
    ensures Basename(d + n) == n
  {
    AfterLastSlashAppend(d, n);
    assert (d + n)[|d|..] == n;
  }

  /** The output zip's name is the input's name without its extension, followed by
      `-mewupdated.zip`. */
  lemma OutZipName(path: string)
    ensures Basename(OutZip(path)) == SplitExt(Basename(path)).0 + Suffix + ZipExt
  {
    var d := Dirname(path);
    var n := SplitExt(Basename(path)).0 + Suffix + ZipExt;
    OutNameNoSlash(path);
    assert OutZip(path) == PathJoin(d, n);
    if d == [] || d[|d| - 1] == '/' {
      assert OutZip(path) == d + n;
      BasenameAppend(d, n);
    } else {
      assert OutZip(path) == (d + "/") + n;
      BasenameAppend(d + "/", n);
    }
  }

  /** The directory of a directory that ends in '/' is itself: it is made of slashes. */
  lemma DirnameIdempotent(path: string)
    ensures var d := Dirname(path); d == [] || d[|d| - 1] != '/' || (AllSlashes(d) && Dirname(d) == d)
  {
    var d := Dirname(path);
    if d != [] && d[|d| - 1] == '/' {
      var head := path[..AfterLastSlash(path)];
      assert d == head && AllSlashes(d);
      assert AfterLastSlash(d) == |d|;
      assert d[..|d|] == d;
    }
  }

  /** `out_zip.replace(".zip", f"_{i}.zip")`, as written: every `.zip` in the path takes
      the number, including one in a directory name or in the stem. */
  function CandidateAsWritten(outZip: string, i: nat): (c: string)
    ensures c == outZip <==> !Contains(outZip, ZipExt)
  {
    NumberedPlain(i);
    ReplaceChangesIff(outZip, ZipExt, Numbered(i));
    Replace(outZip, ZipExt, Numbered(i))
  }

  /** `f"_{i}.zip"`. */
  function Numbered(i: nat): string {
    "_" + Decimal(i) + ZipExt
  }

  lemma NumberedPlain(i: nat)
    ensures NoSlash(Numbered(i)) && |Numbered(i)| > 4 && Numbered(i)[|Numbered(i)| - 1] == 'p'
  {
    var d := Decimal(i);
    assert forall k :: 0 <= k < |d| ==> IsDigit(d[k]);
    ZipExtPlain();
    assert NoSlash("_");
    NoSlashAppend("_", d);
    NoSlashAppend("_" + d, ZipExt);
  }

  /** The numbered name the loop means: only the final extension takes the number. */
  function Candidate(outZip: string, i: nat): (c: string)
    requires EndsWith(outZip, ZipExt)
    ensures Dirname(c) == Dirname(outZip)
    ensures c != outZip
  {
    var stem := outZip[..|outZip| - 4];
    NumberedPlain(i);
    DirnameAppend(stem, Numbered(i));
    ZipExtPlain();
    assert outZip == stem + ZipExt;
    DirnameAppend(stem, ZipExt);
    stem + Numbered(i)
  }

  /** The numeral is what follows the underscore. */
  lemma NumberedInjective(i: nat, j: nat)
    requires Numbered(i) == Numbered(j)
    ensures i == j
  {
    var a := Numbered(i);
    assert a[1..|a| - 4] == Decimal(i);
    assert a[1..|a| - 4] == Decimal(j);
    DecimalInjective(i, j);
  }

  /** Different numbers give different names. */
  lemma CandidateInjective(outZip: string, i: nat, j: nat)
    requires EndsWith(outZip, ZipExt)
    requires Candidate(outZip, i) == Candidate(outZip, j)
    ensures i == j
  {
    var stem := outZip[..|outZip| - 4];
    assert Numbered(i) == Candidate(outZip, i)[|stem|..];
    assert Numbered(j) == Candidate(outZip, j)[|stem|..];
    NumberedInjective(i, j);
  }

  /** When `.zip` occurs in the output path only as its extension, the program's
      numbered name is the intended one. */
  lemma AsWrittenAgreesOnPlainPaths(outZip: string, i: nat)
    requires EndsWith(outZip, ZipExt)
    requires FindFrom(outZip, ZipExt, 0) == Some(|outZip| - 4)
    ensures CandidateAsWritten(outZip, i) == Candidate(outZip, i)
  {
    ReplaceOnlyAtEnd(outZip, Numbered(i));
  }

  lemma ReplaceOnlyAtEnd(s: string, r: string)
    requires |s| >= 4 && FindFrom(s, ZipExt, 0) == Some(|s| - 4)
    ensures Replace(s, ZipExt, r) == s[..|s| - 4] + r
  {
    var k := |s| - 4;
    assert s[k + 4..] == [];
    assert Replace([], ZipExt, r) == [];
    assert s[..k] + r + [] == s[..k] + r;
  }

  /** `.zip` first occurs at `k` when no dot comes before it. */
  lemma FirstZip(s: string, k: nat)
    requires OccursAt(s, ZipExt, k)
    requires forall j :: 0 <= j < k ==> s[j] != '.'
    ensures FindFrom(s, ZipExt, 0) == Some(k)
  {
    forall j: nat | j < k ensures !OccursAt(s, ZipExt, j) {
      assert s[j..j + 4][0] == s[j];
    }
  }

  predicate NoDot(s: string) {
    forall k :: 0 <= k < |s| ==> s[k] != '.'
  }

  /** Replacing in `<pre>.zip<tail>` with no dot in `pre`: the first `.zip` is the one
      after `pre`. */
  lemma ReplaceAfterPrefix(pre: string, tail: string, r: string)
    requires NoDot(pre)
    ensures Replace(pre + ZipExt + tail, ZipExt, r) == pre + r + Replace(tail, ZipExt, r)
  {
    var s := pre + ZipExt + tail;
    var k := |pre|;
    assert s[k..k + 4] == ZipExt;
    assert forall j :: 0 <= j < k ==> s[j] == pre[j];
    FirstZip(s, k);
    assert s[..k] == pre;
    assert s[k + 4..] == tail;
  }

  /** The numbered name, as written, of `<dir>.zip/<name>.zip`. */
  lemma AsWrittenTwoZips(dir: string, name: string, r: string)
    requires NoDot(dir) && NoDot(name)
    ensures Replace(dir + ZipExt + ("/" + name + ZipExt), ZipExt, r) == dir + r + ("/" + name + r)
  {
    var mid := "/" + name;
    assert NoDot(mid) by {
      assert forall j :: 1 <= j < |mid| ==> mid[j] == name[j - 1];
    }
    ReplaceAfterPrefix(mid, [], r);
    assert mid + ZipExt + [] == mid + ZipExt;
    assert Replace([], ZipExt, r) == [];
    assert mid + r + [] == mid + r;
    ReplaceAfterPrefix(dir, mid + ZipExt, r);
  }

  lemma NoSlashAppend(a: string, b: string)
    requires NoSlash(a) && NoSlash(b)
    ensures NoSlash(a + b)
  {
    assert forall k :: 0 <= k < |a + b| ==> (a + b)[k] == if k < |a| then a[k] else b[k - |a|];
  }

  lemma ZipExtPlain()
    ensures NoSlash(ZipExt)
  {
  }

  lemma Regroup(a: string, z: string, n: string)
    ensures a + z + ("/" + n + z) == (a + z) + "/" + (n + z)
  {
  }

  /** The directory after replacing in `<dir>.zip/<name>.zip`. */
  lemma TwoZipsFolderAfter(dir: string, name: string, r: string)
    requires NoDot(dir) && NoDot(name) && NoSlash(name)
    requires NoSlash(r) && r != [] && r[|r| - 1] != '/'
    ensures Dirname(Replace(dir + ZipExt + ("/" + name + ZipExt), ZipExt, r)) == dir + r
  {
    AsWrittenTwoZips(dir, name, r);
    DirnameOfGrouped(dir, name, r);
  }

  lemma DirnameOfGrouped(a: string, n: string, r: string)
    requires NoSlash(n) && NoSlash(r) && r != [] && r[|r| - 1] != '/'
    ensures Dirname(a + r + ("/" + n + r)) == a + r
  {
    NoSlashAppend(n, r);
    Regroup(a, r, n);
    assert (a + r)[|a + r| - 1] == r[|r| - 1];
    DirnameOf(a + r, n + r);
  }

  /** The directory of `<dir>.zip/<name>.zip`. */
  lemma TwoZipsFolderBefore(dir: string, name: string)
    requires NoSlash(name)
    ensures Dirname(dir + ZipExt + ("/" + name + ZipExt)) == dir + ZipExt
  {
    ZipExtPlain();
    NoSlashAppend(name, ZipExt);
    Regroup(dir, ZipExt, name);
    assert (dir + ZipExt)[|dir + ZipExt| - 1] == 'p';
    DirnameOf(dir + ZipExt, name + ZipExt);
  }

  /** For a pack inside a directory whose name ends in `.zip`, the program's numbered
      name points into another directory, `<dir>_<i>.zip`. */
  lemma AsWrittenLeavesFolder(dir: string, name: string, i: nat)
    requires NoDot(dir) && NoDot(name) && NoSlash(name)
    ensures var o := dir + ZipExt + ("/" + name + ZipExt);
      Dirname(CandidateAsWritten(o, i)) == dir + Numbered(i) != Dirname(o)
  {
    var r := Numbered(i);
    NumberedPlain(i);
    TwoZipsFolderAfter(dir, name, r);
    TwoZipsFolderBefore(dir, name);
    assert |dir + r| != |dir + ZipExt|;
  }

  lemma ExamplePath()
    ensures "/p" + ZipExt + ("/" + "a-mewupdated" + ZipExt) == "/p.zip/a-mewupdated.zip"
    ensures "/p" + "_1.zip" + ("/" + "a-mewupdated" + "_1.zip") == "/p_1.zip/a-mewupdated_1.zip"
  {
  }

  lemma ExampleParts()
    ensures NoDot("/p") && NoDot("a-mewupdated") && NoSlash("a-mewupdated")
    ensures Numbered(1) == "_1.zip"
  {
  }

  /** The pack `/p.zip/a.zip` with `/p.zip/a-mewupdated.zip` taken: the program tries
      `/p_1.zip/a-mewupdated_1.zip`, in another directory. */
  lemma AsWrittenLeavesFolderExample()
    ensures CandidateAsWritten("/p.zip/a-mewupdated.zip", 1) == "/p_1.zip/a-mewupdated_1.zip"
  {
    ExampleParts();
    ExamplePath();
    AsWrittenTwoZips("/p", "a-mewupdated", "_1.zip");
  }

  /** `p` at the end of `s` is an occurrence of it. */
  lemma EndsWithContains(s: string, p: string)
    requires EndsWith(s, p)
    ensures Contains(s, p)
  {
    assert OccursAt(s, p, |s| - |p|);
  }

  /** As written, different numbers still give different names whenever the path holds
      `.zip`: the name is the path's pieces around `.zip` joined with `_<i>.zip`. */
  lemma AsWrittenInjective(outZip: string, i: nat, j: nat)
    requires Contains(outZip, ZipExt)
    requires CandidateAsWritten(outZip, i) == CandidateAsWritten(outZip, j)
    ensures i == j
  {
    ReplaceIsJoinOfSplit(outZip, ZipExt, Numbered(i));
    ReplaceIsJoinOfSplit(outZip, ZipExt, Numbered(j));
    ContainsIffSplits(outZip, ZipExt);
    JoinSeparatorInjective(Split(outZip, ZipExt), Numbered(i), Numbered(j));
    NumberedInjective(i, j);
  }

  /** The program's numbering of a path ending in `.zip` repeats no name and never gives
      the path itself. */
  lemma AsWrittenNumbering(outZip: string)
    requires EndsWith(outZip, ZipExt)
    ensures forall i: nat, j: nat :: 1 <= i && 1 <= j && CandidateAsWritten(outZip, i) == CandidateAsWritten(outZip, j) ==> i == j
    ensures forall i: nat :: 1 <= i ==> CandidateAsWritten(outZip, i) != outZip
  {
    EndsWithContains(outZip, ZipExt);
    forall i: nat, j: nat | CandidateAsWritten(outZip, i) == CandidateAsWritten(outZip, j)
      ensures i == j
    {
      AsWrittenInjective(outZip, i, j);
    }
  }

  /** The intended numbering repeats no name and never gives the path itself. */
  lemma CorrectedNumbering(outZip: string)
    requires EndsWith(outZip, ZipExt)
    ensures forall i: nat, j: nat :: 1 <= i && 1 <= j && Candidate(outZip, i) == Candidate(outZip, j) ==> i == j
    ensures forall i: nat :: 1 <= i ==> Candidate(outZip, i) != outZip
  {
    forall i: nat, j: nat | Candidate(outZip, i) == Candidate(outZip, j)
      ensures i == j
    {
      CandidateInjective(outZip, i, j);
    }
  }

  /** The loop of MewUpdater.py:610-613 for a numbering `Cand` of names that differ from
      each other and from the output path: the output path when it is free, otherwise the
      first free numbered name. `n` is the number used, 0 for the plain path. */
  method FreeName(outZip: string, taken: set<string>, Cand: nat -> string) returns (name: string, n: nat)
    requires forall i: nat, j: nat :: 1 <= i && 1 <= j && Cand(i) == Cand(j) ==> i == j
    requires forall i: nat :: 1 <= i ==> Cand(i) != outZip
    ensures name !in taken
    ensures n == 0 <==> outZip !in taken
    ensures n == 0 ==> name == outZip
    ensures n > 0 ==> name == Cand(n)
    ensures forall k :: 1 <= k < n ==> Cand(k) in taken
    ensures n <= |taken|
  {
    name := outZip;
    n := 0;
    if outZip !in taken {
      return;
    }
    ghost var tried: set<string> := {outZip};
    n := 1;
    name := Cand(1);
    while name in taken
      invariant n >= 1 && name == Cand(n)
      invariant tried <= taken && |tried| == n
      invariant outZip in tried
      invariant forall k :: 1 <= k < n ==> Cand(k) in tried
      invariant forall x :: x in tried ==> x == outZip || exists k :: 1 <= k < n && x == Cand(k)
      decreases |taken - tried|
    {
      assert name !in tried;
      assert taken - (tried + {name}) < taken - tried;
      tried := tried + {name};
      n := n + 1;
      name := Cand(n);
    }
  }

  /** The loop as written, for the output path of the pack at `path`: numbered names come
      from `replace`, which still never repeats a name, so the loop ends on a free one. */
  method FreeNameAsWritten(path: string, taken: set<string>) returns (name: string, n: nat)
    ensures name !in taken
    ensures n == 0 <==> OutZip(path) !in taken
    ensures n == 0 ==> name == OutZip(path)
    ensures n > 0 ==> name == CandidateAsWritten(OutZip(path), n)
    ensures forall k :: 1 <= k < n ==> CandidateAsWritten(OutZip(path), k) in taken
    ensures n <= |taken|
  {
    var outZip := OutZip(path);
    AsWrittenNumbering(outZip);
    var cand := (i: nat) => CandidateAsWritten(outZip, i);
    name, n := FreeName(outZip, taken, cand);
    assert forall k: nat :: cand(k) == CandidateAsWritten(outZip, k);
  }

  /** The loop with the intended numbering: only the final `.zip` takes the number, so
      every name tried stays next to the output. */
  method FreeNameCorrected(path: string, taken: set<string>) returns (name: string, n: nat)
    ensures name !in taken
    ensures Dirname(name) == Dirname(path)
    ensures n == 0 <==> OutZip(path) !in taken
    ensures n == 0 ==> name == OutZip(path)
    ensures n > 0 ==> EndsWith(OutZip(path), ZipExt) && name == Candidate(OutZip(path), n)
    ensures forall k :: 1 <= k < n ==> EndsWith(OutZip(path), ZipExt) && Candidate(OutZip(path), k) in taken
    ensures n <= |taken|
  {
    var outZip := OutZip(path);
    OutZipNextToInput(path);
    CorrectedNumbering(outZip);
    var cand := (i: nat) => Candidate(outZip, i);
    name, n := FreeName(outZip, taken, cand);
    assert forall k: nat :: cand(k) == Candidate(outZip, k);
  }
}

=== FILE: packmeta.dfy ===
/** The `pack.mcmeta` update (`update_pack_mcmeta`, MewUpdater.py:324-346): load the
    descriptor (an empty object when it is missing or does not parse), make sure it has
    a `pack` object, overwrite the pack format, the description and the legacy
    description there, and stamp the tool and a timestamp at the root. */
module PackMeta {
  import opened Wrappers
  import opened JsonTree
  import opened Dict

  const AppName := "MewUpdater"
  const PackFormat := 64
  const LegacyDescription := "Updated with MewUpdater"

  /** One span of the coloured description; the two spaces have no colour. */
  datatype TextSpan = TextSpan(text: string, color: Option<string>)

  function Colored(text: string, color: string): TextSpan {
    TextSpan(text, Some(color))
  }

  /** A span as the JSON object `{"text": ..., "color": ...}`. */
  function SpanJson(span: TextSpan): Json {
    if span.color.Some? then Obj([("text", Str(span.text)), ("color", Str(span.color.value))])
    else Obj([("text", Str(span.text))])
  }

  /** The spans of `MCMETA_TEXT_COMPONENT`, a pink gradient, one constant per source
      line. */
  const Row1: seq<TextSpan> := [
    Colored("U", "#F7EAF8"), Colored("p", "#F5E4F8"), Colored("d", "#F3DEF9"), Colored("a", "#F1D8F9")]
  const Row2: seq<TextSpan> := [
    Colored("t", "#EFD2F9"), Colored("e", "#EDCCFA"), Colored("d", "#EBC6FA"), TextSpan(" ", None)]
  const Row3: seq<TextSpan> := [
    Colored("w", "#E7BAFB"), Colored("i", "#E5B4FB"), Colored("t", "#E3AEFB"), Colored("h", "#E1A8FC"), TextSpan(" ", None)]
  const Row4: seq<TextSpan> := [
    Colored("M", "#DD9CFC"), Colored("e", "#DB96FC"), Colored("w", "#D990FD"), Colored("U", "#D78AFD")]
  const Row5: seq<TextSpan> := [
    Colored("p", "#D584FD"), Colored("d", "#D37EFE"), Colored("a", "#D178FE"), Colored("t", "#CF72FE")]
  const Row6: seq<TextSpan> := [
    Colored("e", "#CD6CFF"), Colored("r", "#CB66FF")]
  const Spans: seq<TextSpan> := Row1 + Row2 + Row3 + Row4 + Row5 + Row6

  /** `MCMETA_TEXT_COMPONENT` (MewUpdater.py:22-32). */
  const TextComponent: Json := Obj([("text", Str("")), ("extra", Arr(SpansJson(Spans)))])

  function SpansJson(spans: seq<TextSpan>): (js: seq<Json>)
    ensures |js| == |spans|
    decreases |spans|
  {
    if spans == [] then [] else [SpanJson(spans[0])] + SpansJson(spans[1..])
  }

  /** The plain text a list of spans shows: their texts one after the other. */
  function ShownText(spans: seq<TextSpan>): string
    decreases |spans|
  {
    if spans == [] then "" else spans[0].text + ShownText(spans[1..])
  }

  lemma {:induction false} ShownTextAppend(a: seq<TextSpan>, b: seq<TextSpan>)
    ensures ShownText(a + b) == ShownText(a) + ShownText(b)
    decreases |a|
  {
    if a == [] {
      assert a + b == b;
    } else {
      ShownTextAppend(a[1..], b);
      assert (a + b)[0] == a[0];
      assert (a + b)[1..] == a[1..] + b;
    }
  }

  lemma ShownRows()
    ensures ShownText(Row1) == "Upda"
    ensures ShownText(Row2) == "ted "
    ensures ShownText(Row3) == "with "
    ensures ShownText(Row4) == "MewU"
    ensures ShownText(Row5) == "pdat"
    ensures ShownText(Row6) == "er"
  {
  }

  /** The coloured description spells the same words as the legacy plain-text one. */
  lemma DescriptionSpellsLegacy()
    ensures ShownText(Spans) == LegacyDescription
  {
    ShownRows();
    ShownTextAppend(Row1, Row2);
    ShownTextAppend(Row1 + Row2, Row3);
    ShownTextAppend(Row1 + Row2 + Row3, Row4);
    ShownTextAppend(Row1 + Row2 + Row3 + Row4, Row5);
    ShownTextAppend(Row1 + Row2 + Row3 + Row4 + Row5, Row6);
  }

  /** `{"updated_by": APP_NAME, "timestamp": now_str()}`; the clock is a parameter. */
  function Stamp(timestamp: string): Json {
    Obj([("updated_by", Str(AppName)), ("timestamp", Str(timestamp))])
  }

  /** The three assignments to the `pack` object, in order. */
  function UpdatePack(pack: Dict<string, Json>): (r: Dict<string, Json>)
    ensures Keys(pack) <= Keys(r)
    ensures forall k :: k in Keys(r) <==> k in Keys(pack) || k in {"pack_format", "description", "pack_description_legacy"}
  {
    var (k1, k2, k3) := ("pack_format", "description", "pack_description_legacy");
    var (v1, v2, v3) := (Num(PackFormat), TextComponent, Str(LegacyDescription));
    ThreePutsPrefix(pack, k1, v1, k2, v2, k3, v3);
    assert forall k :: k in Keys(Put(Put(Put(pack, k1, v1), k2, v2), k3, v3)) <==> k in Keys(pack) || k in {k1, k2, k3} by {
      forall k ensures k in Keys(Put(Put(Put(pack, k1, v1), k2, v2), k3, v3)) <==> k in Keys(pack) || k in {k1, k2, k3} {
        ThreePutsHas(pack, k1, v1, k2, v2, k3, v3, k);
      }
    }
    Put(Put(Put(pack, k1, v1), k2, v2), k3, v3)
  }

  /** What the program starts from: the parsed file, or `{}` when the file is missing or
      `json.load` raises. */
  function Descriptor(loaded: Option<Json>): (mc: Json)
    ensures loaded.Some? ==> mc == loaded.value
    ensures loaded.None? ==> mc.Obj? && "pack" !in Keys(mc.fields)
  {
    if loaded.Some? then loaded.value else Obj([])
  }

  /** The descriptor after the update. A descriptor that is not an object, or whose `pack`
      is not an object, makes a subscript assignment raise `TypeError`, which nothing in
      the function catches. */
  function UpdatePackMeta(loaded: Option<Json>, timestamp: string): (r: Result<Json>)
    ensures var mc := Descriptor(loaded);
      r.Ok? <==> mc.Obj? && (Get(mc.fields, "pack").None? || Get(mc.fields, "pack").value.Obj?)
    ensures r.Err? ==> r.error == if Descriptor(loaded).Obj? then PackEntryNotAnObject else DescriptorNotAnObject
  {
    var mc := Descriptor(loaded);
    if !mc.Obj? then Err(DescriptorNotAnObject)
    else
      var fs := if "pack" in Keys(mc.fields) then mc.fields else Put(mc.fields, "pack", Obj([]));
      var pack := Get(fs, "pack").value;
      if !pack.Obj? then Err(PackEntryNotAnObject)
      else Ok(Obj(Put(Put(fs, "pack", Obj(UpdatePack(pack.fields))), "mew_updater", Stamp(timestamp))))
  }

  /** The fixed fields hold their fixed values afterwards, and every other key of the
      `pack` object keeps its value. */
  lemma UpdatePackFields(pack: Dict<string, Json>)
    ensures Get(UpdatePack(pack), "pack_format") == Some(Num(64))
    ensures Get(UpdatePack(pack), "description") == Some(TextComponent)
    ensures Get(UpdatePack(pack), "pack_description_legacy") == Some(Str("Updated with MewUpdater"))
    ensures forall k :: k !in {"pack_format", "description", "pack_description_legacy"} ==>
      Get(UpdatePack(pack), k) == Get(pack, k)
  {
    var p1 := Put(pack, "pack_format", Num(PackFormat));
    var p2 := Put(p1, "description", TextComponent);
    PutKeepsOthers(p2, "pack_description_legacy", Str(LegacyDescription), "description");
    PutKeepsOthers(p2, "pack_description_legacy", Str(LegacyDescription), "pack_format");
    PutKeepsOthers(p1, "description", TextComponent, "pack_format");
    forall k | k !in {"pack_format", "description", "pack_description_legacy"}
      ensures Get(UpdatePack(pack), k) == Get(pack, k)
    {
      PutKeepsOthers(pack, "pack_format", Num(PackFormat), k);
      PutKeepsOthers(p1, "description", TextComponent, k);
      PutKeepsOthers(p2, "pack_description_legacy", Str(LegacyDescription), k);
    }
  }

  /** Updating an updated `pack` object changes nothing. */
  lemma UpdatePackIdempotent(pack: Dict<string, Json>)
    ensures UpdatePack(UpdatePack(pack)) == UpdatePack(pack)
  {
    var u := UpdatePack(pack);
    UpdatePackFields(pack);
    PutSame(u, "pack_format");
    PutSame(u, "description");
    PutSame(u, "pack_description_legacy");
  }

  /** For an object descriptor whose `pack` is an object or missing: `pack` is the updated
      `pack` object (built from `{}` when it was missing), `mew_updater` is the stamp, and
      every other top-level key keeps its value. */
  lemma UpdatePackMetaFields(loaded: Option<Json>, timestamp: string)
    requires UpdatePackMeta(loaded, timestamp).Ok?
    ensures var fs := Descriptor(loaded).fields;
      var before := if "pack" in Keys(fs) then Get(fs, "pack").value.fields else [];
      var after := UpdatePackMeta(loaded, timestamp).value;
      && after.Obj?
      && Get(after.fields, "pack") == Some(Obj(UpdatePack(before)))
      && Get(after.fields, "mew_updater") == Some(Obj([("updated_by", Str("MewUpdater")), ("timestamp", Str(timestamp))]))
      && forall k :: k != "pack" && k != "mew_updater" ==> Get(after.fields, k) == Get(fs, k)
  {
    var mc := Descriptor(loaded);
    var fs := if "pack" in Keys(mc.fields) then mc.fields else Put(mc.fields, "pack", Obj([]));
    var pack := Get(fs, "pack").value;
    var g := Put(fs, "pack", Obj(UpdatePack(pack.fields)));
    PutKeepsOthers(g, "mew_updater", Stamp(timestamp), "pack");
    forall k | k != "pack" && k != "mew_updater" ensures Get(UpdatePackMeta(loaded, timestamp).value.fields, k) == Get(mc.fields, k) {
      PutKeepsOthers(g, "mew_updater", Stamp(timestamp), k);
      PutKeepsOthers(fs, "pack", Obj(UpdatePack(pack.fields)), k);
      if "pack" !in Keys(mc.fields) {
        PutKeepsOthers(mc.fields, "pack", Obj([]), k);
      }
    }
  }

  /** Running the update on its own output gives what one run with the later timestamp
      gives: the `pack` object does not change again and only the stamp is refreshed. */
  lemma UpdatePackMetaTwice(loaded: Option<Json>, t1: string, t2: string)
    requires UpdatePackMeta(loaded, t1).Ok?
    ensures UpdatePackMeta(Some(UpdatePackMeta(loaded, t1).value), t2) == UpdatePackMeta(loaded, t2)
  {
    var mc := Descriptor(loaded);
    var fs := if "pack" in Keys(mc.fields) then mc.fields else Put(mc.fields, "pack", Obj([]));
    var pack := Get(fs, "pack").value;
    var up := Obj(UpdatePack(pack.fields));
    var g := Put(fs, "pack", up);
    var once := Put(g, "mew_updater", Stamp(t1));
    PutKeepsOthers(g, "mew_updater", Stamp(t1), "pack");
    assert Get(once, "pack") == Some(up);
    UpdatePackIdempotent(pack.fields);
    PutSame(once, "pack");
    PutPut(g, "mew_updater", Stamp(t1), Stamp(t2));
  }
}

=== FILE: slicer.dfy ===
/** The sprite slicer pass (`apply_slicer_mappings`, MewUpdater.py:117-186): every
    input image of the mapping is cropped into its output sprites.

    The file system and PIL are parameters: `Lookup` says, for an input path, whether
    the image was found and decoded and at what size, `MakesDir` whether the folder of
    an output path exists or can be created (`safe_mkdir`, MewUpdater.py:163), and
    `Saves` whether writing a file at a path succeeds: a sprite at its output path, a
    sidecar at `<output>.mcmeta`. Both attempts at the sidecar (MewUpdater.py:174-182)
    write the same file, so it exists exactly when writing there succeeds; when it does
    not, the sprite still counts. */
module Slicer {
  import opened Wrappers
  import opened Text
  import opened Crop
  import opened SlicerSpec

  /** What the lookup and decode of an input image gave. */
  datatype Picture = NotFound | Unreadable | Decoded(width: nat, height: nat)

  /** A sprite written to `output`: crop `rect` of the `width` x `height` image `input`. */
  datatype Sprite = Sprite(input: string, output: string, rect: Rect, width: nat, height: nat)

  /** A sidecar `<output>.mcmeta` file and the text written to it. */
  datatype Sidecar = Sidecar(path: string, text: string)

  /** The outcome of a pass: the returned count of sprites, the progress ticks, and
      what was written, in order. */
  datatype Report = Report(created: nat, ticks: nat, sprites: seq<Sprite>, sidecars: seq<Sidecar>)

  const Nothing := Report(0, 0, [], [])

  function Add(a: Report, b: Report): Report {
    Report(a.created + b.created, a.ticks + b.ticks, a.sprites + b.sprites, a.sidecars + b.sidecars)
  }

  const TripleQuote := "\"\"\""

  /** The sidecar text of MewUpdater.py:170-172: the metadata stripped, then one leading
      and one trailing triple quote removed. The text is stripped, so the `\s*` of both
      patterns can only match the empty string there. */
  function SidecarText(metadata: string): string {
    var s := Strip(metadata);
    var a := if StartsWith(s, TripleQuote) then s[3..] else s;
    if EndsWith(a, TripleQuote) then a[..|a| - 3] else a
  }

  /** A body written between triple quotes comes out as written. */
  lemma SidecarUnwrapsTriple(body: string)
    ensures SidecarText(TripleQuote + body + TripleQuote) == body
  {
    var m := TripleQuote + body + TripleQuote;
    assert m[0] == '"' && m[|m| - 1] == '"';
    StripUnchanged(m);
    assert m[..3] == TripleQuote;
    var a := m[3..];
    assert a == body + TripleQuote;
    assert a[|a| - 3..] == TripleQuote;
    assert a[..|a| - 3] == body;
  }

  /** Metadata already stripped and not wrapped in triple quotes is written unchanged. */
  lemma SidecarKeepsPlain(m: string)
    requires m == [] || (!IsSpace(m[0]) && !IsSpace(m[|m| - 1]))
    requires !StartsWith(m, TripleQuote) && !EndsWith(m, TripleQuote)
    ensures SidecarText(m) == m
  {
    StripUnchanged(m);
  }

  /** `box` divides by its reference size, so a zero one raises ZeroDivisionError. */
  predicate ZeroReference(b: Box) { b.refW == 0 || b.refH == 0 }

  /** A rule that raises outside the `try` of MewUpdater.py:165-185: a zero reference
      size, or an output folder that cannot be created. */
  predicate Fails(r: SliceRule, MakesDir: string -> bool) {
    ZeroReference(r.box) || !MakesDir(r.output)
  }

  /** The sidecars of one saved sprite: one, when the metadata is a non-empty string and
      writing `<output>.mcmeta` succeeds. */
  function SidecarsOf(r: SliceRule, Saves: string -> bool): seq<Sidecar> {
    match r.metadata
    case Some(m) =>
      if m != [] && Saves(r.output + ".mcmeta") then [Sidecar(r.output + ".mcmeta", SidecarText(m))] else []
    case None => []
  }

  /** One rule on an iw x ih image (MewUpdater.py:151-185): the crop maths raises first on
      a zero reference size, then `safe_mkdir` on a folder it cannot create; otherwise one
      progress tick, and a sprite when the save succeeds, nothing when it fails; a saved
      sprite with metadata gets its sidecar when writing that succeeds too. */
  function SliceOne(input: string, r: SliceRule, iw: nat, ih: nat, MakesDir: string -> bool,
                    Saves: string -> bool): (res: Result<Report>)
    ensures res.Err? <==> Fails(r, MakesDir)
    ensures res.Err? && ZeroReference(r.box) ==> res.error == ZeroReferenceSize(input, r.output)
    ensures res.Err? && !ZeroReference(r.box) ==> res.error == FolderNotCreated(r.output)
    ensures res.Ok? ==> res.value.ticks == 1 && res.value.created == |res.value.sprites| <= 1
    ensures res.Ok? && res.value.sprites != [] ==>
      && Saves(r.output)
      && res.value.sprites == [Sprite(input, r.output, CropRect(r.box, iw, ih), iw, ih)]
      && res.value.sidecars == SidecarsOf(r, Saves)
    ensures res.Ok? && res.value.sprites == [] ==> !Saves(r.output) && res.value.sidecars == []
  {
    if ZeroReference(r.box) then Err(ZeroReferenceSize(input, r.output))
    else if !MakesDir(r.output) then Err(FolderNotCreated(r.output))
    else if !Saves(r.output) then Ok(Report(0, 1, [], []))
    else Ok(Report(1, 1, [Sprite(input, r.output, CropRect(r.box, iw, ih), iw, ih)], SidecarsOf(r, Saves)))
  }

  /** The rules of one decoded input, in order; the first failing rule aborts. */
  function SliceAll(input: string, rules: seq<SliceRule>, iw: nat, ih: nat, MakesDir: string -> bool,
                    Saves: string -> bool): (res: Result<Report>)
    ensures res.Ok? ==> res.value.ticks == |rules| && res.value.created == |res.value.sprites| <= |rules|
    decreases |rules|
  {
    if rules == [] then Ok(Nothing)
    else
      match SliceOne(input, rules[0], iw, ih, MakesDir, Saves)
      case Err(e) => Err(e)
      case Ok(a) =>
        match SliceAll(input, rules[1..], iw, ih, MakesDir, Saves)
        case Err(e) => Err(e)
        case Ok(b) => Ok(Add(a, b))
  }

  /** One input of the mapping: a missing or undecodable image costs one tick and
      writes nothing. */
  function SliceInput(input: string, rules: seq<SliceRule>, Lookup: string -> Picture,
                      MakesDir: string -> bool, Saves: string -> bool): (res: Result<Report>)
    ensures res.Ok? ==> res.value.ticks == TicksOf(rules, Lookup(input))
    ensures !Lookup(input).Decoded? ==> res.Ok? && res.value.sprites == [] && res.value.sidecars == []
  {
    match Lookup(input)
    case Decoded(iw, ih) => SliceAll(input, rules, iw, ih, MakesDir, Saves)
    case _ => Ok(Report(0, 1, [], []))
  }

  /** `apply_slicer_mappings` over the mapping in insertion order. */
  function ApplySlicerMappings(m: Mapping, Lookup: string -> Picture, MakesDir: string -> bool,
                               Saves: string -> bool): (res: Result<Report>)
    ensures res.Ok? ==> res.value.created == |res.value.sprites|
    decreases |m|
  {
    if m == [] then Ok(Nothing)
    else
      match SliceInput(m[0].0, m[0].1, Lookup, MakesDir, Saves)
      case Err(e) => Err(e)
      case Ok(a) =>
        match ApplySlicerMappings(m[1..], Lookup, MakesDir, Saves)
        case Err(e) => Err(e)
        case Ok(b) => Ok(Add(a, b))
  }

  // ---------------------------------------------------------------------------
  // When the pass aborts
  // ---------------------------------------------------------------------------

  predicate HasFailure(rules: seq<SliceRule>, MakesDir: string -> bool) {
    exists j :: 0 <= j < |rules| && Fails(rules[j], MakesDir)
  }

  /** Some input whose image decodes has a rule with a zero reference size or an output
      folder that cannot be created. */
  predicate Aborts(m: Mapping, Lookup: string -> Picture, MakesDir: string -> bool) {
    exists i :: 0 <= i < |m| && Lookup(m[i].0).Decoded? && HasFailure(m[i].1, MakesDir)
  }

  lemma {:induction false} SliceAllFails(input: string, rules: seq<SliceRule>, iw: nat, ih: nat,
                                         MakesDir: string -> bool, Saves: string -> bool)
    ensures SliceAll(input, rules, iw, ih, MakesDir, Saves).Err? <==> HasFailure(rules, MakesDir)
    decreases |rules|
  {
    if rules != [] {
      SliceAllFails(input, rules[1..], iw, ih, MakesDir, Saves);
      if HasFailure(rules[1..], MakesDir) {
        var j :| 0 <= j < |rules[1..]| && Fails(rules[1..][j], MakesDir);
        assert Fails(rules[j + 1], MakesDir);
      }
      if HasFailure(rules, MakesDir) && !Fails(rules[0], MakesDir) {
        var j :| 0 <= j < |rules| && Fails(rules[j], MakesDir);
        assert Fails(rules[1..][j - 1], MakesDir);
      }
    }
  }

  /** The run aborts exactly when an input whose image decodes has a rule with a zero
      reference size or an output folder that cannot be created; a missing or broken
      image hides its rules. */
  lemma {:induction false} ApplyFails(m: Mapping, Lookup: string -> Picture, MakesDir: string -> bool,
                                      Saves: string -> bool)
    ensures ApplySlicerMappings(m, Lookup, MakesDir, Saves).Err? <==> Aborts(m, Lookup, MakesDir)
    decreases |m|
  {
    if m != [] {
      ApplyFails(m[1..], Lookup, MakesDir, Saves);
      if Lookup(m[0].0).Decoded? {
        SliceAllFails(m[0].0, m[0].1, Lookup(m[0].0).width, Lookup(m[0].0).height, MakesDir, Saves);
      }
      if Aborts(m[1..], Lookup, MakesDir) {
        var i :| 0 <= i < |m[1..]| && Lookup(m[1..][i].0).Decoded? && HasFailure(m[1..][i].1, MakesDir);
        assert m[i + 1] == m[1..][i];
      }
      if Aborts(m, Lookup, MakesDir) {
        var i :| 0 <= i < |m| && Lookup(m[i].0).Decoded? && HasFailure(m[i].1, MakesDir);
        if i > 0 {
          assert m[1..][i - 1] == m[i];
        }
      }
    }
  }

  // ---------------------------------------------------------------------------
  // Progress and the written sprites
  // ---------------------------------------------------------------------------

  /** Ticks promised per input: one per rule of a decoded image, one otherwise. */
  function TicksOf(rules: seq<SliceRule>, p: Picture): nat {
    if p.Decoded? then |rules| else 1
  }

  function ExpectedTicks(m: Mapping, Lookup: string -> Picture): nat
    decreases |m|
  {
    if m == [] then 0 else TicksOf(m[0].1, Lookup(m[0].0)) + ExpectedTicks(m[1..], Lookup)
  }

  lemma {:induction false} ApplyTicks(m: Mapping, Lookup: string -> Picture, MakesDir: string -> bool, Saves: string -> bool)
    requires ApplySlicerMappings(m, Lookup, MakesDir, Saves).Ok?
    ensures ApplySlicerMappings(m, Lookup, MakesDir, Saves).value.ticks == ExpectedTicks(m, Lookup)
    decreases |m|
  {
    if m != [] {
      ApplyTicks(m[1..], Lookup, MakesDir, Saves);
    }
  }

  /** Sprite `s` is the crop of rule `r` out of the image it records. */
  predicate CropOf(s: Sprite, r: SliceRule) {
    !ZeroReference(r.box) && s.output == r.output && s.rect == CropRect(r.box, s.width, s.height)
  }

  /** Every sprite of one input is a saved crop of that input's image by one of its
      rules, and lies inside the image. */
  lemma {:induction false} SliceAllSprites(input: string, rules: seq<SliceRule>, iw: nat, ih: nat,
                                           MakesDir: string -> bool, Saves: string -> bool)
    requires SliceAll(input, rules, iw, ih, MakesDir, Saves).Ok?
    ensures forall s :: s in SliceAll(input, rules, iw, ih, MakesDir, Saves).value.sprites ==>
      && s.input == input && s.width == iw && s.height == ih && Saves(s.output)
      && (iw >= 1 && ih >= 1 ==> Inside(s.rect, iw, ih))
      && exists r :: r in rules && CropOf(s, r)
    decreases |rules|
  {
    if rules != [] {
      SliceAllSprites(input, rules[1..], iw, ih, MakesDir, Saves);
      assert forall r :: r in rules[1..] ==> r in rules;
      var a := SliceOne(input, rules[0], iw, ih, MakesDir, Saves).value;
      if a.sprites != [] {
        assert CropOf(a.sprites[0], rules[0]);
      }
    }
  }

  /** Every sprite of the pass is the crop of a rule of the mapping, out of the image
      its input decoded to, saved successfully and lying inside that image. */
  lemma {:induction false} ApplySprites(m: Mapping, Lookup: string -> Picture, MakesDir: string -> bool, Saves: string -> bool)
    requires ApplySlicerMappings(m, Lookup, MakesDir, Saves).Ok?
    ensures forall s :: s in ApplySlicerMappings(m, Lookup, MakesDir, Saves).value.sprites ==>
      && Lookup(s.input) == Decoded(s.width, s.height) && Saves(s.output)
      && (s.width >= 1 && s.height >= 1 ==> Inside(s.rect, s.width, s.height))
      && exists e, r :: e in m && r in e.1 && e.0 == s.input && CropOf(s, r)
    decreases |m|
  {
    if m != [] {
      ApplySprites(m[1..], Lookup, MakesDir, Saves);
      assert forall e :: e in m[1..] ==> e in m;
      var p := Lookup(m[0].0);
      if p.Decoded? {
        SliceAllSprites(m[0].0, m[0].1, p.width, p.height, MakesDir, Saves);
      }
    }
  }

  /** Every sidecar of one input belongs to a rule with non-empty metadata. */
  lemma {:induction false} SliceAllSidecars(input: string, rules: seq<SliceRule>, iw: nat, ih: nat,
                                            MakesDir: string -> bool, Saves: string -> bool)
    requires SliceAll(input, rules, iw, ih, MakesDir, Saves).Ok?
    ensures forall c :: c in SliceAll(input, rules, iw, ih, MakesDir, Saves).value.sidecars ==>
      exists r :: r in rules && Saves(r.output) && r.metadata.Some? && r.metadata.value != []
        && Saves(r.output + ".mcmeta") && c == Sidecar(r.output + ".mcmeta", SidecarText(r.metadata.value))
    ensures (forall r :: r in rules ==> r.metadata.None?) ==>
      SliceAll(input, rules, iw, ih, MakesDir, Saves).value.sidecars == []
    decreases |rules|
  {
    if rules != [] {
      SliceAllSidecars(input, rules[1..], iw, ih, MakesDir, Saves);
      assert forall r :: r in rules[1..] ==> r in rules;
    }
  }

  /** Sidecars come only from rules with non-empty metadata whose sprite was saved. */
  lemma {:induction false} ApplySidecars(m: Mapping, Lookup: string -> Picture, MakesDir: string -> bool, Saves: string -> bool)
    requires ApplySlicerMappings(m, Lookup, MakesDir, Saves).Ok?
    ensures forall c :: c in ApplySlicerMappings(m, Lookup, MakesDir, Saves).value.sidecars ==>
      exists e, r :: e in m && r in e.1 && Saves(r.output) && r.metadata.Some? && r.metadata.value != []
        && Saves(r.output + ".mcmeta") && c == Sidecar(r.output + ".mcmeta", SidecarText(r.metadata.value))
    ensures (forall e, r :: e in m && r in e.1 ==> r.metadata.None?) ==>
      ApplySlicerMappings(m, Lookup, MakesDir, Saves).value.sidecars == []
    decreases |m|
  {
    if m != [] {
      ApplySidecars(m[1..], Lookup, MakesDir, Saves);
      assert forall e :: e in m[1..] ==> e in m;
      var p := Lookup(m[0].0);
      if p.Decoded? {
        SliceAllSidecars(m[0].0, m[0].1, p.width, p.height, MakesDir, Saves);
      }
    }
  }

  /** The number of rules whose sprite saves. */
  function SavedCount(rules: seq<SliceRule>, Saves: string -> bool): nat
    decreases |rules|
  {
    if rules == [] then 0 else (if Saves(rules[0].output) then 1 else 0) + SavedCount(rules[1..], Saves)
  }

  /** The sprites promised per input: one per saved rule of a decoded image. */
  function ExpectedCreated(m: Mapping, Lookup: string -> Picture, Saves: string -> bool): nat
    decreases |m|
  {
    if m == [] then 0
    else (if Lookup(m[0].0).Decoded? then SavedCount(m[0].1, Saves) else 0) + ExpectedCreated(m[1..], Lookup, Saves)
  }

  /** Nothing is skipped on one decoded input: every rule whose save succeeds gives its
      sprite, and its sidecar when it has non-empty metadata and the sidecar write
      succeeds; the count is the number of saved rules. */
  lemma {:induction false} SliceAllComplete(input: string, rules: seq<SliceRule>, iw: nat, ih: nat,
                                            MakesDir: string -> bool, Saves: string -> bool)
    requires SliceAll(input, rules, iw, ih, MakesDir, Saves).Ok?
    ensures forall r :: r in rules ==> !Fails(r, MakesDir)
    ensures SliceAll(input, rules, iw, ih, MakesDir, Saves).value.created == SavedCount(rules, Saves)
    ensures forall r :: r in rules && !ZeroReference(r.box) && Saves(r.output) ==>
      Sprite(input, r.output, CropRect(r.box, iw, ih), iw, ih) in SliceAll(input, rules, iw, ih, MakesDir, Saves).value.sprites
    ensures forall r ::
      r in rules && Saves(r.output) && r.metadata.Some? && r.metadata.value != [] && Saves(r.output + ".mcmeta") ==>
      Sidecar(r.output + ".mcmeta", SidecarText(r.metadata.value)) in SliceAll(input, rules, iw, ih, MakesDir, Saves).value.sidecars
    decreases |rules|
  {
    if rules != [] {
      SliceAllComplete(input, rules[1..], iw, ih, MakesDir, Saves);
      assert forall r :: r in rules ==> r == rules[0] || r in rules[1..];
    }
  }

  /** Nothing is skipped over the whole mapping: every rule of a decoded input whose save
      succeeds gives its sprite, and its sidecar when it has non-empty metadata and the
      sidecar write succeeds; the count is the number of such rules. */
  lemma {:induction false} ApplyComplete(m: Mapping, Lookup: string -> Picture, MakesDir: string -> bool,
                                         Saves: string -> bool)
    requires ApplySlicerMappings(m, Lookup, MakesDir, Saves).Ok?
    ensures forall e, r :: e in m && r in e.1 && Lookup(e.0).Decoded? ==> !Fails(r, MakesDir)
    ensures ApplySlicerMappings(m, Lookup, MakesDir, Saves).value.created == ExpectedCreated(m, Lookup, Saves)
    ensures forall e, r :: e in m && r in e.1 && Lookup(e.0).Decoded? && !ZeroReference(r.box) && Saves(r.output) ==>
      var p := Lookup(e.0);
      Sprite(e.0, r.output, CropRect(r.box, p.width, p.height), p.width, p.height)
        in ApplySlicerMappings(m, Lookup, MakesDir, Saves).value.sprites
    ensures forall e, r ::
      && e in m && r in e.1 && Lookup(e.0).Decoded? && Saves(r.output)
      && r.metadata.Some? && r.metadata.value != [] && Saves(r.output + ".mcmeta") ==>
      Sidecar(r.output + ".mcmeta", SidecarText(r.metadata.value))
        in ApplySlicerMappings(m, Lookup, MakesDir, Saves).value.sidecars
    decreases |m|
  {
    if m != [] {
      ApplyComplete(m[1..], Lookup, MakesDir, Saves);
      assert forall e :: e in m ==> e == m[0] || e in m[1..];
      var p := Lookup(m[0].0);
      if p.Decoded? {
        SliceAllComplete(m[0].0, m[0].1, p.width, p.height, MakesDir, Saves);
      }
    }
  }

  /** With the parser as written, the slicer never writes a sidecar. */
  lemma NoSidecarsAsWritten(text: string, Lookup: string -> Picture, MakesDir: string -> bool,
                            Saves: string -> bool)
    requires ApplySlicerMappings(LoadSlicerMappings(Some(text)), Lookup, MakesDir, Saves).Ok?
    ensures ApplySlicerMappings(LoadSlicerMappings(Some(text)), Lookup, MakesDir, Saves).value.sidecars == []
  {
    LoadedMetadataAlwaysNone(text);
    ApplySidecars(LoadSlicerMappings(Some(text)), Lookup, MakesDir, Saves);
  }
}

=== FILE: slicer_metadata.dfy ===
/** The triple-quoted form of the metadata call (`METADATA_TRIPLE_RE`,
    MewUpdater.py:74) in the window lookup: where its content starts and ends, and how
    it wins over a single-line call. */
module SlicerMetadata {
  import opened Wrappers
  import opened Text
  import opened SlicerSpec

  /** The text of a triple-quoted metadata call as it follows an `OutputFile(...)`: the
      opening quotes end their line, and the closing quotes start one. */
  function TripleCallText(body: string): string {
    TripleOpen + body + TripleClose
  }

  const TripleOpen := ").metadata(\"\"\"\n"
  const TripleClose := "\n\"\"\")"

  /** A body that the lazy `(.*?)` and the two `\s*` leave whole: no quote in it, and it
      neither starts nor ends with whitespace. */
  predicate PlainBody(body: string) {
    && body != [] && NoQuotes(body)
    && !IsSpace(body[0]) && !IsSpace(body[|body| - 1])
  }

  lemma TripleOpenShape()
    ensures |TripleOpen| == 15
    ensures TripleOpen[0] == ')' && TripleOpen[1..11] == ".metadata("
    ensures TripleOpen[11..14] == "\"\"\"" && TripleOpen[13] == '"' && TripleOpen[14] == '\n'
  {
  }

  lemma TripleCloseShape()
    ensures |TripleClose| == 5
    ensures TripleClose[0] == '\n' && TripleClose[1..4] == "\"\"\"" && TripleClose[1] == '"'
    ensures TripleClose[4] == ')'
  {
  }

  /** Where the three parts of a call stand in a text that holds it at `o`. */
  lemma TripleCallParts(s: string, o: nat, body: string)
    requires o + |TripleCallText(body)| <= |s|
    requires s[o..o + |TripleCallText(body)|] == TripleCallText(body)
    ensures |TripleCallText(body)| == |body| + 20
    ensures forall k :: 0 <= k < 15 ==> s[o + k] == TripleOpen[k]
    ensures forall k :: 0 <= k < |body| ==> s[o + 15 + k] == body[k]
    ensures forall k :: 0 <= k < 5 ==> s[o + 15 + |body| + k] == TripleClose[k]
  {
    var w := TripleCallText(body);
    TripleOpenShape();
    TripleCloseShape();
    forall k | 0 <= k < |w| ensures s[o + k] == w[k] {
      assert s[o..o + |w|][k] == s[o + k];
    }
  }

  /** The lazy `(.*?)` stops at the first index where the closing matches. */
  lemma {:induction false} FindCloseFirst(s: string, p: nat, c: nat, e: nat)
    requires p <= c <= |s|
    requires forall j :: p <= j < c ==> CloseAt(s, j).None?
    requires CloseAt(s, c) == Some(e)
    ensures FindClose(s, p) == Some((c, e))
    decreases c - p
  {
    if p < c {
      FindCloseFirst(s, p + 1, c, e);
    }
  }

  /** Wherever the call stands, the closing cannot match before the line of the closing
      quotes. */
  lemma NoCloseInBody(s: string, o: nat, body: string, j: nat)
    requires PlainBody(body)
    requires o + |TripleCallText(body)| <= |s|
    requires s[o..o + |TripleCallText(body)|] == TripleCallText(body)
    requires o + 14 <= j < o + 16 + |body|
    ensures CloseAt(s, j).None?
  {
    var n := |body|;
    TripleCallParts(s, o, body);
    TripleOpenShape();
    if LineStartAt(s, j) {
      assert s[o + 13] == TripleOpen[13];
      assert j != o + 14;
      assert s[o + 15 + (n - 1)] == body[n - 1];
      assert j != o + 15 + n;
      var u := SkipSpaces(s, j);
      assert u <= o + 14 + n;
      assert s[o + 15 + (u - o - 15)] == body[u - o - 15];
      assert !TripleQuoteAt(s, u);
    }
  }

  /** A text holding `w` at `o` holds each slice of `w` at the same offset. */
  lemma SubSlice(s: string, o: nat, w: string, i: nat, j: nat)
    requires o + |w| <= |s| && s[o..o + |w|] == w
    requires i <= j <= |w|
    ensures s[o + i..o + j] == w[i..j]
  {
    forall k | 0 <= k < j - i ensures s[o + i..o + j][k] == w[i..j][k] {
      assert s[o + i + k] == s[o..o + |w|][i + k];
    }
  }

  /** The call text's `.metadata(`, its two triple quotes and its padded body. */
  lemma TripleTextSlices(body: string)
    ensures var w, n := TripleCallText(body), |body|;
      && |w| == n + 20
      && w[1..11] == ".metadata(" && w[11..14] == "\"\"\""
      && w[16 + n..19 + n] == "\"\"\"" && w[14..16 + n] == "\n" + body + "\n"
  {
    var w, n := TripleCallText(body), |body|;
    TripleOpenShape();
    TripleCloseShape();
    assert w[..15] == TripleOpen;
    assert w[15 + n..] == TripleClose;
    assert w[1..11] == TripleOpen[1..11];
    assert w[11..14] == TripleOpen[11..14];
    assert w[16 + n..19 + n] == TripleClose[1..4];
    assert w[14..16 + n] == [TripleOpen[14]] + body + [TripleClose[0]];
  }

  /** The characters of `.metadata(` at `o + 1`, and of the closing `"""` after the body. */
  lemma TripleCallSlices(s: string, o: nat, body: string)
    requires o + |TripleCallText(body)| <= |s|
    requires s[o..o + |TripleCallText(body)|] == TripleCallText(body)
    ensures s[o + 1..o + 11] == ".metadata("
    ensures s[o + 11..o + 14] == "\"\"\""
    ensures s[o + 16 + |body|..o + 19 + |body|] == "\"\"\""
    ensures s[o + 14..o + 16 + |body|] == "\n" + body + "\n"
  {
    var w, n := TripleCallText(body), |body|;
    TripleTextSlices(body);
    SubSlice(s, o, w, 1, 11);
    SubSlice(s, o, w, 11, 14);
    SubSlice(s, o, w, 16 + n, 19 + n);
    SubSlice(s, o, w, 14, 16 + n);
  }

  /** The lazy body of a call ends where the closing quotes start their line. */
  lemma FindCloseInCall(s: string, o: nat, body: string)
    requires PlainBody(body)
    requires o + |TripleCallText(body)| <= |s|
    requires s[o..o + |TripleCallText(body)|] == TripleCallText(body)
    ensures FindClose(s, o + 14) == Some((o + 16 + |body|, o + 20 + |body|))
  {
    var n := |body|;
    var c := o + 16 + n;
    TripleCallParts(s, o, body);
    TripleCallSlices(s, o, body);
    TripleCloseShape();
    assert s[o + 15 + n + 0] == TripleClose[0];
    assert s[o + 15 + n + 1] == TripleClose[1];
    assert s[o + 15 + n + 4] == TripleClose[4];
    SpanAt(s, c, c, IsSpace);
    SpanAt(s, c + 3, c + 3, IsSpace);
    assert CloseAt(s, c) == Some(c + 4);
    forall j | o + 14 <= j < c ensures CloseAt(s, j).None? {
      NoCloseInBody(s, o, body, j);
    }
    FindCloseFirst(s, o + 14, c, c + 4);
  }

  /** `TripleBody` where the closing follows a line end at `q`. */
  lemma TripleBodyFound(s: string, k: nat, q: nat, c: nat, e: nat)
    requires k <= q <= |s| && LineEndAt(s, q)
    requires FindClose(s, q) == Some((c, e))
    ensures TripleBody(s, k, q) == Some(MetaMatch(s[q..c], e))
  {
  }

  /** `TripleBody` gives back one character where no line ends. */
  lemma TripleBodyBack(s: string, k: nat, q: nat)
    requires k < q <= |s| && !LineEndAt(s, q)
    ensures TripleBody(s, k, q) == TripleBody(s, k, q - 1)
  {
  }

  /** `TripleAt` once the call and the opening quotes are found. */
  lemma TripleAtOpen(s: string, i: nat, a: nat)
    requires CallAt(s, i) && SkipSpaces(s, i + 10) == a && TripleQuoteAt(s, a)
    ensures TripleAt(s, i) == TripleBody(s, a + 3, SkipSpaces(s, a + 3))
  {
  }

  /** What the matcher meets in a call held at `o`: the call, the opening quotes, the
      line end after them and the closing found after the body. */
  lemma TripleCallFacts(s: string, o: nat, body: string)
    requires PlainBody(body)
    requires o + |TripleCallText(body)| <= |s|
    requires s[o..o + |TripleCallText(body)|] == TripleCallText(body)
    ensures CallAt(s, o + 1) && SkipSpaces(s, o + 11) == o + 11 && TripleQuoteAt(s, o + 11)
    ensures SkipSpaces(s, o + 14) == o + 15 && LineEndAt(s, o + 14) && !LineEndAt(s, o + 15)
    ensures FindClose(s, o + 14) == Some((o + 16 + |body|, o + 20 + |body|))
    ensures s[o + 14..o + 16 + |body|] == "\n" + body + "\n"
  {
    TripleCallParts(s, o, body);
    TripleCallSlices(s, o, body);
    TripleOpenShape();
    assert s[o + 11] == TripleOpen[11];
    SpanAt(s, o + 11, o + 11, IsSpace);
    assert s[o + 14] == TripleOpen[14];
    assert s[o + 15 + 0] == body[0];
    SpanAt(s, o + 14, o + 15, IsSpace);
    FindCloseInCall(s, o, body);
  }

  /** `METADATA_TRIPLE_RE` matched at a triple-quoted call, wherever it stands: the
      content is the body with the line ends around it. */
  lemma TripleAtCall(pre: string, body: string, rest: string)
    requires PlainBody(body)
    ensures TripleAt(pre + TripleCallText(body) + rest, |pre| + 1)
      == Some(MetaMatch("\n" + body + "\n", |pre| + 20 + |body|))
  {
    var w, n, o := TripleCallText(body), |body|, |pre|;
    var s := pre + w + rest;
    assert s[o..o + |w|] == w;
    TripleCallFacts(s, o, body);
    TripleBodyFound(s, o + 14, o + 14, o + 16 + n, o + 20 + n);
    TripleBodyBack(s, o + 14, o + 15);
    TripleAtOpen(s, o + 1, o + 11);
  }

  /** The padded body strips back to the body. */
  lemma StripPadded(body: string)
    requires PlainBody(body)
    ensures Strip("\n" + body + "\n") == body
  {
    var s := "\n" + body + "\n";
    var n := |s|;
    assert s[1] == body[0] && s[n - 2] == body[|body| - 1];
    SpanAt(s, 0, 1, IsSpace);
    assert TrimEnd(s, n - 1) == n - 1;
    assert TrimEnd(s, n) == n - 1;
    assert s[1..n - 1] == body;
  }

  /** A search returns the first index where its pattern matches. */
  lemma {:induction false} SearchFirst(s: string, pos: nat, m: nat, x: MetaMatch, At: (string, nat) -> Option<MetaMatch>)
    requires pos <= m <= |s|
    requires forall i :: pos <= i < m ==> At(s, i).None?
    requires At(s, m) == Some(x)
    ensures SearchFrom(s, pos, At) == Some((m, x))
    decreases m - pos
  {
    if pos < m {
      SearchFirst(s, pos + 1, m, x, At);
    }
  }

  /** A triple-quoted match found in a window decides its metadata. */
  lemma WindowTakesTriple(w: string, i: nat, x: MetaMatch)
    requires SearchFrom(w, 0, TripleAt) == Some((i, x))
    ensures MetadataInWindow(w) == Some(Strip(x.content))
  {
  }

  /** A window that starts with a triple-quoted call gets its body, whatever follows,
      a single-line call included. */
  lemma TripleCallThenRest(body: string, rest: string)
    requires PlainBody(body)
    ensures MetadataInWindow(TripleCallText(body) + rest) == Some(body)
  {
    var w := TripleCallText(body) + rest;
    TripleAtCall([], body, rest);
    assert [] + TripleCallText(body) + rest == w;
    TripleOpenShape();
    assert w[0] == TripleOpen[0];
    assert !CallAt(w, 0);
    var x := MetaMatch("\n" + body + "\n", 20 + |body|);
    SearchFirst(w, 0, 1, x, TripleAt);
    WindowTakesTriple(w, 1, x);
    StripPadded(body);
  }

  /** No triple-quoted match starts in a single-line call or at the `)` after it. */
  lemma NoTripleBeforeTriple(t: string, body: string, i: nat)
    requires t != [] && NoQuotes(t) && PlainBody(body)
    requires i <= |MetadataCallText(t)|
    ensures TripleAt(MetadataCallText(t) + TripleCallText(body), i).None?
  {
    var c := MetadataCallText(t);
    var w := c + TripleCallText(body);
    var n := |c|;
    if CallAt(w, i) {
      MetadataCallShape(t);
      TripleOpenShape();
      CallThenRest(t, TripleCallText(body), n - 1);
      assert w[n] == TripleOpen[0];
      CallHasNoCloseParen(w, i);
      assert i + 10 <= n - 1;
      assert !IsSpace(w[n - 1]);
      var a := SkipSpaces(w, i + 10);
      assert a <= n - 1;
      CallThenRest(t, TripleCallText(body), a);
      if a + 1 < n {
        CallThenRest(t, TripleCallText(body), a + 1);
      }
      assert w[a] != '"' || w[a + 1] != '"';
      assert a + 3 <= |w| ==> w[a..a + 3][0] == w[a] && w[a..a + 3][1] == w[a + 1];
      assert !TripleQuoteAt(w, a);
    }
  }

  /** No triple-quoted match starts before the triple-quoted call that follows a
      single-line one. */
  lemma NoTripleInSingleCall(t: string, body: string)
    requires t != [] && NoQuotes(t) && PlainBody(body)
    ensures forall i :: 0 <= i < |MetadataCallText(t)| + 1 ==>
      TripleAt(MetadataCallText(t) + TripleCallText(body), i).None?
  {
    forall i: nat | i < |MetadataCallText(t)| + 1
      ensures TripleAt(MetadataCallText(t) + TripleCallText(body), i).None?
    {
      NoTripleBeforeTriple(t, body, i);
    }
  }

  /** After a single-line call, the triple-quoted search finds the call that follows. */
  lemma TripleFoundAfterSingle(t: string, body: string)
    requires t != [] && NoQuotes(t) && PlainBody(body)
    ensures var c := MetadataCallText(t);
      SearchFrom(c + TripleCallText(body), 0, TripleAt)
        == Some((|c| + 1, MetaMatch("\n" + body + "\n", |c| + 20 + |body|)))
  {
    var c := MetadataCallText(t);
    var w := c + TripleCallText(body);
    NoTripleInSingleCall(t, body);
    TripleAtCall(c, body, []);
    assert c + TripleCallText(body) + [] == w;
    SearchFirst(w, 0, |c| + 1, MetaMatch("\n" + body + "\n", |c| + 20 + |body|), TripleAt);
  }

  /** A single-line call that opens the window is found by the single-line search. */
  lemma SingleFoundFirst(t: string, rest: string)
    requires t != [] && NoQuotes(t)
    ensures SearchFrom(MetadataCallText(t) + rest, 0, SingleAt) == Some((1, MetaMatch(t, 14 + |t|)))
  {
    SingleInWindow(t, rest);
    SearchFirst(MetadataCallText(t) + rest, 0, 1, MetaMatch(t, 14 + |t|), SingleAt);
  }

  /** A triple-quoted call wins over a single-line one, even one written first in the
      window: both are found, and the triple-quoted body is taken. */
  lemma TripleWinsOverSingle(t: string, body: string)
    requires t != [] && NoQuotes(t) && PlainBody(body)
    ensures SearchFrom(MetadataCallText(t) + TripleCallText(body), 0, SingleAt)
      == Some((1, MetaMatch(t, 14 + |t|)))
    ensures MetadataInWindow(MetadataCallText(t) + TripleCallText(body)) == Some(body)
  {
    SingleFoundFirst(t, TripleCallText(body));
    TripleFoundAfterSingle(t, body);
    StripPadded(body);
    WindowTakesTriple(MetadataCallText(t) + TripleCallText(body), |MetadataCallText(t)| + 1,
      MetaMatch("\n" + body + "\n", |MetadataCallText(t)| + 20 + |body|));
  }
}

=== FILE: slicer_spec.dfy ===
/** The parser of the slicer specification (`load_slicer_mappings`).

    The text is cut into blocks at `input("<path>",` markers; inside a block every
    `new OutputFile("<path>", new Box(<digits, commas, spaces>)` that carries six
    comma-separated integers becomes one slicing rule. Each regular expression of the
    source is modelled as a match-at-index function whose greedy and lazy choices are
    resolved by hand, and `re.search` / `re.finditer` as scans over those functions. */
module SlicerSpec {
  import opened Wrappers
  import opened Text
  import Dict
  import opened Crop

  /** One slicing rule: output path, box, and the optional metadata payload. */
  datatype SliceRule = SliceRule(output: string, box: Box, metadata: Option<string>)

  /** Input image path -> its rules, in the order the dict receives them. */
  type Mapping = Dict.Dict<string, seq<SliceRule>>

  predicate NotQuote(c: char) { c != '"' }

  /** `\s*"([^"]+)"\s*,` at index `a`, the tail shared by both call patterns: the quoted
      path and the index after the comma. */
  function QuotedThenComma(s: string, a: nat): (r: Option<(string, nat)>)
    ensures r.Some? ==> a + 4 <= r.value.1 <= |s|
  {
    var q := if a <= |s| then SkipSpaces(s, a) else |s|;
    if q == |s| || s[q] != '"' then None
    else
      var b := Span(s, q + 1, NotQuote);
      if b == q + 1 || b == |s| then None
      else
        var c := SkipSpaces(s, b + 1);
        if c == |s| || s[c] != ',' then None
        else Some((s[q + 1..b], c + 1))
  }

  // ---------------------------------------------------------------------------
  // input\(\s*"([^"]+)"\s*,     (case-insensitive)
  // ---------------------------------------------------------------------------

  datatype Marker = Marker(path: string, end: nat)

  function InputAt(s: string, i: nat): (r: Option<Marker>)
    ensures r.Some? ==> i + 10 <= r.value.end <= |s|
  {
    if !CaselessAt(s, i, "input(") then None
    else
      match QuotedThenComma(s, i + 6)
      case None => None
      case Some((path, end)) => Some(Marker(path, end))
  }

  /** The text between one input marker and the next, with the marker's path. */
  datatype Block = Block(input: string, text: string)

  /** The block loop of MewUpdater.py:86-115 from scan position `pos`. Every round moves
      the position past the marker it found, which is what makes the loop terminate. */
  function BlocksFrom(s: string, pos: nat): (bs: seq<Block>)
    requires pos <= |s|
    ensures |bs| <= |s| - pos
    decreases |s| - pos
  {
    match SearchFrom(s, pos, InputAt)
    case None => []
    case Some((_, m)) =>
      var blockEnd :=
        match SearchFrom(s, m.end, InputAt)
        case None => |s|
        case Some((next, _)) => next;
      [Block(m.path, s[m.end..blockEnd])] + BlocksFrom(s, blockEnd)
  }

  // ---------------------------------------------------------------------------
  // new\s+OutputFile\(\s*"([^"]+)"\s*,\s*new\s+Box\(\s*([0-9\s,]+)\s*\)   (case-insensitive)
  // ---------------------------------------------------------------------------

  datatype OutputMatch = OutputMatch(path: string, args: string, end: nat)

  predicate IsBoxArgChar(c: char) { IsDigit(c) || IsSpace(c) || c == ',' }

  /** `new\s+Box\(\s*([0-9\s,]+)\s*\)` at index `e`: the argument group and the end. */
  function BoxCallAt(s: string, e: nat): (r: Option<(string, nat)>)
    ensures r.Some? ==> e + 10 <= r.value.1 <= |s|
  {
    if !CaselessAt(s, e, "new") then None
    else
      var f := SkipSpaces(s, e + 3);
      if f == e + 3 || !CaselessAt(s, f, "box(") then None
      else
        var g := f + 4;
        var h := Span(s, g, IsBoxArgChar);
        if h == g || h == |s| || s[h] != ')' then None
        else
          // `\s*` before the group gives back one character when the run is all
          // whitespace, because the group needs at least one.
          var lead := SkipSpaces(s, g);
          var argStart := if lead < h then lead else h - 1;
          Some((s[argStart..h], h + 1))
  }

  /** The shortest text this pattern can match has 29 characters, so every match ends at
      least 29 characters after it starts. */
  function OutputAt(s: string, i: nat): (r: Option<OutputMatch>)
    ensures r.Some? ==> i + 29 <= r.value.end <= |s|
  {
    if !CaselessAt(s, i, "new") then None
    else
      var a := SkipSpaces(s, i + 3);
      if a == i + 3 || !CaselessAt(s, a, "outputfile(") then None
      else
        match QuotedThenComma(s, a + 11)
        case None => None
        case Some((path, d)) =>
          match BoxCallAt(s, SkipSpaces(s, d))
          case None => None
          case Some((args, end)) => Some(OutputMatch(path, args, end))
  }

  function MatchEnd(m: OutputMatch): nat { m.end }

  /** `OUTPUT_FILE_RE.finditer(block)`: (start, match) pairs in order, without overlap,
      and with no match of the pattern left out before, between or after them. */
  function OutputMatches(block: string): (ms: seq<(nat, OutputMatch)>)
    ensures forall k :: 0 <= k < |ms| ==> OutputAt(block, ms[k].0) == Some(ms[k].1)
    ensures forall k :: 0 <= k < |ms| ==> ms[k].0 + 29 <= ms[k].1.end <= |block|
    ensures forall k :: 0 <= k < |ms| - 1 ==> ms[k].1.end <= ms[k + 1].0
    ensures SkipsNothing(block, OutputAt, MatchEnd, 0, ms)
  {
    FindIterComplete(block, 0, OutputAt, MatchEnd);
    FindIter(block, 0, OutputAt, MatchEnd)
  }

  // ---------------------------------------------------------------------------
  // (\d+)\s*,\s*(\d+)\s*,\s*(\d+)\s*,\s*(\d+)\s*,\s*(\d+)\s*,\s*(\d+)
  // ---------------------------------------------------------------------------
  // The box arguments only ever hold ASCII digits, whitespace and commas, so `\d`
  // is read as an ASCII digit.

  /** `(\d+)` at the start of `t`: the value and the length of the digits. */
  function NumberAt(t: string): (r: Option<(nat, nat)>)
    ensures r.Some? ==> 0 < r.value.1 <= |t|
  {
    var d := Span(t, 0, IsDigit);
    if d == 0 then None
    else
      assert AllDigits(t[..d]) by {
        forall k | 0 <= k < d ensures IsDigit(t[..d][k]) { assert t[..d][k] == t[k]; }
      }
      Some((DigitsValue(t[..d]), d))
  }

  /** `\s*,\s*` at the start of `t`: its length. */
  function SeparatorAt(t: string): (r: Option<nat>)
    ensures r.Some? ==> 0 < r.value <= |t|
  {
    var a := SkipSpaces(t, 0);
    if a == |t| || t[a] != ',' then None else Some(SkipSpaces(t, a + 1))
  }

  /** `count` integers separated by `\s*,\s*` at the start of `t`. */
  function NumbersAt(t: string, count: nat): (r: Option<seq<nat>>)
    requires count >= 1
    ensures r.Some? ==> |r.value| == count
    decreases count
  {
    match NumberAt(t)
    case None => None
    case Some((v, d)) =>
      if count == 1 then Some([v])
      else
        match SeparatorAt(t[d..])
        case None => None
        case Some(j) =>
          match NumbersAt(t[d..][j..], count - 1)
          case None => None
          case Some(rest) => Some([v] + rest)
  }

  function SixNumbersAt(t: string, i: nat): Option<seq<nat>> {
    if i <= |t| then NumbersAt(t[i..], 6) else None
  }

  /** `BOX_NUMS_RE.search(box_args)` turned into a box. */
  function BoxNums(args: string): Option<Box> {
    match SearchFrom(args, 0, SixNumbersAt)
    case None => None
    case Some((_, vs)) => Some(Box(vs[0], vs[1], vs[2], vs[3], vs[4], vs[5]))
  }

  /** Numerals separated by ", ", as the specification files write the arguments of
      `Box`. */
  function Listed(ds: seq<string>): string
    decreases |ds|
  {
    if |ds| <= 1 then (if ds == [] then [] else ds[0]) else ds[0] + ", " + Listed(ds[1..])
  }

  /** Every entry is a non-empty string of digits. */
  predicate Numerals(ds: seq<string>) {
    forall k :: 0 <= k < |ds| ==> |ds[k]| >= 1 && AllDigits(ds[k])
  }

  function Values(ds: seq<string>): (vs: seq<nat>)
    requires Numerals(ds)
    ensures |vs| == |ds|
    decreases |ds|
  {
    if ds == [] then [] else [DigitsValue(ds[0])] + Values(ds[1..])
  }

  function BoxText(b: Box): string {
    Listed([Decimal(b.x), Decimal(b.y), Decimal(b.w), Decimal(b.h), Decimal(b.refW), Decimal(b.refH)])
  }

  /** A numeral followed by a non-digit is read back as its value. */
  lemma NumeralAt(n: string, tail: string)
    requires |n| >= 1 && AllDigits(n)
    requires tail == [] || !IsDigit(tail[0])
    ensures NumberAt(n + tail) == Some((DigitsValue(n), |n|))
  {
    var t := n + tail;
    assert t[..|n|] == n;
    forall k | 0 <= k < |n| ensures IsDigit(t[k]) { assert t[k] == n[k]; }
    assert |n| == |t| || t[|n|] == tail[0];
    SpanAt(t, 0, |n|, IsDigit);
  }

  /** The ", " separator is read by `\s*,\s*`. */
  lemma SeparatorText(rest: string)
    requires rest != [] && IsDigit(rest[0])
    ensures SeparatorAt(", " + rest) == Some(2)
  {
    var t := ", " + rest;
    assert t[0] == ',' && t[1] == ' ' && t[2] == rest[0];
    SpanAt(t, 0, 0, IsSpace);
    SpanAt(t, 1, 2, IsSpace);
  }

  lemma {:induction false} ListedNonEmpty(ds: seq<string>)
    requires |ds| >= 1 && Numerals(ds)
    ensures |Listed(ds)| >= 1 && IsDigit(Listed(ds)[0])
  {
    if |ds| >= 2 {
      assert Listed(ds) == ds[0] + (", " + Listed(ds[1..]));
    }
  }

  lemma NumbersAtStep(t: string, count: nat, v: nat, d: nat, j: nat, vs: seq<nat>)
    requires count >= 2
    requires NumberAt(t) == Some((v, d)) && SeparatorAt(t[d..]) == Some(j)
    requires NumbersAt(t[d..][j..], count - 1) == Some(vs)
    ensures NumbersAt(t, count) == Some([v] + vs)
  {
  }

  lemma {:induction false} NumbersAtListed(ds: seq<string>, tail: string)
    requires |ds| >= 1 && Numerals(ds)
    requires tail == [] || !IsDigit(tail[0])
    ensures NumbersAt(Listed(ds) + tail, |ds|) == Some(Values(ds))
    decreases |ds|
  {
    var n := ds[0];
    if |ds| == 1 {
      assert Listed(ds) == n;
      NumeralAt(n, tail);
      assert Values(ds) == [DigitsValue(n)];
    } else {
      var rest := Listed(ds[1..]);
      var u := rest + tail;
      var t := Listed(ds) + tail;
      assert Listed(ds) == n + (", " + rest);
      assert t == n + (", " + u);
      ListedNonEmpty(ds[1..]);
      NumeralAt(n, ", " + u);
      assert NumberAt(t) == Some((DigitsValue(n), |n|));
      assert t[|n|..] == ", " + u;
      SeparatorText(u);
      assert SeparatorAt(t[|n|..]) == Some(2);
      assert t[|n|..][2..] == u;
      NumbersAtListed(ds[1..], tail);
      var c := |ds[1..]|;
      assert NumbersAt(u, c) == Some(Values(ds[1..]));
      assert c == |ds| - 1;
      assert NumbersAt(t[|n|..][2..], c) == Some(Values(ds[1..]));
      NumbersAtStep(t, c + 1, DigitsValue(n), |n|, 2, Values(ds[1..]));
      assert c + 1 == |ds|;
    }
  }

  lemma {:induction false} ValuesIndex(ds: seq<string>, k: nat)
    requires Numerals(ds) && k < |ds|
    ensures Values(ds)[k] == DigitsValue(ds[k])
    decreases k
  {
    if k > 0 {
      ValuesIndex(ds[1..], k - 1);
    }
  }

  lemma BoxNumsListed(ds: seq<string>)
    requires |ds| == 6 && Numerals(ds)
    ensures var vs := Values(ds);
      BoxNums(Listed(ds)) == Some(Box(vs[0], vs[1], vs[2], vs[3], vs[4], vs[5]))
  {
    var t := Listed(ds);
    var vs := Values(ds);
    assert SixNumbersAt(t, 0) == Some(vs) by {
      NumbersAtListed(ds, []);
      assert t + [] == t && t[0..] == t;
    }
    assert SearchFrom(t, 0, SixNumbersAt) == Some((0, vs));
  }

  /** Parsing the canonical text of a box gives the box back. */
  lemma BoxNumsRoundTrip(b: Box)
    ensures BoxNums(BoxText(b)) == Some(b)
  {
    var ds := [Decimal(b.x), Decimal(b.y), Decimal(b.w), Decimal(b.h), Decimal(b.refW), Decimal(b.refH)];
    BoxNumsListed(ds);
    ValuesIndex(ds, 0);
    ValuesIndex(ds, 1);
    ValuesIndex(ds, 2);
    ValuesIndex(ds, 3);
    ValuesIndex(ds, 4);
    ValuesIndex(ds, 5);
    DecimalRoundTrip(b.x);
    DecimalRoundTrip(b.y);
    DecimalRoundTrip(b.w);
    DecimalRoundTrip(b.h);
    DecimalRoundTrip(b.refW);
    DecimalRoundTrip(b.refH);
  }

  // ---------------------------------------------------------------------------
  // Metadata patterns
  // ---------------------------------------------------------------------------

  datatype MetaMatch = MetaMatch(content: string, end: nat)

  predicate CallAt(s: string, i: nat) {
    i + 10 <= |s| && s[i..i + 10] == ".metadata("
  }

  predicate TripleQuoteAt(s: string, i: nat) {
    i + 3 <= |s| && s[i..i + 3] == "\"\"\""
  }

  /** MULTILINE `$` and `^`. */
  predicate LineEndAt(s: string, q: nat) { q == |s| || (q < |s| && s[q] == '\n') }

  predicate LineStartAt(s: string, p: nat) { p == 0 || (p <= |s| && s[p - 1] == '\n') }

  /** `^\s*"""\s*\)` at index p; the end of the match. */
  function CloseAt(s: string, p: nat): Option<nat>
    requires p <= |s|
  {
    if !LineStartAt(s, p) then None
    else
      var u := SkipSpaces(s, p);
      if !TripleQuoteAt(s, u) then None
      else
        var v := SkipSpaces(s, u + 3);
        if v == |s| || s[v] != ')' then None else Some(v + 1)
  }

  /** The lazy `(.*?)` (DOTALL): the first index at or after `p` where the closing
      matches, with the closing's end. */
  function FindClose(s: string, p: nat): (r: Option<(nat, nat)>)
    requires p <= |s|
    ensures r.Some? ==> p <= r.value.0 <= |s|
    decreases |s| - p
  {
    match CloseAt(s, p)
    case Some(e) => Some((p, e))
    case None => if p == |s| then None else FindClose(s, p + 1)
  }

  /** The greedy `\s*` before `$` gives back one character at a time, from `q` down to `k`. */
  function TripleBody(s: string, k: nat, q: nat): Option<MetaMatch>
    requires k <= q <= |s|
    decreases q - k
  {
    var close := if LineEndAt(s, q) then FindClose(s, q) else None;
    if close.Some? then Some(MetaMatch(s[q..close.value.0], close.value.1))
    else if q == k then None
    else TripleBody(s, k, q - 1)
  }

  /** `\.metadata\(\s*("""\s*$(.*?)^\s*"""\s*\))` (DOTALL, MULTILINE); the content is
      group 2. */
  function TripleAt(s: string, i: nat): Option<MetaMatch> {
    if !CallAt(s, i) then None
    else
      var a := SkipSpaces(s, i + 10);
      if !TripleQuoteAt(s, a) then None
      else TripleBody(s, a + 3, SkipSpaces(s, a + 3))
  }

  /** `\.metadata\(\s*"([^"]+)"\s*\)`. */
  function SingleAt(s: string, i: nat): Option<MetaMatch> {
    if !CallAt(s, i) then None
    else
      var a := SkipSpaces(s, i + 10);
      if a == |s| || s[a] != '"' then None
      else
        var b := Span(s, a + 1, NotQuote);
        if b == a + 1 || b == |s| then None
        else
          var c := SkipSpaces(s, b + 1);
          if c == |s| || s[c] != ')' then None
          else Some(MetaMatch(s[a + 1..b], c + 1))
  }

  /** `pattern.search(s, pos, endpos)`: nothing when `pos > endpos`, otherwise a search of
      `s[:endpos]` from `pos`. */
  function BoundedSearch(s: string, pos: nat, endpos: nat, At: (string, nat) -> Option<MetaMatch>)
    : Option<(nat, MetaMatch)>
  {
    var t := if endpos <= |s| then s[..endpos] else s;
    if pos > endpos || pos > |t| then None else SearchFrom(t, pos, At)
  }

  // ---------------------------------------------------------------------------
  // Rules as written
  // ---------------------------------------------------------------------------

  /** The integer value of `re.DOTALL`. MewUpdater.py:106-107 pass it as the third
      positional argument of `Pattern.search`, which is `endpos`, not a flag. */
  const DotAllFlagValue: nat := 16

  /** The metadata lookup of MewUpdater.py:104-111 for an `OutputFile` match ending at
      `after`. The triple-quoted form wins whenever it is found (its guard compares a
      value with itself). */
  function MetadataAsWritten(block: string, after: nat): Option<string> {
    var triple := BoundedSearch(block, after, DotAllFlagValue, TripleAt);
    var single := BoundedSearch(block, after, DotAllFlagValue, SingleAt);
    if triple.Some? then Some(Strip(triple.value.1.content))
    else if single.Some? then Some(Strip(single.value.1.content))
    else None
  }

  /** A search that starts past its `endpos` finds nothing, so an `OutputFile` ending
      past index 16 never gets metadata. */
  lemma MetadataAsWrittenPastEndpos(block: string, after: nat)
    requires after > DotAllFlagValue
    ensures MetadataAsWritten(block, after) == None
  {
  }

  /** One `OutputFile` of a block: its path, its box arguments, and the metadata text
      found for it. */
  datatype Candidate = Candidate(path: string, args: string, metadata: Option<string>)

  /** The body of the `for out_match in ...` loop of MewUpdater.py:96-112: a candidate
      becomes a rule when `Boxes` reads a box from its arguments, and is skipped
      otherwise. */
  function Keep(cs: seq<Candidate>, Boxes: string -> Option<Box>): seq<SliceRule>
    decreases |cs|
  {
    if cs == [] then []
    else
      var rest := Keep(cs[1..], Boxes);
      match Boxes(cs[0].args)
      case None => rest
      case Some(box) => [SliceRule(cs[0].path, box, cs[0].metadata)] + rest
  }

  /** The rule that candidate `c` yields. */
  predicate RuleOf(c: Candidate, Boxes: string -> Option<Box>, r: SliceRule) {
    Boxes(c.args) == Some(r.box) && r.output == c.path && r.metadata == c.metadata
  }

  /** A rule is kept exactly for each candidate whose box arguments can be read. */
  lemma {:induction false} KeepMembers(cs: seq<Candidate>, Boxes: string -> Option<Box>, r: SliceRule)
    ensures r in Keep(cs, Boxes) <==> exists k :: 0 <= k < |cs| && RuleOf(cs[k], Boxes, r)
    decreases |cs|
  {
    if cs != [] {
      KeepMembers(cs[1..], Boxes, r);
      if exists k :: 1 <= k < |cs| && RuleOf(cs[k], Boxes, r) {
        var k :| 1 <= k < |cs| && RuleOf(cs[k], Boxes, r);
        assert cs[1..][k - 1] == cs[k];
      }
      if exists k :: 0 <= k < |cs| - 1 && RuleOf(cs[1..][k], Boxes, r) {
        var k :| 0 <= k < |cs| - 1 && RuleOf(cs[1..][k], Boxes, r);
        assert cs[1..][k] == cs[k + 1];
      }
    }
  }

  /** A candidate whose box arguments cannot be read is skipped, and the other rules are
      exactly those kept without it. */
  lemma {:induction false} UnreadableBoxSkipped(cs: seq<Candidate>, Boxes: string -> Option<Box>, k: nat)
    requires k < |cs| && Boxes(cs[k].args).None?
    ensures Keep(cs[..k] + cs[k + 1..], Boxes) == Keep(cs, Boxes)
    decreases k
  {
    if k == 0 {
      assert cs[..0] + cs[1..] == cs[1..];
    } else {
      UnreadableBoxSkipped(cs[1..], Boxes, k - 1);
      var without := cs[..k] + cs[k + 1..];
      assert without[1..] == cs[1..][..k - 1] + cs[1..][k..];
      assert without[0] == cs[0];
    }
  }

  /** Outputs and boxes of a rule list, without the metadata. */
  function Shape(rs: seq<SliceRule>): (sh: seq<(string, Box)>)
    ensures |sh| == |rs|
    ensures forall i :: 0 <= i < |rs| ==> sh[i] == (rs[i].output, rs[i].box)
  {
    seq(|rs|, i requires 0 <= i < |rs| => (rs[i].output, rs[i].box))
  }

  /** Candidates that differ only in their metadata keep the same outputs and boxes, in
      the same order. */
  lemma {:induction false} KeepShape(cs: seq<Candidate>, ds: seq<Candidate>, Boxes: string -> Option<Box>)
    requires |cs| == |ds|
    requires forall k :: 0 <= k < |cs| ==> cs[k].path == ds[k].path && cs[k].args == ds[k].args
    ensures Shape(Keep(cs, Boxes)) == Shape(Keep(ds, Boxes))
    decreases |cs|
  {
    if cs != [] {
      KeepShape(cs[1..], ds[1..], Boxes);
      var a := Keep(cs[1..], Boxes);
      var b := Keep(ds[1..], Boxes);
      match Boxes(cs[0].args)
      case None =>
      case Some(box) =>
        assert Shape([SliceRule(cs[0].path, box, cs[0].metadata)] + a) == [(cs[0].path, box)] + Shape(a);
        assert Shape([SliceRule(ds[0].path, box, ds[0].metadata)] + b) == [(ds[0].path, box)] + Shape(b);
    }
  }

  /** The candidates of a block as written: each match with the metadata looked up by
      MewUpdater.py:104-111. */
  function CandidatesAsWritten(block: string, ms: seq<(nat, OutputMatch)>): (cs: seq<Candidate>)
    ensures |cs| == |ms|
    ensures forall k :: 0 <= k < |ms| ==>
      cs[k] == Candidate(ms[k].1.path, ms[k].1.args, MetadataAsWritten(block, ms[k].1.end))
  {
    seq(|ms|, k requires 0 <= k < |ms| =>
      Candidate(ms[k].1.path, ms[k].1.args, MetadataAsWritten(block, ms[k].1.end)))
  }

  /** The rules of a block as written. No rule ever carries metadata: every `OutputFile`
      match ends past index 16, where the bounded metadata searches cannot start. */
  function ParseBlock(block: string): (rs: seq<SliceRule>)
    ensures forall r :: r in rs ==> r.metadata.None?
  {
    var ms := OutputMatches(block);
    var cs := CandidatesAsWritten(block, ms);
    forall k | 0 <= k < |ms| ensures cs[k].metadata == None {
      MetadataAsWrittenPastEndpos(block, ms[k].1.end);
    }
    forall r | r in Keep(cs, BoxNums) ensures r.metadata.None? {
      KeepMembers(cs, BoxNums, r);
    }
    Keep(cs, BoxNums)
  }

  /** The rules of a block as written are exactly one per `OutputFile` whose box
      arguments hold six integers, with that path and box. */
  lemma ParseBlockMembers(block: string, r: SliceRule)
    ensures r in ParseBlock(block) <==>
      exists k :: 0 <= k < |OutputMatches(block)| &&
        var m := OutputMatches(block)[k].1;
        BoxNums(m.args) == Some(r.box) && r.output == m.path && r.metadata.None?
  {
    var ms := OutputMatches(block);
    var cs := CandidatesAsWritten(block, ms);
    KeepMembers(cs, BoxNums, r);
    forall k | 0 <= k < |ms| ensures cs[k].metadata == None {
      MetadataAsWrittenPastEndpos(block, ms[k].1.end);
    }
  }

  // ---------------------------------------------------------------------------
  // Rules with the metadata lookup as intended
  // ---------------------------------------------------------------------------

  /** The metadata of an `OutputFile`, searched only in `w`, the text between the end of
      that `OutputFile` and the start of the next one (or the end of the block). A
      triple-quoted call wins over a single-line one, as the branch order of
      MewUpdater.py:108-111 has it. */
  function MetadataInWindow(w: string): Option<string> {
    var triple := SearchFrom(w, 0, TripleAt);
    var single := SearchFrom(w, 0, SingleAt);
    if triple.Some? then Some(Strip(triple.value.1.content))
    else if single.Some? then Some(Strip(single.value.1.content))
    else None
  }

  /** Matches lie within the block, in order and without overlap. */
  predicate Placed(block: string, ms: seq<(nat, OutputMatch)>) {
    && (forall j :: 0 <= j < |ms| ==> ms[j].0 <= ms[j].1.end <= |block|)
    && (forall j :: 0 <= j < |ms| - 1 ==> ms[j].1.end <= ms[j + 1].0)
  }

  /** The window after the k-th match: up to the next match, or to the end of the block. */
  function Window(block: string, ms: seq<(nat, OutputMatch)>, k: nat): string
    requires k < |ms| && Placed(block, ms)
  {
    var stop := if k + 1 < |ms| then ms[k + 1].0 else |block|;
    assert k + 1 < |ms| ==> ms[k + 1].0 <= ms[k + 1].1.end <= |block|;
    block[ms[k].1.end..stop]
  }

  /** The candidates of a block with the metadata looked up in each window. */
  function CandidatesCorrected(block: string, ms: seq<(nat, OutputMatch)>): (cs: seq<Candidate>)
    requires Placed(block, ms)
    ensures |cs| == |ms|
    ensures forall k :: 0 <= k < |ms| ==>
      cs[k] == Candidate(ms[k].1.path, ms[k].1.args, MetadataInWindow(Window(block, ms, k)))
  {
    seq(|ms|, k requires 0 <= k < |ms| && Placed(block, ms) =>
      Candidate(ms[k].1.path, ms[k].1.args, MetadataInWindow(Window(block, ms, k))))
  }

  /** The rules of a block with the metadata looked up as intended: the same rules, in
      the same order, with the same outputs and boxes as written; only the metadata can
      differ. */
  function ParseBlockCorrected(block: string): (rs: seq<SliceRule>)
    ensures Shape(rs) == Shape(ParseBlock(block))
  {
    var ms := OutputMatches(block);
    KeepShape(CandidatesCorrected(block, ms), CandidatesAsWritten(block, ms), BoxNums);
    Keep(CandidatesCorrected(block, ms), BoxNums)
  }

  /** The text of a single-line metadata call, as it follows an `OutputFile(...)`. */
  function MetadataCallText(t: string): string {
    ").metadata(\"" + t + "\")"
  }

  predicate NoQuotes(t: string) {
    forall k :: 0 <= k < |t| ==> t[k] != '"'
  }

  lemma MetadataCallShape(t: string)
    requires NoQuotes(t)
    ensures var w := MetadataCallText(t);
      && |w| == |t| + 14
      && w[..12] == ").metadata(\""
      && w[12..12 + |t|] == t
      && w[12 + |t|] == '"' && w[13 + |t|] == ')'
      && forall k :: 0 <= k < |w| && k != 11 && k != 12 + |t| ==> w[k] != '"'
  {
    var w := MetadataCallText(t);
    assert w == ").metadata(\"" + t + "\")";
    forall k | 0 <= k < |w| && k != 11 && k != 12 + |t| ensures w[k] != '"' {
      if 12 <= k < 12 + |t| {
        assert w[k] == t[k - 12];
      }
    }
  }

  /** No triple-quoted metadata call occurs in the text of a single-line one. */
  lemma NoTripleInCall(t: string)
    requires t != [] && NoQuotes(t)
    ensures SearchFrom(MetadataCallText(t), 0, TripleAt).None?
  {
    var w := MetadataCallText(t);
    MetadataCallShape(t);
    forall a: nat | a + 3 <= |w| ensures !TripleQuoteAt(w, a) {
      assert w[a..a + 3][0] == w[a] && w[a..a + 3][1] == w[a + 1];
      assert w[a] != '"' || w[a + 1] != '"';
    }
  }

  lemma SingleCallFound(t: string)
    requires t != [] && NoQuotes(t)
    ensures SearchFrom(MetadataCallText(t), 0, SingleAt) == Some((1, MetaMatch(t, 14 + |t|)))
  {
    var w := MetadataCallText(t);
    MetadataCallShape(t);
    assert !CallAt(w, 0) by { assert w[0] == ')'; }
    assert CallAt(w, 1) by { assert w[1..11] == w[..12][1..11]; }
    SpanAt(w, 11, 11, IsSpace);
    forall k | 12 <= k < 12 + |t| ensures NotQuote(w[k]) { assert w[k] == w[12..12 + |t|][k - 12]; }
    SpanAt(w, 12, 12 + |t|, NotQuote);
    SpanAt(w, 13 + |t|, 13 + |t|, IsSpace);
    assert SingleAt(w, 1) == Some(MetaMatch(t, 14 + |t|));
  }

  /** With the lookup confined to the window, a single-line metadata call written right
      after an `OutputFile(...)` is attached to it, stripped. */
  lemma MetadataCallAttached(t: string)
    requires t != [] && NoQuotes(t)
    ensures MetadataInWindow(MetadataCallText(t)) == Some(Strip(t))
  {
    NoTripleInCall(t);
    SingleCallFound(t);
  }

  /** The call text followed by more text keeps the call's characters in front. */
  lemma CallThenRest(t: string, rest: string, k: nat)
    requires k < |MetadataCallText(t)|
    ensures (MetadataCallText(t) + rest)[k] == MetadataCallText(t)[k]
  {
  }

  /** In a window that starts with a single-line call and holds no further `.metadata(`,
      a `.metadata(` occurs only inside the call, before its closing parenthesis. */
  lemma CallsInsideCall(t: string, rest: string, i: nat)
    requires t != [] && NoQuotes(t)
    requires !Contains(rest, ".metadata(")
    requires CallAt(MetadataCallText(t) + rest, i)
    ensures i + 10 <= |MetadataCallText(t)| - 1
  {
    var c := MetadataCallText(t);
    var w := c + rest;
    var n := |c|;
    MetadataCallShape(t);
    CallThenRest(t, rest, n - 1);
    CallHasNoCloseParen(w, i);
    if i >= n {
      assert w[i..i + 10] == rest[i - n..i - n + 10];
      assert OccursAt(rest, ".metadata(", i - n);
    }
  }

  /** The ten characters of `.metadata(` hold no closing parenthesis. */
  lemma CallHasNoCloseParen(s: string, i: nat)
    requires CallAt(s, i)
    ensures forall j :: i <= j < i + 10 ==> s[j] != ')'
  {
    forall j | i <= j < i + 10 ensures s[j] != ')' {
      assert s[j] == s[i..i + 10][j - i];
    }
  }

  /** No triple-quoted metadata call starts anywhere in such a window. */
  lemma NoTripleInWindow(t: string, rest: string, i: nat)
    requires t != [] && NoQuotes(t)
    requires !Contains(rest, ".metadata(")
    ensures TripleAt(MetadataCallText(t) + rest, i).None?
  {
    var c := MetadataCallText(t);
    var w := c + rest;
    var n := |c|;
    if CallAt(w, i) {
      CallsInsideCall(t, rest, i);
      MetadataCallShape(t);
      CallThenRest(t, rest, n - 1);
      assert !IsSpace(w[n - 1]);
      var a := SkipSpaces(w, i + 10);
      assert a <= n - 1;
      if TripleQuoteAt(w, a) {
        assert w[a..a + 3][0] == w[a] && w[a..a + 3][1] == w[a + 1];
        CallThenRest(t, rest, a);
        CallThenRest(t, rest, a + 1);
      }
    }
  }

  lemma SingleInWindow(t: string, rest: string)
    requires t != [] && NoQuotes(t)
    ensures SingleAt(MetadataCallText(t) + rest, 0).None?
    ensures SingleAt(MetadataCallText(t) + rest, 1) == Some(MetaMatch(t, 14 + |t|))
  {
    var c := MetadataCallText(t);
    var w := c + rest;
    MetadataCallShape(t);
    assert w[..|c|] == c;
    assert !CallAt(w, 0) by { assert w[0] == ')'; }
    assert CallAt(w, 1) by { assert w[1..11] == c[..12][1..11]; }
    assert w[11] == '"';
    SpanAt(w, 11, 11, IsSpace);
    forall k | 12 <= k < 12 + |t| ensures NotQuote(w[k]) { assert w[k] == c[12..12 + |t|][k - 12]; }
    SpanAt(w, 12, 12 + |t|, NotQuote);
    assert w[12 + |t|] == '"' && w[13 + |t|] == ')';
    SpanAt(w, 13 + |t|, 13 + |t|, IsSpace);
    assert w[12..12 + |t|] == t;
  }

  /** The window may go on after the call: as long as it holds no second `.metadata(`,
      the call's text is what the `OutputFile` before it gets. */
  lemma MetadataCallThenRest(t: string, rest: string)
    requires t != [] && NoQuotes(t)
    requires !Contains(rest, ".metadata(")
    ensures MetadataInWindow(MetadataCallText(t) + rest) == Some(Strip(t))
  {
    var w := MetadataCallText(t) + rest;
    forall i: nat | i <= |w| ensures TripleAt(w, i).None? {
      NoTripleInWindow(t, rest, i);
    }
    SingleInWindow(t, rest);
  }

  /** Lifted to the block: the `OutputFile` at position `k` whose window is a single-line
      call followed by text without another call gives a rule that carries the call's
      stripped text. */
  lemma MetadataAttachedInBlock(block: string, k: nat, t: string, rest: string, box: Box)
    requires k < |OutputMatches(block)|
    requires Window(block, OutputMatches(block), k) == MetadataCallText(t) + rest
    requires t != [] && NoQuotes(t) && !Contains(rest, ".metadata(")
    requires BoxNums(OutputMatches(block)[k].1.args) == Some(box)
    ensures CandidatesCorrected(block, OutputMatches(block))[k].metadata == Some(Strip(t))
    ensures SliceRule(OutputMatches(block)[k].1.path, box, Some(Strip(t))) in ParseBlockCorrected(block)
  {
    var ms := OutputMatches(block);
    var cs := CandidatesCorrected(block, ms);
    MetadataCallThenRest(t, rest);
    KeepMembers(cs, BoxNums, SliceRule(ms[k].1.path, box, Some(Strip(t))));
  }

  // ---------------------------------------------------------------------------
  // The mapping
  // ---------------------------------------------------------------------------

  /** The dict updates of MewUpdater.py:113-114 over (input, rules) pairs in text order:
      a block without rules adds nothing, a later block for the same input replaces the
      earlier one in place. */
  function Collect(es: seq<(string, seq<SliceRule>)>): (m: Mapping)
    ensures forall e :: e in m ==> e.1 != [] && e in es
    decreases |es|
  {
    if es == [] then []
    else
      var init := es[..|es| - 1];
      var prev := Collect(init);
      var (k, rules) := es[|es| - 1];
      assert forall e :: e in init ==> e in es;
      if rules == [] then prev
      else
        Dict.PutEntries(prev, k, rules);
        Dict.Put(prev, k, rules)
  }

  /** Each input appears at most once in the collected mapping. */
  lemma {:induction false} CollectDistinct(es: seq<(string, seq<SliceRule>)>)
    ensures Dict.DistinctKeys(Collect(es))
    decreases |es|
  {
    if es != [] {
      var init := es[..|es| - 1];
      CollectDistinct(init);
      var last := es[|es| - 1];
      if last.1 != [] {
        Dict.PutKeepsKeysDistinct(Collect(init), last.0, last.1);
      }
    }
  }

  /** No block for `input` has rules. */
  predicate NoRulesFor(es: seq<(string, seq<SliceRule>)>, input: string) {
    forall i :: 0 <= i < |es| && es[i].0 == input ==> es[i].1 == []
  }

  /** Block `i` is the last block for `input` that has rules. */
  predicate LastWithRules(es: seq<(string, seq<SliceRule>)>, input: string, i: nat) {
    && i < |es| && es[i].0 == input && es[i].1 != []
    && forall j :: i < j < |es| && es[j].0 == input ==> es[j].1 == []
  }

  /** An input is absent from the mapping exactly when none of its blocks has rules. */
  lemma {:induction false} CollectAbsent(es: seq<(string, seq<SliceRule>)>, input: string)
    ensures Dict.Get(Collect(es), input).None? <==> NoRulesFor(es, input)
    decreases |es|
  {
    if es != [] {
      var n := |es| - 1;
      var init := es[..n];
      CollectAbsent(init, input);
      assert forall i :: 0 <= i < n ==> init[i] == es[i];
      var last := es[n];
      if last.1 != [] && last.0 != input {
        Dict.PutKeepsOthers(Collect(init), last.0, last.1, input);
        assert Dict.Get(Collect(es), input) == Dict.Get(Collect(init), input);
      }
    }
  }

  /** The rules stored for an input are those of its last block that has rules: a later
      block replaces an earlier one, and a block without rules changes nothing. */
  lemma {:induction false} CollectLast(es: seq<(string, seq<SliceRule>)>, input: string, i: nat)
    requires LastWithRules(es, input, i)
    ensures Dict.Get(Collect(es), input) == Some(es[i].1)
    decreases |es|
  {
    var n := |es| - 1;
    var init := es[..n];
    var last := es[n];
    if i < n {
      assert LastWithRules(init, input, i) by {
        assert forall k :: 0 <= k < n ==> init[k] == es[k];
      }
      CollectLast(init, input, i);
      assert last.0 != input || last.1 == [];
      if last.1 != [] {
        assert Collect(es) == Dict.Put(Collect(init), last.0, last.1);
        Dict.PutKeepsOthers(Collect(init), last.0, last.1, input);
      }
    }
  }

  function ParsedBlocks(bs: seq<Block>, corrected: bool): (es: seq<(string, seq<SliceRule>)>)
    ensures |es| == |bs|
    ensures forall i :: 0 <= i < |bs| ==> es[i].0 == bs[i].input
    ensures forall i :: 0 <= i < |bs| ==>
      es[i].1 == if corrected then ParseBlockCorrected(bs[i].text) else ParseBlock(bs[i].text)
  {
    seq(|bs|, i requires 0 <= i < |bs| =>
      (bs[i].input, if corrected then ParseBlockCorrected(bs[i].text) else ParseBlock(bs[i].text)))
  }

  /** `load_slicer_mappings`: `file` is the text of the specification, or None when the
      file does not exist, which yields an empty mapping. */
  function LoadSlicerMappings(file: Option<string>): (m: Mapping)
    ensures file.None? ==> m == []
    ensures Dict.DistinctKeys(m)
    ensures forall e :: e in m ==> e.1 != []
  {
    match file
    case None => []
    case Some(text) =>
      var es := ParsedBlocks(BlocksFrom(text, 0), false);
      CollectDistinct(es);
      Collect(es)
  }

  /** The same parse with the metadata lookup as intended. */
  function LoadSlicerMappingsCorrected(file: Option<string>): (m: Mapping)
    ensures file.None? ==> m == []
    ensures Dict.DistinctKeys(m)
    ensures forall e :: e in m ==> e.1 != []
  {
    match file
    case None => []
    case Some(text) =>
      var es := ParsedBlocks(BlocksFrom(text, 0), true);
      CollectDistinct(es);
      Collect(es)
  }

  /** As written, no rule of a loaded mapping carries metadata, so no sidecar file is
      ever produced by the slicer. */
  lemma LoadedMetadataAlwaysNone(text: string)
    ensures forall e, r :: e in LoadSlicerMappings(Some(text)) && r in e.1 ==> r.metadata.None?
  {
    var bs := BlocksFrom(text, 0);
    var es := ParsedBlocks(bs, false);
    assert LoadSlicerMappings(Some(text)) == Collect(es);
    forall e, r | e in Collect(es) && r in e.1 ensures r.metadata.None? {
      assert e in es;
      var i :| 0 <= i < |es| && es[i] == e;
      assert e.1 == ParseBlock(bs[i].text);
    }
  }

  /** `Collect` only looks at whether a block has rules: two entry lists that agree on
      inputs and on which blocks are empty give mappings with the same inputs. */
  lemma {:induction false} CollectKeysAgree(es1: seq<(string, seq<SliceRule>)>,
                                            es2: seq<(string, seq<SliceRule>)>)
    requires |es1| == |es2|
    requires forall i :: 0 <= i < |es1| ==> es1[i].0 == es2[i].0 && (es1[i].1 == [] <==> es2[i].1 == [])
    ensures Dict.Keys(Collect(es1)) == Dict.Keys(Collect(es2))
    decreases |es1|
  {
    if es1 != [] {
      var n := |es1| - 1;
      CollectKeysAgree(es1[..n], es2[..n]);
    }
  }

  /** The metadata fix adds or removes no input of the mapping (per block, it keeps
      every output name and box, `ParseBlockCorrected`). */
  lemma CorrectedKeepsMapping(text: string)
    ensures Dict.Keys(LoadSlicerMappingsCorrected(Some(text))) == Dict.Keys(LoadSlicerMappings(Some(text)))
  {
    var bs := BlocksFrom(text, 0);
    var es1 := ParsedBlocks(bs, true);
    var es2 := ParsedBlocks(bs, false);
    forall i | 0 <= i < |es1| ensures es1[i].1 == [] <==> es2[i].1 == [] {
      assert |Shape(es1[i].1)| == |Shape(es2[i].1)|;
    }
    CollectKeysAgree(es1, es2);
  }
}

=== FILE: text.dfy ===
/** The string operations of Python that the conversion pipeline relies on:
    `str.isspace`, `str.lower`, `in`, `str.find`, `str.replace`, `str.split`,
    `str.strip`, `str(n)` / `int(digits)`, and the pieces of `re` matching that the
    regular expressions of MewUpdater.py are built from. */
module Text {
  import opened Wrappers

  // ---------------------------------------------------------------------------
  // Character classes
  // ---------------------------------------------------------------------------

  /** Python's `str.isspace()`, which is also what `\s` matches in a `str` pattern
      and what `str.strip()` / `str.split()` remove. */
  predicate IsSpace(c: char) {
    || ('\t' <= c <= '\r')
    || ('\U{1C}' <= c <= ' ')
    || c == '\U{85}' || c == '\U{A0}' || c == '\U{1680}'
    || ('\U{2000}' <= c <= '\U{200A}')
    || c == '\U{2028}' || c == '\U{2029}' || c == '\U{202F}' || c == '\U{205F}'
    || c == '\U{3000}'
  }

  predicate NotSpace(c: char) { !IsSpace(c) }

  /** An ASCII decimal digit, the `0-9` of a character class. */
  predicate IsDigit(c: char) { '0' <= c <= '9' }

  predicate AllDigits(s: string) { forall i :: 0 <= i < |s| ==> IsDigit(s[i]) }

  /** Lower-casing of one character. Only ASCII letters are mapped: every pattern the
      pipeline tests a lower-cased file name against consists of ASCII letters other than
      'i' and 'k', and no other character lower-cases to one of those letters. */
  function LowerChar(c: char): char {
    if 'A' <= c <= 'Z' then (c as int + 32) as char else c
  }

  function Lower(s: string): (r: string)
    ensures |r| == |s|
    ensures forall i :: 0 <= i < |s| ==> r[i] == LowerChar(s[i])
  {
    seq(|s|, i requires 0 <= i < |s| => LowerChar(s[i]))
  }

  /** One character of a `re.IGNORECASE` match against a lower-case pattern character.
      The upper-case ASCII letter also matches, and so do the non-ASCII letters that
      sre puts in the same case class: U+0130 and U+0131 for 'i', U+017F for 's' and
      the Kelvin sign U+212A for 'k'. */
  predicate CaselessEq(c: char, p: char) {
    || c == p
    || ('a' <= p <= 'z' && c as int == p as int - 32)
    || (p == 'i' && (c == '\U{130}' || c == '\U{131}'))
    || (p == 's' && c == '\U{17F}')
    || (p == 'k' && c == '\U{212A}')
  }

  /** `word` (lower-case) matches case-insensitively at index `i` of `s`. */
  predicate CaselessAt(s: string, i: nat, word: string) {
    && i + |word| <= |s|
    && forall k :: 0 <= k < |word| ==> CaselessEq(s[i + k], word[k])
  }

  // ---------------------------------------------------------------------------
  // Scanning
  // ---------------------------------------------------------------------------

  /** The end of the longest run of characters satisfying `P` that starts at `i`:
      what a greedy `[...]*` consumes. */
  function Span(s: string, i: nat, P: char -> bool): (j: nat)
    requires i <= |s|
    ensures i <= j <= |s|
    ensures forall k :: i <= k < j ==> P(s[k])
    ensures j == |s| || !P(s[j])
    decreases |s| - i
  {
    if i == |s| || !P(s[i]) then i else Span(s, i + 1, P)
  }

  /** The index after the whitespace starting at `i` (a greedy `\s*`). */
  function SkipSpaces(s: string, i: nat): (j: nat)
    requires i <= |s|
    ensures i <= j <= |s|
    ensures forall k :: i <= k < j ==> IsSpace(s[k])
    ensures j == |s| || !IsSpace(s[j])
  {
    Span(s, i, IsSpace)
  }

  /** A run is determined by where it stops. */
  lemma SpanAt(s: string, i: nat, j: nat, P: char -> bool)
    requires i <= j <= |s|
    requires forall k :: i <= k < j ==> P(s[k])
    requires j == |s| || !P(s[j])
    ensures Span(s, i, P) == j
  {
  }

  /** `pattern.search(s, pos)`: the match found at the smallest index at or after `pos`
      where the pattern, given as its match-at-index function `At`, matches. */
  function SearchFrom<T>(s: string, pos: nat, At: (string, nat) -> Option<T>): (r: Option<(nat, T)>)
    requires pos <= |s|
    ensures r.Some? ==> pos <= r.value.0 <= |s| && At(s, r.value.0) == Some(r.value.1)
    ensures r.Some? ==> forall i :: pos <= i < r.value.0 ==> At(s, i).None?
    ensures r.None? ==> forall i :: pos <= i <= |s| ==> At(s, i).None?
    decreases |s| - pos
  {
    match At(s, pos)
    case Some(m) => Some((pos, m))
    case None => if pos == |s| then None else SearchFrom(s, pos + 1, At)
  }

  /** Every match of `At` that starts within `s` ends after its start and within `s`. */
  predicate Advances<T>(s: string, At: (string, nat) -> Option<T>, End: T -> nat) {
    forall i: nat :: i <= |s| && At(s, i).Some? ==> i < End(At(s, i).value) <= |s|
  }

  /** `re.finditer` from `pos` for a pattern with no empty match: the matches in order,
      with their start indices, each search resuming where the previous match ended.
      Nothing is skipped: the pattern matches nowhere before the first match, between
      the end of one match and the start of the next, or after the last. */
  function FindIter<T>(s: string, pos: nat, At: (string, nat) -> Option<T>, End: T -> nat)
    : (ms: seq<(nat, T)>)
    requires pos <= |s| && Advances(s, At, End)
    ensures forall k :: 0 <= k < |ms| ==> pos <= ms[k].0 && At(s, ms[k].0) == Some(ms[k].1)
    ensures forall k :: 0 <= k < |ms| - 1 ==> End(ms[k].1) <= ms[k + 1].0
    ensures ms != [] ==> End(ms[|ms| - 1].1) <= |s|
    decreases |s| - pos
  {
    match At(s, pos)
    case Some(m) => [(pos, m)] + FindIter(s, End(m), At, End)
    case None => if pos == |s| then [] else FindIter(s, pos + 1, At, End)
  }

  /** `At` matches at no index from `i` up to `j`. */
  predicate NoMatchIn<T>(s: string, At: (string, nat) -> Option<T>, i: nat, j: nat) {
    forall x :: i <= x < j ==> At(s, x).None?
  }

  /** The matches `ms`, found from `pos`, skip nothing: the pattern matches nowhere
      before the first match, between the end of one match and the start of the next,
      or after the last one (up to and including the end of the string). */
  predicate SkipsNothing<T>(s: string, At: (string, nat) -> Option<T>, End: T -> nat, pos: nat, ms: seq<(nat, T)>) {
    && (ms == [] ==> NoMatchIn(s, At, pos, |s| + 1))
    && (ms != [] ==> NoMatchIn(s, At, pos, ms[0].0))
    && (forall k :: 0 <= k < |ms| - 1 ==> NoMatchIn(s, At, End(ms[k].1), ms[k + 1].0))
    && (ms != [] ==> NoMatchIn(s, At, End(ms[|ms| - 1].1), |s| + 1))
  }

  /** `finditer` misses no match. */
  lemma {:induction false} FindIterComplete<T>(s: string, pos: nat, At: (string, nat) -> Option<T>, End: T -> nat)
    requires pos <= |s| && Advances(s, At, End)
    ensures SkipsNothing(s, At, End, pos, FindIter(s, pos, At, End))
    decreases |s| - pos
  {
    var ms := FindIter(s, pos, At, End);
    match At(s, pos)
    case Some(m) =>
      var rest := FindIter(s, End(m), At, End);
      FindIterComplete(s, End(m), At, End);
      assert ms == [(pos, m)] + rest;
      MatchThenSkipsNothing(s, At, End, pos, m, rest);
    case None =>
      if pos < |s| {
        FindIterComplete(s, pos + 1, At, End);
        assert ms == FindIter(s, pos + 1, At, End);
        MissThenSkipsNothing(s, At, End, pos, ms);
      } else {
        assert ms == [];
      }
  }

  lemma MissThenSkipsNothing<T>(s: string, At: (string, nat) -> Option<T>, End: T -> nat, pos: nat, ms: seq<(nat, T)>)
    requires At(s, pos).None?
    requires SkipsNothing(s, At, End, pos + 1, ms)
    ensures SkipsNothing(s, At, End, pos, ms)
  {
  }

  lemma MatchThenSkipsNothing<T>(s: string, At: (string, nat) -> Option<T>, End: T -> nat, pos: nat, m: T, rest: seq<(nat, T)>)
    requires SkipsNothing(s, At, End, End(m), rest)
    requires rest != [] ==> End(m) <= rest[0].0
    ensures SkipsNothing(s, At, End, pos, [(pos, m)] + rest)
  {
    var ms := [(pos, m)] + rest;
    assert NoMatchIn(s, At, pos, ms[0].0);
    if rest == [] {
      assert NoMatchIn(s, At, End(ms[0].1), |s| + 1);
    } else {
      assert ms[|ms| - 1] == rest[|rest| - 1];
    }
    forall k | 0 <= k < |ms| - 1 ensures NoMatchIn(s, At, End(ms[k].1), ms[k + 1].0) {
      if k > 0 {
        assert ms[k] == rest[k - 1] && ms[k + 1] == rest[k];
      }
    }
  }

  // ---------------------------------------------------------------------------
  // Substrings
  // ---------------------------------------------------------------------------

  predicate StartsWith(s: string, p: string) { |p| <= |s| && s[..|p|] == p }

  predicate EndsWith(s: string, p: string) { |p| <= |s| && s[|s| - |p|..] == p }

  /** `p` occurs in `s` at index `i`. */
  predicate OccursAt(s: string, p: string, i: nat) {
    i + |p| <= |s| && s[i..i + |p|] == p
  }

  /** Python's `p in s`. */
  predicate Contains(s: string, p: string) {
    exists i: nat :: i <= |s| && OccursAt(s, p, i)
  }

  /** Python's `s.find(p, from)`, as an option: the first occurrence at or after `from`. */
  function FindFrom(s: string, p: string, from: nat): (r: Option<nat>)
    ensures r.Some? ==> from <= r.value && OccursAt(s, p, r.value)
    ensures r.Some? ==> forall k: nat :: from <= k < r.value ==> !OccursAt(s, p, k)
    ensures r.None? ==> forall k: nat :: from <= k ==> !OccursAt(s, p, k)
    decreases |s| - from
  {
    if from + |p| > |s| then None
    else if s[from..from + |p|] == p then Some(from)
    else FindFrom(s, p, from + 1)
  }

  lemma ContainsIffFound(s: string, p: string)
    ensures Contains(s, p) <==> FindFrom(s, p, 0).Some?
  {
    if FindFrom(s, p, 0).Some? {
      assert OccursAt(s, p, FindFrom(s, p, 0).value);
    }
  }

  /** Python's `s.replace(p, r)`: every non-overlapping occurrence of `p`, scanning left to
      right, is replaced by `r`. */
  function Replace(s: string, p: string, r: string): (out: string)
    requires |p| > 0
    ensures !Contains(s, p) ==> out == s
    decreases |s|
  {
    ContainsIffFound(s, p);
    match FindFrom(s, p, 0)
    case None => s
    case Some(k) => s[..k] + r + Replace(s[k + |p|..], p, r)
  }

  /** Each occurrence replaced changes the length by the difference of the two lengths;
      the occurrences are one fewer than the pieces of the split. */
  lemma ReplaceLengthCount(s: string, p: string, r: string)
    requires |p| > 0
    ensures |Replace(s, p, r)| == |s| + (|Split(s, p)| - 1) * (|r| - |p|)
  {
    var parts := Split(s, p);
    ReplaceIsJoinOfSplit(s, p, r);
    JoinSplitRoundTrip(s, p);
    JoinLength(parts, r);
    JoinLength(parts, p);
    MulSub(|parts| - 1, |r|, |p|);
  }

  lemma MulSub(n: int, x: int, y: int)
    ensures n * (x - y) == n * x - n * y
  {
  }

  /** Python's `s.split(p)` for a non-empty separator. */
  function Split(s: string, p: string): (parts: seq<string>)
    requires |p| > 0
    ensures |parts| >= 1
    decreases |s|
  {
    match FindFrom(s, p, 0)
    case None => [s]
    case Some(k) => [s[..k]] + Split(s[k + |p|..], p)
  }

  /** Python's `sep.join(parts)`. */
  function Join(parts: seq<string>, sep: string): string
    decreases |parts|
  {
    if |parts| == 0 then ""
    else if |parts| == 1 then parts[0]
    else parts[0] + sep + Join(parts[1..], sep)
  }

  function TotalLength(parts: seq<string>): nat
    decreases |parts|
  {
    if parts == [] then 0 else |parts[0]| + TotalLength(parts[1..])
  }

  /** Replacing is splitting and re-joining with the replacement. */
  lemma {:induction false} ReplaceIsJoinOfSplit(s: string, p: string, r: string)
    requires |p| > 0
    ensures Replace(s, p, r) == Join(Split(s, p), r)
    decreases |s|
  {
    match FindFrom(s, p, 0)
    case None =>
    case Some(k) =>
      var rest := s[k + |p|..];
      var tail := Split(rest, p);
      ReplaceIsJoinOfSplit(rest, p, r);
      assert Replace(s, p, r) == s[..k] + r + Replace(rest, p, r);
      assert Split(s, p) == [s[..k]] + tail;
      assert ([s[..k]] + tail)[1..] == tail;
      assert Join([s[..k]] + tail, r) == s[..k] + r + Join(tail, r);
  }

  /** Splitting at a separator and joining with it again gives back the string. */
  lemma {:induction false} JoinSplitRoundTrip(s: string, p: string)
    requires |p| > 0
    ensures Join(Split(s, p), p) == s
    decreases |s|
  {
    match FindFrom(s, p, 0)
    case None =>
    case Some(k) =>
      var rest := s[k + |p|..];
      var tail := Split(rest, p);
      JoinSplitRoundTrip(rest, p);
      assert Split(s, p) == [s[..k]] + tail;
      assert ([s[..k]] + tail)[1..] == tail;
      assert Join(Split(s, p), p) == s[..k] + p + Join(tail, p);
      assert s[k..k + |p|] == p;
      assert s == s[..k] + s[k..k + |p|] + rest;
  }

  /** The text before the first occurrence of `p` does not contain `p`. */
  lemma BeforeFirstOccurrence(s: string, p: string, k: nat)
    requires |p| > 0
    requires FindFrom(s, p, 0) == Some(k)
    ensures !Contains(s[..k], p)
  {
    forall j: nat | j <= k ensures !OccursAt(s[..k], p, j) {
      if OccursAt(s[..k], p, j) {
        assert s[..k][j..j + |p|] == s[j..j + |p|];
        assert OccursAt(s, p, j);
      }
    }
  }

  /** No piece of a split contains the separator. */
  lemma {:induction false} SplitPiecesAvoidSeparator(s: string, p: string)
    requires |p| > 0
    ensures forall i :: 0 <= i < |Split(s, p)| ==> !Contains(Split(s, p)[i], p)
    decreases |s|
  {
    var f := FindFrom(s, p, 0);
    if f.None? {
      assert Split(s, p) == [s];
    } else {
      var k := f.value;
      var rest := s[k + |p|..];
      var tail := Split(rest, p);
      SplitPiecesAvoidSeparator(rest, p);
      BeforeFirstOccurrence(s, p, k);
      assert Split(s, p) == [s[..k]] + tail;
      forall i | 0 <= i < |Split(s, p)| ensures !Contains(Split(s, p)[i], p) {
        if i > 0 {
          assert Split(s, p)[i] == tail[i - 1];
        }
      }
    }
  }

  /** A string contains the separator exactly when splitting yields more than one piece. */
  lemma {:induction false} ContainsIffSplits(s: string, p: string)
    requires |p| > 0
    ensures Contains(s, p) <==> |Split(s, p)| >= 2
  {
    ContainsIffFound(s, p);
    match FindFrom(s, p, 0)
    case None =>
    case Some(k) =>
      assert |Split(s[k + |p|..], p)| >= 1;
  }

  lemma {:induction false} JoinLength(parts: seq<string>, sep: string)
    requires |parts| >= 1
    ensures |Join(parts, sep)| == TotalLength(parts) + (|parts| - 1) * |sep|
    decreases |parts|
  {
    if |parts| > 1 {
      JoinLength(parts[1..], sep);
    }
  }

  /** A replacement of a different length changes the string exactly when the pattern
      occurs in it. */
  lemma ReplaceChangesIff(s: string, p: string, r: string)
    requires |p| > 0 && |r| != |p|
    ensures Replace(s, p, r) == s <==> !Contains(s, p)
  {
    if Contains(s, p) {
      ReplaceLength(s, p, r);
    } else {
      ContainsIffFound(s, p);
    }
  }

  /** Each occurrence replaced adds the difference in length once. */
  lemma ReplaceLength(s: string, p: string, r: string)
    requires |p| > 0 && Contains(s, p)
    ensures |Replace(s, p, r)| != |s| || |r| == |p|
  {
    var parts := Split(s, p);
    ContainsIffSplits(s, p);
    ReplaceIsJoinOfSplit(s, p, r);
    JoinSplitRoundTrip(s, p);
    JoinLength(parts, r);
    JoinLength(parts, p);
    var n := |parts| - 1;
    assert n >= 1;
    if n * |r| == n * |p| {
      CancelFactor(n, |r|, |p|);
    }
  }

  lemma CancelFactor(n: int, x: int, y: int)
    requires n >= 1 && n * x == n * y
    ensures x == y
  {
  }

  /** With at least two pieces, the joined string determines the separator. */
  lemma JoinSeparatorInjective(parts: seq<string>, a: string, b: string)
    requires |parts| >= 2
    requires Join(parts, a) == Join(parts, b)
    ensures a == b
  {
    JoinLength(parts, a);
    JoinLength(parts, b);
    CancelFactor(|parts| - 1, |a|, |b|);
    JoinSecond(parts, a);
    JoinSecond(parts, b);
  }

  /** With at least two pieces, the separator follows the first piece. */
  lemma JoinSecond(parts: seq<string>, sep: string)
    requires |parts| >= 2
    ensures |parts[0]| + |sep| <= |Join(parts, sep)|
    ensures Join(parts, sep)[|parts[0]|..|parts[0]| + |sep|] == sep
  {
    assert Join(parts, sep) == parts[0] + sep + Join(parts[1..], sep);
  }

  // ---------------------------------------------------------------------------
  // Stripping and word splitting
  // ---------------------------------------------------------------------------

  /** The end of `s[..j]` once its trailing whitespace is dropped. */
  function TrimEnd(s: string, j: nat): (e: nat)
    requires j <= |s|
    ensures e <= j
    ensures forall k :: e <= k < j ==> IsSpace(s[k])
    ensures e == 0 || !IsSpace(s[e - 1])
    decreases j
  {
    if j == 0 || !IsSpace(s[j - 1]) then j else TrimEnd(s, j - 1)
  }

  /** Python's `s.strip()`: leading and trailing whitespace removed. The result is the
      part of `s` between a whitespace prefix and a whitespace suffix, and it neither
      starts nor ends with whitespace, which fixes it. */
  function Strip(s: string): (r: string)
    ensures r == [] <==> forall k :: 0 <= k < |s| ==> IsSpace(s[k])
    ensures r == [] || (!IsSpace(r[0]) && !IsSpace(r[|r| - 1]))
    ensures exists i, j :: 0 <= i <= j <= |s| && r == s[i..j] && Stripped(s, i, j)
  {
    var a := SkipSpaces(s, 0);
    var b := TrimEnd(s, |s|);
    if b <= a then
      assert a == |s|;
      assert [] == s[0..0] && Stripped(s, 0, 0);
      []
    else
      assert Stripped(s, a, b);
      s[a..b]
  }

  /** Everything of `s` outside `s[i..j]` is whitespace. */
  predicate Stripped(s: string, i: nat, j: nat)
    requires i <= j <= |s|
  {
    && (forall k :: 0 <= k < i ==> IsSpace(s[k]))
    && (forall k :: j <= k < |s| ==> IsSpace(s[k]))
  }

  /** A string that neither starts nor ends with whitespace is its own strip. */
  lemma StripUnchanged(s: string)
    requires s == [] || (!IsSpace(s[0]) && !IsSpace(s[|s| - 1]))
    ensures Strip(s) == s
  {
  }

  /** Python's `s.split()`: the maximal runs of non-whitespace, in order. */
  function Words(s: string): (ws: seq<string>)
    ensures forall i :: 0 <= i < |ws| ==> |ws[i]| > 0
    ensures forall i, k :: 0 <= i < |ws| && 0 <= k < |ws[i]| ==> !IsSpace(ws[i][k])
    ensures ws == [] <==> forall k :: 0 <= k < |s| ==> IsSpace(s[k])
    decreases |s|
  {
    if s == [] then []
    else if IsSpace(s[0]) then
      var ws := Words(s[1..]);
      assert forall k :: 1 <= k < |s| ==> s[k] == s[1..][k - 1];
      ws
    else
      var b := Span(s, 0, NotSpace);
      [s[..b]] + Words(s[b..])
  }

  predicate HasSpace(s: string) { exists k :: 0 <= k < |s| && IsSpace(s[k]) }

  /** Words separated by single spaces are read back by `split()`. */
  lemma {:induction false} WordsJoinRoundTrip(ws: seq<string>)
    requires forall i :: 0 <= i < |ws| ==> ws[i] != [] && !HasSpace(ws[i])
    ensures Words(Join(ws, " ")) == ws
    decreases |ws|
  {
    if ws != [] {
      var w := ws[0];
      var rest := if |ws| == 1 then "" else " " + Join(ws[1..], " ");
      var s := w + rest;
      assert Join(ws, " ") == s;
      assert s[0] == w[0];
      forall k | 0 <= k < |w| ensures NotSpace(s[k]) {
        assert s[k] == w[k];
      }
      SpanAt(s, 0, |w|, NotSpace);
      assert s[..|w|] == w;
      assert s[|w|..] == rest;
      if |ws| == 1 {
        assert ws == [w];
      } else {
        WordsJoinRoundTrip(ws[1..]);
        assert rest[1..] == Join(ws[1..], " ");
        assert [w] + ws[1..] == ws;
      }
    }
  }

  // ---------------------------------------------------------------------------
  // Decimal numerals
  // ---------------------------------------------------------------------------

  function DigitChar(d: nat): char
    requires d < 10
  {
    ('0' as int + d) as char
  }

  /** Python's `str(n)` for a natural number. */
  function Decimal(n: nat): (r: string)
    ensures |r| >= 1 && AllDigits(r)
    decreases n
  {
    if n < 10 then [DigitChar(n)] else Decimal(n / 10) + [DigitChar(n % 10)]
  }

  /** Python's `int(s)` for a string of ASCII digits (leading zeros allowed). */
  function DigitsValue(s: string): nat
    requires AllDigits(s)
    decreases |s|
  {
    if s == [] then 0
    else DigitsValue(s[..|s| - 1]) * 10 + (s[|s| - 1] as int - '0' as int)
  }

  /** `int(str(n)) == n`. */
  lemma {:induction false} DecimalRoundTrip(n: nat)
    ensures DigitsValue(Decimal(n)) == n
    decreases n
  {
    if n >= 10 {
      DecimalRoundTrip(n / 10);
      var s := Decimal(n);
      assert s[..|s| - 1] == Decimal(n / 10);
    }
  }

  /** Different numbers have different numerals. */
  lemma DecimalInjective(a: nat, b: nat)
    requires Decimal(a) == Decimal(b)
    ensures a == b
  {
    DecimalRoundTrip(a);
    DecimalRoundTrip(b);
  }
}

=== FILE: trims.dfy ===
/** The armor-trim pass (`transform_trims`, MewUpdater.py:256-281): every file of
    `textures/trims/models/armor` goes to `textures/trims/entity/humanoid_leggings`
    with `_leggings` removed from its name when the name contains `_leggings`, and to
    `textures/trims/entity/humanoid` unchanged otherwise. */
module Trims {
  import opened Wrappers
  import opened Text
  import CopyPass

  type Path = CopyPass.Path

  const Leggings := "_leggings"

  /** `fn.replace("_leggings", "")`: a name changes exactly when it contains
      `_leggings`. */
  function TrimName(fn: string): (r: string)
    ensures r == fn <==> !Contains(fn, Leggings)
  {
    ReplaceChangesIff(fn, Leggings, "");
    Replace(fn, Leggings, "")
  }

  /** `os.path.join(root, "assets", "minecraft", "textures", "trims", "entity", folder, name)`,
      relative to `root`. */
  function TrimsEntity(folder: string, name: string): Path {
    ["assets", "minecraft", "textures", "trims", "entity", folder, name]
  }

  /** The destination of MewUpdater.py:265-269: the leggings folder exactly for a name
      containing `_leggings`, and always the trimmed name, which is the name itself
      for every other file. */
  function TrimDestination(fn: string): (d: Path)
    ensures |d| == 7 && d[..5] == ["assets", "minecraft", "textures", "trims", "entity"]
    ensures d[5] == (if Contains(fn, Leggings) then "humanoid_leggings" else "humanoid")
    ensures d[6] == TrimName(fn)
  {
    if Contains(fn, Leggings) then TrimsEntity("humanoid_leggings", TrimName(fn))
    else TrimsEntity("humanoid", fn)
  }

  /** A name goes to the leggings folder exactly when it contains `_leggings`; any other
      name keeps its name. */
  lemma TrimFolder(fn: string)
    ensures TrimDestination(fn)[5] == "humanoid_leggings" <==> Contains(fn, Leggings)
    ensures !Contains(fn, Leggings) ==> TrimDestination(fn)[6] == fn
  {
  }

  /** The renamed file is the original cut at every `_leggings` and glued back without
      it: the original is the same pieces joined with `_leggings`, and no piece
      contains `_leggings`. The new name is 9 characters shorter per removed
      occurrence. */
  lemma TrimRenamePieces(fn: string)
    ensures var pieces := Split(fn, Leggings);
      && Join(pieces, Leggings) == fn
      && Join(pieces, "") == TrimName(fn)
      && (forall i :: 0 <= i < |pieces| ==> !Contains(pieces[i], Leggings))
      && |TrimName(fn)| == |fn| - 9 * (|pieces| - 1)
  {
    var pieces := Split(fn, Leggings);
    JoinSplitRoundTrip(fn, Leggings);
    ReplaceIsJoinOfSplit(fn, Leggings, "");
    SplitPiecesAvoidSeparator(fn, Leggings);
    JoinLength(pieces, "");
    JoinLength(pieces, Leggings);
  }

  /** The first occurrence, once every earlier position is ruled out. */
  lemma FirstOccurrence(s: string, k: nat)
    requires OccursAt(s, Leggings, k)
    requires forall j :: 0 <= j < k ==> s[j] != '_' || s[j + 4] != 'g'
    ensures FindFrom(s, Leggings, 0) == Some(k)
  {
    forall j: nat | j < k ensures !OccursAt(s, Leggings, j) {
      assert s[j..j + 9][0] == s[j] && s[j..j + 9][4] == s[j + 4];
    }
  }

  /** With a single occurrence, only it is removed. */
  lemma RemoveOnce(fn: string, k: nat)
    requires FindFrom(fn, Leggings, 0) == Some(k)
    requires FindFrom(fn[k + 9..], Leggings, 0).None?
    ensures TrimName(fn) == fn[..k] + fn[k + 9..]
  {
    assert |Leggings| == 9;
    assert fn[..k] + "" == fn[..k];
    assert Replace(fn[k + 9..], Leggings, "") == fn[k + 9..];
  }

  lemma ChainmailOccurrence()
    ensures FindFrom("chainmail_leggings.png", Leggings, 0) == Some(9)
    ensures FindFrom("chainmail_leggings.png"[18..], Leggings, 0).None?
  {
    var fn := "chainmail_leggings.png";
    assert OccursAt(fn, Leggings, 9);
    FirstOccurrence(fn, 9);
    assert fn[18..] == ".png";
  }

  /** A leggings name with one plain occurrence loses exactly that occurrence. */
  lemma ChainmailScenario()
    ensures TrimDestination("chainmail_leggings.png") == TrimsEntity("humanoid_leggings", "chainmail.png")
  {
    var fn := "chainmail_leggings.png";
    ChainmailOccurrence();
    RemoveOnce(fn, 9);
    ChainmailPieces();
    assert Contains(fn, Leggings);
  }

  lemma ChainmailPieces()
    ensures "chainmail_leggings.png"[..9] + "chainmail_leggings.png"[18..] == "chainmail.png"
  {
    var fn := "chainmail_leggings.png";
    assert fn[..9] == "chainmail";
    assert fn[18..] == ".png";
  }

  lemma LeftoverOccurrence()
    ensures FindFrom("_leg_leggingsgings.png", Leggings, 0) == Some(4)
    ensures FindFrom("_leg_leggingsgings.png"[13..], Leggings, 0).None?
  {
    var fn := "_leg_leggingsgings.png";
    assert OccursAt(fn, Leggings, 4);
    FirstOccurrence(fn, 4);
    var rest := fn[13..];
    assert rest[..9][0] != Leggings[0];
  }

  /** Removing every occurrence can make a new one: `_leg_leggingsgings.png` becomes
      `_leggings.png`, which still contains `_leggings`. */
  lemma LeftoverScenario()
    ensures TrimName("_leg_leggingsgings.png") == "_leggings.png"
    ensures Contains(TrimName("_leg_leggingsgings.png"), Leggings)
  {
    var fn := "_leg_leggingsgings.png";
    LeftoverOccurrence();
    RemoveOnce(fn, 4);
    LeftoverPieces();
    assert OccursAt("_leggings.png", Leggings, 0);
  }

  lemma LeftoverPieces()
    ensures "_leg_leggingsgings.png"[..4] + "_leg_leggingsgings.png"[13..] == "_leggings.png"
  {
    var fn := "_leg_leggingsgings.png";
    assert fn[..4] == "_leg";
    assert fn[13..] == "gings.png";
  }

  /** A listed entry of the trims folder; `isFile` is `os.path.isfile`. */
  datatype TrimEntry = TrimEntry(name: string, isFile: bool)

  /** Entries that are not files are skipped without a tick. */
  function Route(e: TrimEntry): Option<Path> {
    if e.isFile then Some(TrimDestination(e.name)) else None
  }

  /** The loop of MewUpdater.py:258-280 over the listing. `MakesDir` says whether
      `safe_mkdir` can make a destination's folder; when it cannot, the run stops. */
  function TrimPass(entries: seq<TrimEntry>, MakesDir: Path -> bool, Copies: (TrimEntry, Path) -> bool)
    : (r: Result<CopyPass.Report<TrimEntry>>)
    ensures r.Ok? <==> forall i :: 0 <= i < |entries| && entries[i].isFile ==> MakesDir(TrimDestination(entries[i].name))
  {
    CopyPass.Run(entries, Route, MakesDir, Copies)
  }

  /** Every file of the listing whose copy succeeds is transferred to its destination and
      nothing else is; each file ticks once, and a non-file entry changes nothing. */
  lemma TrimPassTransfers(entries: seq<TrimEntry>, MakesDir: Path -> bool, Copies: (TrimEntry, Path) -> bool)
    requires TrimPass(entries, MakesDir, Copies).Ok?
    ensures forall t :: t in TrimPass(entries, MakesDir, Copies).value.transfers <==>
      t.source in entries && t.source.isFile && t.destination == TrimDestination(t.source.name)
      && Copies(t.source, t.destination)
    ensures TrimPass(entries, MakesDir, Copies).value.ticks == |CopyPass.Routed(entries, Route)|
    ensures TrimPass(entries, MakesDir, Copies) == TrimPass(CopyPass.Routed(entries, Route), MakesDir, Copies)
  {
    CopyPass.RunTransfers(entries, Route, MakesDir, Copies);
    CopyPass.RunTicks(entries, Route, MakesDir, Copies);
    CopyPass.RunIgnoresUnrouted(entries, Route, MakesDir, Copies);
  }
}

=== FILE: wrappers.dfy ===
/** Small failure-carrying datatypes shared by every module of the model. */
module Wrappers {

  /** A value that may be absent (Python's `None`). */
  datatype Option<+T> = None | Some(value: T)

  /** Why a conversion run stops as a whole: the Python exceptions that escape the
      per-item `try` blocks and reach the worker's catch-all. */
  datatype Fatal =
    | ZeroReferenceSize(input: string, output: string)  // ZeroDivisionError in the crop maths
    | DescriptorNotAnObject                             // pack.mcmeta holds a list, string, number, ...
    | PackEntryNotAnObject                              // "pack" holds something other than an object
    | FolderNotCreated(destination: string)             // os.makedirs fails for a destination's folder

  /** Outcome of a step that either succeeds or aborts the run. */
  datatype Result<+T> = Ok(value: T) | Err(error: Fatal)
}
